=== FILE: README.md ===
# lb-sat core in Dafny

lb-sat computes I/O lower bounds for a computation DAG through the red/blue pebble
game. It encodes "can this DAG be evaluated within `maxTime` dates and with
`nbRedPebbles` registers?" as a SAT problem. The moves are Load (R1), Store (R2),
Compute (R3) and Delete (R4), each taken by one node at one date. When the solver
finds a model, the tool replays the model's true moves against a register file to
check them and to count their I/O cost.

This project models the four sequential pieces of that pipeline as pure Dafny
functions and methods over index-based graphs and a small formula AST:

- **Graph builder** (`Graph`, from datastruct.cpp). A 1-based dependency table becomes
  nodes with cross-linked predecessor and successor lists. The DAG record lists the
  input nodes (no predecessors) and the output nodes (no successors).
- **Mobility analysis** (`Mobility`, from `preProcessASAP`, `preProcessALAP` and
  `preProcessDAG`). ASAP and ALAP are recursive bounds over the DAG.
  - They are modelled on `int`, with a uint32 companion for ALAP that wraps exactly
    as the source does.
  - A depth-first traversal from the input or output nodes computes them.
- **Symbols, registry and formulas** (`Symbols`, `Registry`, `Formulas`).
  - A symbol is a (node, rule, date) triple named `R<k>(<num>,<date>)`.
  - The registry is an ordered list of such triples with an idempotent add and a
    lookup by name.
  - Formulas are a small AST with `Var`, `And`, `Or`, `Not`, `AtMost` and a weighted
    sum bounded above, plus `Eval` under an arbitrary assignment. The assignment
    stands in for the SAT solver.
- **Constraint encoder** (`Encoder`, from `buildConstraintsComputable`,
  `noTwoSimultaneousNodes`, `createLimitedPebbleConstraint` and `dagToConstraints`).
  - Each builder returns its formulas together with the exact list of `ruleSymbol`
    calls it makes. Registering that list is the builder's effect on the registry.
  - Each formula is given an independent, declarative meaning, and lemmas prove that
    `Eval` agrees with it.
  - The builders take a `P4Form`. `AsWritten` builds P4 exactly as the source does, with
    the disjunction of the predecessor's stores registered but left out of the formula.
    `Corrected` conjoins its negation, as the source's comments describe. Every meaning
    lemma is proved for both forms; the only difference is the "not stored since" clause.
  - z3's `atmost` and `sum` fail on an empty vector. A node with an empty window keeps
    only its OR, because that failure is caught. A date below `maxTime` with no
    registered symbol ends the encoding, because there the failure is not caught.
- **Schedule validity simulator** (`Simulator`, from main.cpp).
  - The true constants of a model are looked up in the registry.
  - The resulting symbols are replayed date by date against `nbRedPebbles` register
    slots. The replay checks every move's precondition in the source's order and
    counts loads and stores.

Node references are 0-based indices into the node sequence. The solver is an
arbitrary `Assignment` (a function from symbols to booleans), and a solver model is
a list of named Boolean constants.

## Model

| member | source | states |
|---|---|---|
| Symbols.ParseNatToString | sat-version.cpp:52 | the decimal rendering of a date or node number reads back as the same number |
| Symbols.NatToStringInjective | sat-version.cpp:52 | two numbers have the same decimal rendering exactly when they are equal |
| Symbols.RuleToString | sat-version.cpp:32-48 | a rule's name is "R" followed by one digit from 1 to 4 |
| Symbols.SymbolName | sat-version.cpp:51-53 | a name has the form `R<k>(num,date)`, where num and date are digit strings that read back as the 1-based node number and the date |
| Symbols.SymbolNameInjective | sat-version.cpp:32-53 | two symbols get the same `R<k>(num,date)` name exactly when they have the same rule, node and date, which makes a lookup by name unambiguous |
| Formulas.CountZero | sat-version.cpp:172 | a count of true entries is zero exactly when no entry is true |
| Formulas.CountAtMostOne | sat-version.cpp:172 | `atmost(v, 1)` holds exactly when no two distinct entries are both true |
| Formulas.ExactlyOne | sat-version.cpp:293-295 | the OR of the disjuncts together with at-most-one of them holds exactly when a single disjunct is true |
| Formulas.ExactlyOneAt | sat-version.cpp:293-295 | the same statement phrased over dates: when disjunct k means "property P at date lo+k", the pair holds exactly when P holds at exactly one date of the window |
| Registry.IndexOf | sat-version.cpp:72-75 | the search stops at the first entry equal to the triple, or at the end when there is none |
| Registry.AddRegistered | sat-version.cpp:71-79 | a present triple leaves the list unchanged; otherwise the triple is appended after the existing entries; the list stays duplicate-free |
| Registry.AddRegisteredIdempotent | sat-version.cpp:71-79 | adding the same triple twice is the same as adding it once |
| Registry.AddAll | sat-version.cpp:81-86 | registering a sequence of calls extends the list; its members are the old ones plus the calls; it stays duplicate-free |
| Registry.AddAllAppend | sat-version.cpp:81-86 | registering two call lists one after the other is the same as registering their concatenation |
| Registry.LookupRegistered | sat-version.cpp:55-69 | success returns a registered symbol with that name; failure happens exactly when no registered symbol has the name, and its message is "Symbol not found: " followed by the name |
| Registry.RuleSymbol | sat-version.cpp:81-86 | returns the variable of the triple and the registry with the triple added |
| Registry.LookupAfterRuleSymbol | sat-version.cpp:51-86 | after `ruleSymbol(n,r,t)`, looking up its name returns exactly that triple |
| Registry.FreshBoolSymbols | sat-version.cpp:88-99 | returns one variable per date 0..maxTime-1 in date order, registers all of them, and adds nothing else |
| Graph.LinkTable | datastruct.cpp:79-104 | each row's predecessors are its nonzero entries minus one, in slot order; each node's successors are the rows naming it, in increasing row order |
| Graph.MatrixToNodes | datastruct.cpp:75-108 | node i gets num i+1, asap UINT32_MAX, alap 0 and deleted false; the predecessor count is the number of nonzero slots; every reference is in range; p occurs in preds(i) as often as i occurs in succs(p) |
| Graph.PredCountIsUsedSlots | datastruct.cpp:84-94 | the predecessor count of a row is its number of nonzero entries |
| Graph.OccurrencesInPreds | datastruct.cpp:84-95 | p occurs among a row's predecessors as often as p+1 occurs in the row |
| Graph.OccurrencesInSuccs | datastruct.cpp:97-101 | i occurs among p's successors as often as p+1 occurs in row i |
| Graph.EdgeMultiplicity | datastruct.cpp:91-101 | p occurs in preds(i) exactly as many times as i occurs in succs(p) |
| Graph.PredsInRange | datastruct.cpp:85-95 | when every entry is at most n, every predecessor index is below n |
| Graph.SuccsOrdered | datastruct.cpp:97-101 | successor lists hold valid row indices in non-decreasing order |
| Graph.TotalEdges | datastruct.cpp:91-101 | the total predecessor count over the table equals the total successor count |
| Graph.BuilderCrossLinked | datastruct.cpp:75-108 | nodes whose successor lists are the builder's, whose predecessors are in range and whose edge multiplicities agree are cross-linked: every successor index is in range and each link has its reverse |
| Graph.CrossLinkedFromCounts | datastruct.cpp:91-101 | when p occurs in preds(i) as often as i occurs in succs(p), p is a predecessor of i exactly when i is a successor of p |
| Graph.CreateDagStructure | datastruct.cpp:18-73 | keeps the node array and count; the input list holds exactly the nodes without predecessors and the output list exactly the nodes without successors, each once and in increasing order |
| Mobility.BuildDag | main.cpp:725-726 | the table becomes a DAG over all its rows; node i's predecessors are row i's nonzero entries minus one; when those dependencies are acyclic the DAG is well formed, with cross-links and exact input and output lists |
| Mobility.AsapStep | sat-version.cpp:331-341 | with non-negative predecessor values the result is at least the predecessor count and above every predecessor's value |
| Mobility.AsapBounds | sat-version.cpp:330-341 | ASAP is 0 exactly for nodes without predecessors, is at least the predecessor count, and exceeds every predecessor's ASAP |
| Mobility.AlapStep | sat-version.cpp:348-360 | the result is below every successor's value and at most maxTime when the successors' values are |
| Mobility.AlapBounds | sat-version.cpp:347-360 | ALAP is maxTime for nodes without successors, never exceeds maxTime, and is below every successor's ALAP |
| Mobility.Wrap | sat-version.cpp:356 | the uint32 reduction leaves values in range alone and adds 2^32 to a small negative value |
| Mobility.AlapStepU32 | sat-version.cpp:356 | the wrapped ALAP step stays within uint32 |
| Mobility.SourceWarnsIffBothWrap | sat-version.cpp:356-359 | for fewer than 2^31 successors, the source's `alap > maxSuccAlap` warning fires exactly when both subtractions wrap |
| Mobility.SourceWarningIsSound | sat-version.cpp:356-359 | when the warning fires, the exact ALAP is negative |
| Mobility.UnderflowMissedByWarning | sat-version.cpp:356-361 | there are successor ALAPs for which the exact ALAP is negative and the warning stays silent, both when only the first term wraps and when only the second does |
| Mobility.AlapU32 | sat-version.cpp:347-360 | the wrapped ALAP of every node stays within uint32 |
| Mobility.AlapStepU32Agrees | sat-version.cpp:356 | without underflow the wrapped step equals the exact one |
| Mobility.AlapU32Agrees | sat-version.cpp:347-360 | when a node's exact ALAP is non-negative, the source's wrapped ALAP equals it |
| Mobility.AlapU32Bounds | sat-version.cpp:347-360 | without underflow the source's ALAP is at most maxTime and below every successor's ALAP |
| Mobility.Gather | sat-version.cpp:336-337 | picks each neighbour's current value, in neighbour order |
| Mobility.StepGivesBound | sat-version.cpp:340 | once every neighbour holds its final bound, one step gives the node its final bound |
| Mobility.VisitCorrect | sat-version.cpp:330-366 | visiting a node only writes final bounds, and afterwards the node and everything it reaches hold their final bounds |
| Mobility.VisitNeighborsCorrect | sat-version.cpp:334-338 | the loop over the neighbours settles every neighbour visited so far and writes only final bounds |
| Mobility.VisitAllCorrect | sat-version.cpp:368-378 | visiting a list of start nodes settles each of them and writes only final bounds |
| Mobility.VisitAllSettlesOne | sat-version.cpp:368-378 | the nodes reached from any one start keep their final bounds through the visits from the later starts |
| Mobility.ReachesExtend | sat-version.cpp:335 | reachability extends by one more edge in the direction of the traversal |
| Mobility.EveryNodeReached | sat-version.cpp:368-378 | in a cross-linked acyclic DAG every node is reached from some input node (for ALAP) or some output node (for ASAP) |
| Mobility.VisitAllSettlesAll | sat-version.cpp:368-378 | the traversal from all input nodes (or all output nodes) gives every node its final bound |
| Mobility.VisitFromStarts | sat-version.cpp:368-378 | the computed values are the ASAP or ALAP of every node |
| Mobility.StoreBoundsAnnotated | sat-version.cpp:368-378 | storing the exact ASAP and ALAP of every node, none negative, gives the annotated DAG, whose ALAPs are also the uint32 values the source stores |
| Mobility.PreProcessDag | sat-version.cpp:368-378 | fails exactly when some ALAP would be negative, naming the first such node; otherwise every node carries its exact ASAP and ALAP and nothing else changes |
| Encoder.Dated | sat-version.cpp:225-226 | the symbols of one node and rule over a date range, one per date, in date order |
| Encoder.InFlatten | sat-version.cpp:180-295 | a symbol is in a concatenation of call lists exactly when it is in one of them |
| Encoder.AnyOfMeans | sat-version.cpp:224-228 | the OR over a date range holds exactly when some symbol of the range is true; over an empty range it is false |
| Encoder.NotAnyOfMeans | sat-version.cpp:224-228 | its negation holds exactly when no symbol of the range is true |
| Encoder.ComputedAndKeptMeans | sat-version.cpp:220-229 | one term of the earlier-compute disjunction holds exactly when the predecessor is computed at ttt and not deleted at any date ttt..t |
| Encoder.ComputedBeforeMeans | sat-version.cpp:219-233 | the earlier-compute disjunction holds exactly when some compute at a date in [asap, tt) is followed by no delete up to t |
| Encoder.ReadyIntermediateAsWrittenMeans | sat-version.cpp:213-244 | the source's P4 holds exactly when the predecessor is computed at tt, or is loaded at tt after a compute that is kept |
| Encoder.ReadyIntermediateMeans | sat-version.cpp:204-244 | the corrected P4 holds exactly when the source's P4 holds and no store of the predecessor happens at any date tt..t |
| Encoder.SpillIgnoredAsWritten | sat-version.cpp:235-243 | for every window, an assignment with a compute at tt and a store inside the window satisfies the source's P4 but not the corrected one |
| Encoder.SpillsRegisteredButUnused | sat-version.cpp:235-243 | the store symbols of the window are registered while the source's P4 does not mention them |
| Encoder.ReadyAtMeans | sat-version.cpp:206-261 | an input predecessor is ready at tt exactly when it is loaded at tt and never deleted before t; an intermediate predecessor exactly when it is computed at tt, or loaded at tt after a compute kept until t; under the corrected form it must also not be stored from tt to t |
| Encoder.AvailableMeans | sat-version.cpp:206-265 | for either form of P4, the disjunction over tt in [pred.asap, t) holds exactly when the predecessor is available by the declarative definition of that form |
| Encoder.SpillSeparatesForms | sat-version.cpp:235-265 | a computed predecessor that is stored between its compute and its use is available under the source's P4 and not under the corrected one |
| Encoder.PredConstraintMeans | sat-version.cpp:263-274 | for either form, a predecessor's constraint holds exactly when it is available and deleted at some date in (t, maxTime) |
| Encoder.DisjunctMeans | sat-version.cpp:188-290 | for either form, the date-t disjunct holds exactly when node n is computed at t, every predecessor is available and later deleted, and an output is stored after t |
| Encoder.DisjunctsMean | sat-version.cpp:188-292 | there is one disjunct per date of [asap, alap], and the k-th has that meaning at date asap+k |
| Encoder.NodeFormulasMean | sat-version.cpp:293-295 | a node's two constraints hold exactly when it is scheduled at exactly one date of its window |
| Encoder.ReadyIntermediateAsWrittenAtoms | sat-version.cpp:213-244 | the source's P4 mentions only the load and compute of the predecessor at tt and the computes and deletes of the earlier-compute disjunction, none of the store variables registered with it |
| Encoder.ReadyIntermediateAtoms | sat-version.cpp:213-244 | every symbol the corrected P4 mentions is among the symbols registered for it |
| Encoder.NodeFormulasAtoms | sat-version.cpp:180-295 | every symbol a node's constraints mention is registered by building them |
| Encoder.BuildConstraintsComputable | sat-version.cpp:180-301 | appends two constraints, or only the OR when the window is empty (the at-most-one over no disjuncts fails inside the try block and is dropped); the registry grows by exactly the node's calls and stays duplicate-free; every atom is registered |
| Encoder.BuildConstraintsComputableMeans | sat-version.cpp:180-301 | the appended constraints hold exactly when the node is scheduled at exactly one date of its window |
| Encoder.NodesConstraints | sat-version.cpp:308-316 | two constraints per computed node, less one per computed node whose window is empty, with every atom registered |
| Encoder.NodesConstraintsStep | sat-version.cpp:310-316 | an input node adds nothing; a computed node adds exactly the "scheduled once" requirement |
| Encoder.AllScheduledStep | sat-version.cpp:310-316 | the declarative "every computed node is scheduled once" extends node by node |
| Encoder.NodesConstraintsMean | sat-version.cpp:308-316 | the per-node constraints hold exactly when every computed node is scheduled exactly once |
| Encoder.DatedAt | sat-version.cpp:164-170 | the registered symbols dated t, with no duplicates |
| Encoder.NoTwoSimultaneousNodes | sat-version.cpp:156-176 | fails exactly when some date below maxTime has no registered symbol, naming the first such date (the `atmost` of an empty vector); otherwise appends exactly maxTime constraints over registered atoms |
| Encoder.FirstUndated | sat-version.cpp:162-172 | the first date from t up to maxTime with no registered symbol, or none when every such date has one |
| Encoder.DatedAtEmpty | sat-version.cpp:165-170 | the symbols collected for date t are none exactly when no registered symbol is dated t |
| Encoder.NoTwoSimultaneousNodesMeans | sat-version.cpp:162-174 | the t-th constraint holds exactly when at most one registered symbol dated t is true |
| Encoder.AllHoldExclusive | sat-version.cpp:162-174 | all exclusivity constraints hold exactly when no date has two true registered symbols |
| Encoder.SortByDate | sat-version.cpp:103-115 | the result is sorted by date and is a permutation of the registry |
| Encoder.ScanUpTo | sat-version.cpp:129 | the scan stops at the first symbol dated after t |
| Encoder.Terms | sat-version.cpp:130-146 | one weighted term per scanned symbol |
| Encoder.LimitedPebbleConstraints | sat-version.cpp:109-152 | fails exactly when some date below maxTime precedes every registered date (the `sum` of an empty vector), and then date 0 is one; otherwise appends exactly maxTime constraints over registered atoms |
| Encoder.ScanEmptyIffNoneDatedBy | sat-version.cpp:115-130 | the sorted scan up to t collects nothing exactly when no registered symbol is dated at most t |
| Encoder.ExclusiveThenCapacity | sat-version.cpp:318-322 | once the exclusivity constraints were built, the capacity constraints are built too |
| Encoder.RunningLoadPermutation | sat-version.cpp:115 | the running load does not depend on the order of the symbols, so sorting does not change its meaning |
| Encoder.ScanPrefixLoad | sat-version.cpp:126-147 | on a date-sorted list, the sum over the scanned prefix equals the load over all symbols dated at most t |
| Encoder.LimitedPebbleConstraintMeans | sat-version.cpp:126-151 | the t-th constraint holds exactly when true loads and computes minus true stores and deletes, over symbols dated at most t, are at most nbRedPebbles |
| Encoder.AllHoldCapacity | sat-version.cpp:126-151 | all capacity constraints hold exactly when the running load stays within the registers at every date |
| Encoder.EncodeDag | sat-version.cpp:303-324 | fails exactly when, after the node constraints, some date below maxTime has no registered symbol, naming the first; otherwise every such date has one, and the output has two constraints per computed node, less one per empty window, plus two per date, over registered atoms, with a duplicate-free registry |
| Encoder.EncodeDagMeans | sat-version.cpp:303-324 | for either form, the whole encoding holds exactly when every computed node is scheduled once, no date has two moves, and the capacity is respected |
| Encoder.DagToConstraints | sat-version.cpp:303-324 | reports an infeasible deadline exactly when some ALAP is negative, and a date with nothing registered exactly when the annotated DAG's encoding fails there; otherwise annotates the DAG, appends the encoding, and the appended constraints hold exactly under schedulable assignments; with `AsWritten` this is the source's encoding |
| Encoder.AnnotatedUnique | sat-version.cpp:368-378 | the bounds the pre-processing stores on a DAG are determined by the DAG and the deadline |
| Encoder.SameComputedCount | sat-version.cpp:310-316 | annotating ASAP and ALAP does not change which nodes get constraints |
| Simulator.ExtractSchedule | main.cpp:759-768 | fails exactly when a true constant names no registered symbol; otherwise the result holds exactly the registered symbols named by true constants |
| Simulator.BindingsOf | main.cpp:761-763 | one named Boolean constant per symbol, valued by the assignment |
| Simulator.TrueSymbols | main.cpp:764-766 | exactly the symbols the assignment makes true |
| Simulator.ExtractFromAssignment | main.cpp:761-768 | for a model whose constants are registered symbols, extraction returns exactly the symbols the assignment makes true |
| Simulator.Occupied | main.cpp:782 | occupancy never exceeds the register file's size and equals it exactly when no slot is free |
| Simulator.FirstFree | main.cpp:791 | the lowest free slot, or the size when every slot is occupied |
| Simulator.FirstHolding | main.cpp:805 | the lowest slot holding the node, or the size when none does |
| Simulator.CheckPreds | main.cpp:819-832 | no violation exactly when every predecessor is in a slot and not deleted; otherwise the first unusable predecessor decides between missing and deleted |
| Simulator.Step | main.cpp:789-853 | a move succeeds exactly when its precondition holds: a free slot and not deleted for Load; present and not deleted for Store and Delete; usable predecessors and a free slot for Compute |
| Simulator.FillEffect | main.cpp:800 | filling a free slot occupies one more register |
| Simulator.ClearEffect | main.cpp:814 | clearing a slot frees one register |
| Simulator.StepFills | main.cpp:789-838 | a successful Load or Compute puts the node into the first free slot, and only Load costs |
| Simulator.StepClears | main.cpp:803-852 | a successful Store or Delete empties the first slot holding the node; only Store costs and only Delete marks the node deleted |
| Simulator.StepEffect | main.cpp:789-853 | a move keeps the file size; changes occupancy by +1 for Load and Compute and -1 for Store and Delete; puts the node in or takes it out of one slot; marks deletion only on Delete and never unmarks; costs one only for Load and Store |
| Simulator.StepDiagnosis | main.cpp:789-853 | the reported violation follows the source's check order: full before deleted on Load, absent before deleted on Store and Delete, dependencies before capacity on Compute |
| Simulator.FirstAt | main.cpp:784-788 | the move of a date is the first symbol of the schedule with that date, and there is none exactly when no symbol has that date |
| Simulator.Initial | main.cpp:781-782 | nbRedPebbles empty slots, zero counters, and exactly the flagged nodes counted as deleted |
| Simulator.RunCost | main.cpp:779-858 | a VALID cost is the loads and stores so far plus one for every Load or Store move of the remaining dates |
| Simulator.RunCapacity | main.cpp:782-838 | along a run that ends VALID, occupancy plus the net demand of the following moves never exceeds the register file |
| Simulator.RunValidMovesEveryDate | main.cpp:783-787 | a run ends VALID only if every remaining date has a move |
| Simulator.Run | main.cpp:783-858 | an INVALID verdict names a date of the run that has a move; a run ends without a verdict only under the source's policy, at a date of the run that has no move |
| Simulator.Replay | main.cpp:779-858 | an INVALID verdict names a date below the budget that has a move; a replay stops without a verdict at a date below the budget that has no move, after a move at every earlier date |
| Simulator.ReplayValid | main.cpp:779-858 | a VALID replay reports the number of Load and Store moves, has a move at every date, and the net register demand of every prefix stays within nbRedPebbles |
| Simulator.IdleDateStopsReplay | main.cpp:785-787 | on the chain 0 -> 1 with two registers, budget 5 and the moves Load 0 @0, Compute 1 @1, Delete 0 @2, Store 1 @3, the source's replay stops at the idle date 4 without a verdict, while skipping idle dates gives VALID with cost 2 |
| Simulator.ReplaySkippingIdle | main.cpp:783-858 | with idle dates skipped, every replay ends VALID or INVALID, and INVALID names a date within the budget that has a move |
| Simulator.RunSkipStep | main.cpp:783-858 | with idle dates skipped, a date either fails under any budget beyond it or hands the run on to the next date |
| Simulator.TrailingIdleIrrelevant | main.cpp:783-858 | with idle dates skipped, extending the budget by an idle date does not change the verdict |
| Simulator.SpillPassesSourceP4 | sat-version.cpp:235-243 | under the example schedule's assignment the source's P4 holds for node 1 at date 3 while the corrected P4 does not |
| Simulator.SpillFirstSteps | main.cpp:789-838 | the example's first two moves, a load of node 0 and a compute of node 1, succeed and fill slots 0 and 1 |
| Simulator.SpillLastSteps | main.cpp:803-825 | the example's store of node 1 clears slot 1, and the compute of node 2 then fails with a missing dependency |
| Simulator.SpillDates | main.cpp:784-788 | each date of the example has the expected move |
| Simulator.IdleSteps | main.cpp:789-852 | the idle-date example's four moves, Load 0, Compute 1, Delete 0 and Store 1 on two registers, succeed with one load and one store |
| Simulator.IdleDates | main.cpp:784-788 | each of the idle-date example's dates 0 to 3 has the expected move |
| Simulator.IdleDate4 | main.cpp:784-788 | the idle-date example has no move at date 4 |
| Simulator.IdleRunReachesDate4 | main.cpp:783-858 | under either idle policy, the example's run reaches date 4 with both registers empty, node 0 deleted, one load and one store |
| Simulator.SpilledDependencyRejected | main.cpp:818-825 | the replay rejects the example schedule at date 3 with a missing dependency |

## Left out

- The Z3 API (context, `bool_const`, the solver, model iteration) is not modelled. The solver is an arbitrary assignment. A model is a list of named Boolean constants, and its non-Boolean constants are not modelled.
- Printing, the command line, the DEBUG output and the print-by-schedule loop are left out. They are output only.
- The example dependency tables of main.cpp are left out. The counterexamples in `Mobility` and `Simulator` use small hand-built DAGs instead.
- Memory allocation and pointer identity are left out. Node references are indices. `ruleToString`'s "INVALID" default is not modelled because no fifth rule exists.
- Exceptions are modelled differently. The throw in `lookupRegisteredSymbol` becomes a `Failure` result. The catch-and-print wrappers are not modelled.
- Mobility.AsapBounds: ASAP is exact on `int`; the uint32 overflow of `minPredAsap + nbPredecessors` is not modelled, because it needs about 2^32 predecessors.
- Mobility.PreProcessDag: the source carries on with wrapped ALAP values after an underflow. The model instead reports the first node with a negative ALAP (see Findings). An ALAP that wraps to a value near UINT32_MAX would give the source's `t <= alap` loop (sat-version.cpp:188) a window of about 2^32 dates; the model never encodes such a wrapped window.
- Encoder.DagToConstraints: it accepts `maxTime == UINT32_MAX`, which the source reaches from a budget argument of -1 (main.cpp:734). Every output node then gets `alap == UINT32_MAX` (sat-version.cpp:360), so the source's uint32 loop `for(t = n->asap; t <= n->alap; ++t)` (sat-version.cpp:188) wraps and never ends for an output node with predecessors. The model has unbounded dates and returns the finite encoding over [asap, UINT32_MAX] instead. The source's non-termination there is not modelled.
- Encoder.SortByDate: `std::sort` is not stable, and the model uses one fixed stable order. Encoder.RunningLoadPermutation proves that the capacity constraints mean the same for every order.
- Encoder.EncodeDag: an OR of no disjuncts is false and an AND of none is true, as z3's `mk_or` and `mk_and` build them.
- Encoder.NoTwoSimultaneousNodes: z3's `atmost` of an empty vector fails. A release build of z3 throws an exception, which the model follows; a debug build stops on an assertion instead, which is not modelled.
- Encoder.LimitedPebbleConstraints: the same holds for z3's `sum` of an empty vector (sat-version.cpp:147).
- Encoder.DagToConstraints: a failure at sat-version.cpp:172 or :147 is not caught inside dagToConstraints, which main.cpp:737 calls outside the try block of main.cpp:752, so the run ends without an encoding. The model returns `NothingDatedAt` with the first date that has no registered symbol. Example inputs are a single input node with maxTime 1, or three inputs feeding one output with maxTime 2 (ASAP 3 > ALAP 2). Nothing past the failure, such as the partial constraint vector or the program's exit status, is modelled.
- Encoder.BuildConstraintsComputable: the same failure at sat-version.cpp:295, for a node whose window is empty, is caught at sat-version.cpp:297, so only the OR is appended. The message printed there is not modelled.
- Encoder.EncodeDagMeans: it states what a satisfying assignment means. It does not prove that such an assignment always gives a VALID replay. That end-to-end soundness goes through the solver and is not proved here.
- Simulator.Step: the counters `nR1` and `nR2` are uninitialised uint32 in the source. The model counts them as naturals starting at 0.
- Simulator.Step: the source writes the deleted flag back into the DAG's nodes (main.cpp:852). The model keeps it in the machine state, starting from the nodes' own flags.
- Simulator.Replay: the loop breaks at the first date that has no move (main.cpp:785-787, `break; // we are done`), and VALID is printed only when the date counter has reached the budget (main.cpp:857-858). A schedule whose last move comes before the budget therefore gets no verdict. The model follows the code, and the difference is a Finding.
- The headers datastruct.h and sat-version.h hold declarations only. They are mirrored by the datatypes `Node`, `Dag`, `Rule` and `Sym`.

## Findings

| source | as written | input that shows it | evidently intended | confidence | as-written member | corrected member |
|---|---|---|---|---|---|---|
| sat-version.cpp:356-359 | the underflow warning `alap > maxSuccAlap` fires only when both subtractions wrap | two successors with ALAP 1 and 1 (the first term wraps to 2^32-3, the result is 0) or with ALAP 0 and 5 (the second term wraps, the result is 1): the exact ALAP is negative and no warning is printed | any negative ALAP is reported as an infeasible deadline | not executed | Mobility.UnderflowMissedByWarning | Mobility.PreProcessDag |
| sat-version.cpp:235-243 | the no-spill disjunction is built and registered but never conjoined into P4 | DAG 0 -> 1 -> 2 and schedule Load 0 @0, Compute 1 @1, Store 1 @2, Compute 2 @3: P4 for node 1 holds, yet the replay rejects the schedule with a missing dependency at date 3 | P4 also requires no store of the predecessor between tt and t, as the comments at lines 204-205 and 263-264 say | not executed | Encoder.SpillIgnoredAsWritten, Encoder.SpillSeparatesForms | Encoder.ReadyIntermediateMeans, Encoder.EncodeDagMeans |
| main.cpp:785-787 | the replay stops with no verdict at the first date that has no move, even after every move has run | chain 0 -> 1, two registers, budget 5, moves Load 0 @0, Compute 1 @1, Delete 0 @2, Store 1 @3 (every date below 5 has a registered symbol, so the encoding is built): no verdict at the idle date 4 instead of VALID with cost 2 | idle dates are skipped and a run that reaches the budget is VALID | not executed | Simulator.IdleDateStopsReplay | Simulator.ReplaySkippingIdle |

=== FILE: encoder.dfy ===
/**
 * The constraint encoder: for every computed node, one disjunct per date
 * of its mobility window, each requiring the predecessors to be available
 * (loaded or computed earlier, not deleted since) and deleted later, and
 * the node itself stored if it is an output; then the per-date
 * exclusivity constraints and the register-capacity constraints over all
 * registered symbols.
 *
 * Formulas and symbol registrations are built separately: each builder
 * has a companion listing the (node, rule, date) triples the source
 * passes to ruleSymbol, in call order, and registering that list with
 * AddAll is the registry effect of the builder.
 */
module Encoder {
  import opened Wrappers
  import opened Symbols
  import opened Formulas
  import opened Registry
  import opened Graph
  import opened Mobility

  /** Number of dates in [lo, hi). */
  function Span(lo: nat, hi: int): nat
  {
    if lo <= hi then hi - lo else 0
  }

  /** The symbols of node n under one rule dated lo, lo + 1, ..., hi - 1. */
  function Dated(n: nat, rule: Rule, lo: nat, hi: int): (r: seq<Sym>)
    ensures |r| == Span(lo, hi)
    ensures forall k :: 0 <= k < |r| ==> r[k] == Sym(n, rule, lo + k)
  {
    seq(Span(lo, hi), k requires 0 <= k < Span(lo, hi) => Sym(n, rule, lo + k))
  }

  /** The disjunction of the variables of node n under one rule dated in [lo, hi). */
  function AnyOf(n: nat, rule: Rule, lo: nat, hi: int): Formula
  {
    Or(Vars(Dated(n, rule, lo, hi)))
  }

  /** The concatenation of a list of call lists. */
  function Flatten(ss: seq<seq<Sym>>): seq<Sym>
  {
    if |ss| == 0 then [] else Flatten(ss[..|ss| - 1]) + ss[|ss| - 1]
  }

  lemma {:induction false} InFlatten(ss: seq<seq<Sym>>, s: Sym)
    ensures s in Flatten(ss) <==> exists i :: 0 <= i < |ss| && s in ss[i]
    decreases |ss|
  {
    if |ss| > 0 {
      var init := ss[..|ss| - 1];
      InFlatten(init, s);
      assert forall i :: 0 <= i < |init| ==> init[i] == ss[i];
    }
  }

  // ---------------------------------------------------------------------------
  // The formulas of buildConstraintsComputable

  /** P3: the input predecessor p is loaded at tt and not deleted at any date before t. */
  function LoadedInput(p: nat, tt: nat, t: nat): Formula
  {
    And([Var(Sym(p, R1, tt)), Not(AnyOf(p, R4, 0, t))])
  }

  /** p is computed at ttt and not deleted at any date in [ttt, t]. */
  function ComputedAndKept(p: nat, ttt: nat, t: nat): Formula
  {
    And([Var(Sym(p, R3, ttt)), Not(AnyOf(p, R4, ttt, t + 1))])
  }

  /** For each ttt in [lo, tt): p computed at ttt and kept until t. */
  function ComputedBefore(p: nat, lo: nat, tt: nat, t: nat): seq<Formula>
  {
    seq(Span(lo, tt), k requires 0 <= k < Span(lo, tt) => ComputedAndKept(p, lo + k, t))
  }

  /** P4 as the source builds it: the intermediate predecessor p is loaded at tt after having
      been computed and kept since, or is computed at tt. The disjunction of the stores of p
      in [tt, t] is built alongside but never conjoined. */
  function ReadyIntermediateAsWritten(p: nat, lo: nat, tt: nat, t: nat): Formula
  {
    Or([And([Var(Sym(p, R1, tt)), Or(ComputedBefore(p, lo, tt, t))]), Var(Sym(p, R3, tt))])
  }

  /** P4 as its comments describe it: in addition, p is not stored (spilled) at any date in
      [tt, t], so the copy loaded or computed at tt is still in a register at t. */
  function ReadyIntermediate(p: nat, lo: nat, tt: nat, t: nat): Formula
  {
    And([ReadyIntermediateAsWritten(p, lo, tt, t), Not(AnyOf(p, R2, tt, t + 1))])
  }

  /** Which P4 the encoder builds: the one the source builds, which ignores stores, or the
      one its comments describe, which requires the predecessor not to be spilled. */
  datatype P4Form = AsWritten | Corrected

  /** P3 or P4 at date tt, depending on whether p is an input. */
  function ReadyAt(nodes: seq<Node>, v: P4Form, p: nat, tt: nat, t: nat): Formula
    requires p < |nodes|
  {
    if IsInput(nodes[p]) then LoadedInput(p, tt, t)
    else if v.AsWritten? then ReadyIntermediateAsWritten(p, nodes[p].asap, tt, t)
    else ReadyIntermediate(p, nodes[p].asap, tt, t)
  }

  /** One entry per date tt in [asap(p), t). */
  function ReadyDates(nodes: seq<Node>, v: P4Form, p: nat, t: nat): seq<Formula>
    requires p < |nodes|
  {
    var lo := nodes[p].asap;
    seq(Span(lo, t), k requires 0 <= k < Span(lo, t) => ReadyAt(nodes, v, p, lo + k, t))
  }

  lemma ReadyDatesAt(nodes: seq<Node>, v: P4Form, p: nat, t: nat, k: nat)
    requires p < |nodes| && k < Span(nodes[p].asap, t)
    ensures |ReadyDates(nodes, v, p, t)| == Span(nodes[p].asap, t)
    ensures ReadyDates(nodes, v, p, t)[k] == ReadyAt(nodes, v, p, nodes[p].asap + k, t)
  {
  }

  lemma ReadyDatesCallsAt(nodes: seq<Node>, p: nat, t: nat, k: nat)
    requires p < |nodes| && k < Span(nodes[p].asap, t)
    ensures |ReadyDatesCalls(nodes, p, t)| == Span(nodes[p].asap, t)
    ensures ReadyDatesCalls(nodes, p, t)[k] == ReadyAtCalls(nodes, p, nodes[p].asap + k, t)
  {
  }

  /** Predecessor p is available at t (P3 or P4 at some earlier date) and deleted after t (P5). */
  function PredConstraint(nodes: seq<Node>, v: P4Form, maxTime: nat, p: nat, t: nat): Formula
    requires p < |nodes|
  {
    And([Or(ReadyDates(nodes, v, p, t)), AnyOf(p, R4, t + 1, maxTime)])
  }

  function PredConstraints(nodes: seq<Node>, v: P4Form, maxTime: nat, n: nat, t: nat): seq<Formula>
    requires LinksInRange(nodes) && n < |nodes|
  {
    var ps := nodes[n].preds;
    seq(|ps|, i requires 0 <= i < |ps| => PredConstraint(nodes, v, maxTime, ps[i], t))
  }

  /** An output must be stored at some date after t; other nodes are unconstrained. */
  function StoreAfter(nodes: seq<Node>, maxTime: nat, n: nat, t: nat): Formula
    requires n < |nodes|
  {
    if IsOutput(nodes[n]) then AnyOf(n, R2, t + 1, maxTime) else Const(true)
  }

  /** Node n is computed at t, with every predecessor constraint and the store constraint. */
  function Disjunct(nodes: seq<Node>, v: P4Form, maxTime: nat, n: nat, t: nat): Formula
    requires LinksInRange(nodes) && n < |nodes|
  {
    And([And([Var(Sym(n, R3, t)), And(PredConstraints(nodes, v, maxTime, n, t))]), StoreAfter(nodes, maxTime, n, t)])
  }

  /** One disjunct per date of the window [asap(n), alap(n)]. */
  function Disjuncts(nodes: seq<Node>, v: P4Form, maxTime: nat, n: nat): seq<Formula>
    requires LinksInRange(nodes) && n < |nodes|
  {
    var lo := nodes[n].asap;
    seq(Span(lo, nodes[n].alap + 1), k requires 0 <= k < Span(lo, nodes[n].alap + 1) => Disjunct(nodes, v, maxTime, n, lo + k))
  }

  /** The two constraints appended for node n: one disjunct holds, and at most one does. */
  function NodeFormulas(nodes: seq<Node>, v: P4Form, maxTime: nat, n: nat): seq<Formula>
    requires LinksInRange(nodes) && n < |nodes|
  {
    var ds := Disjuncts(nodes, v, maxTime, n);
    [Or(ds), AtMost(ds, 1)]
  }

  // ---------------------------------------------------------------------------
  // The ruleSymbol calls of buildConstraintsComputable, in call order

  function LoadedInputCalls(p: nat, tt: nat, t: nat): seq<Sym>
  {
    [Sym(p, R1, tt)] + Dated(p, R4, 0, t)
  }

  function ComputedAndKeptCalls(p: nat, ttt: nat, t: nat): seq<Sym>
  {
    [Sym(p, R3, ttt)] + Dated(p, R4, ttt, t + 1)
  }

  function ComputedBeforeCalls(p: nat, lo: nat, tt: nat, t: nat): seq<seq<Sym>>
  {
    seq(Span(lo, tt), k requires 0 <= k < Span(lo, tt) => ComputedAndKeptCalls(p, lo + k, t))
  }

  /** The load and compute at tt, the computes-and-keeps, then the spills of [tt, t]. */
  function ReadyIntermediateCalls(p: nat, lo: nat, tt: nat, t: nat): seq<Sym>
  {
    [Sym(p, R1, tt), Sym(p, R3, tt)] + Flatten(ComputedBeforeCalls(p, lo, tt, t)) + Dated(p, R2, tt, t + 1)
  }

  function ReadyAtCalls(nodes: seq<Node>, p: nat, tt: nat, t: nat): seq<Sym>
    requires p < |nodes|
  {
    if IsInput(nodes[p]) then LoadedInputCalls(p, tt, t) else ReadyIntermediateCalls(p, nodes[p].asap, tt, t)
  }

  function ReadyDatesCalls(nodes: seq<Node>, p: nat, t: nat): seq<seq<Sym>>
    requires p < |nodes|
  {
    var lo := nodes[p].asap;
    seq(Span(lo, t), k requires 0 <= k < Span(lo, t) => ReadyAtCalls(nodes, p, lo + k, t))
  }

  function PredConstraintCalls(nodes: seq<Node>, maxTime: nat, p: nat, t: nat): seq<Sym>
    requires p < |nodes|
  {
    Flatten(ReadyDatesCalls(nodes, p, t)) + Dated(p, R4, t + 1, maxTime)
  }

  function PredConstraintsCalls(nodes: seq<Node>, maxTime: nat, n: nat, t: nat): seq<seq<Sym>>
    requires LinksInRange(nodes) && n < |nodes|
  {
    var ps := nodes[n].preds;
    seq(|ps|, i requires 0 <= i < |ps| => PredConstraintCalls(nodes, maxTime, ps[i], t))
  }

  function StoreAfterCalls(nodes: seq<Node>, maxTime: nat, n: nat, t: nat): seq<Sym>
    requires n < |nodes|
  {
    if IsOutput(nodes[n]) then Dated(n, R2, t + 1, maxTime) else []
  }

  function DisjunctCalls(nodes: seq<Node>, maxTime: nat, n: nat, t: nat): seq<Sym>
    requires LinksInRange(nodes) && n < |nodes|
  {
    [Sym(n, R3, t)] + Flatten(PredConstraintsCalls(nodes, maxTime, n, t)) + StoreAfterCalls(nodes, maxTime, n, t)
  }

  function DisjunctsCalls(nodes: seq<Node>, maxTime: nat, n: nat): seq<seq<Sym>>
    requires LinksInRange(nodes) && n < |nodes|
  {
    var lo := nodes[n].asap;
    seq(Span(lo, nodes[n].alap + 1), k requires 0 <= k < Span(lo, nodes[n].alap + 1) =>
      DisjunctCalls(nodes, maxTime, n, lo + k))
  }

  function NodeCalls(nodes: seq<Node>, maxTime: nat, n: nat): seq<Sym>
    requires LinksInRange(nodes) && n < |nodes|
  {
    Flatten(DisjunctsCalls(nodes, maxTime, n))
  }

  // ---------------------------------------------------------------------------
  // What the formulas mean, stated over dates

  /** Some variable of node n under rule is true at a date in [lo, hi). */
  ghost predicate SomeIn(a: Assignment, n: nat, rule: Rule, lo: nat, hi: int)
  {
    exists t: nat :: lo <= t < hi && a(Sym(n, rule, t))
  }

  /** No variable of node n under rule is true at a date in [lo, hi). */
  ghost predicate NoneIn(a: Assignment, n: nat, rule: Rule, lo: nat, hi: int)
  {
    forall t: nat :: lo <= t < hi ==> !a(Sym(n, rule, t))
  }

  /** p is computed at some date in [lo, tt) and not deleted from then until t inclusive. */
  ghost predicate ComputedEarlier(a: Assignment, p: nat, lo: nat, tt: nat, t: nat)
  {
    exists ttt: nat :: lo <= ttt < tt && a(Sym(p, R3, ttt)) && NoneIn(a, p, R4, ttt, t + 1)
  }

  /** The availability of predecessor p for a computation at t, as the encoding reads it:
      an input must be loaded at some date in [asap(p), t) and not deleted before t; an
      intermediate node must be computed at some date tt in [asap(p), t), or loaded at such a
      tt after having been computed earlier and kept until t; under the corrected P4 it must
      moreover not be stored from tt to t. */
  ghost predicate AvailableRef(nodes: seq<Node>, v: P4Form, a: Assignment, p: nat, t: nat)
    requires p < |nodes|
  {
    var lo := nodes[p].asap;
    if IsInput(nodes[p]) then SomeIn(a, p, R1, lo, t) && NoneIn(a, p, R4, 0, t)
    else exists tt: nat :: lo <= tt < t &&
           (a(Sym(p, R3, tt)) || (a(Sym(p, R1, tt)) && ComputedEarlier(a, p, lo, tt, t))) &&
           (v.Corrected? ==> NoneIn(a, p, R2, tt, t + 1))
  }

  /** Node n is computed at t, every predecessor is available then and deleted later, and an
      output is stored later. */
  ghost predicate ScheduledAtRef(nodes: seq<Node>, v: P4Form, maxTime: nat, a: Assignment, n: nat, t: nat)
    requires LinksInRange(nodes) && n < |nodes|
  {
    && a(Sym(n, R3, t))
    && (forall i :: 0 <= i < |nodes[n].preds| ==>
          AvailableRef(nodes, v, a, nodes[n].preds[i], t) && SomeIn(a, nodes[n].preds[i], R4, t + 1, maxTime))
    && (IsOutput(nodes[n]) ==> SomeIn(a, n, R2, t + 1, maxTime))
  }

  /** Exactly one date of n's window satisfies ScheduledAtRef. */
  ghost predicate ScheduledOnce(nodes: seq<Node>, v: P4Form, maxTime: nat, a: Assignment, n: nat)
    requires LinksInRange(nodes) && n < |nodes|
  {
    exists t: nat :: nodes[n].asap <= t <= nodes[n].alap && ScheduledAtRef(nodes, v, maxTime, a, n, t) &&
      forall t': nat :: nodes[n].asap <= t' <= nodes[n].alap && ScheduledAtRef(nodes, v, maxTime, a, n, t') ==> t' == t
  }

  lemma AnyOfMeans(n: nat, rule: Rule, lo: nat, hi: int, a: Assignment)
    ensures Eval(AnyOf(n, rule, lo, hi), a) <==> SomeIn(a, n, rule, lo, hi)
  {
    var vs := Vars(Dated(n, rule, lo, hi));
    if SomeIn(a, n, rule, lo, hi) {
      var t: nat :| lo <= t < hi && a(Sym(n, rule, t));
      assert Eval(vs[t - lo], a);
    }
    if Eval(AnyOf(n, rule, lo, hi), a) {
      var k :| 0 <= k < |vs| && Eval(vs[k], a);
      assert a(Sym(n, rule, lo + k));
    }
  }

  lemma NotAnyOfMeans(n: nat, rule: Rule, lo: nat, hi: int, a: Assignment)
    ensures Eval(Not(AnyOf(n, rule, lo, hi)), a) <==> NoneIn(a, n, rule, lo, hi)
  {
    AnyOfMeans(n, rule, lo, hi, a);
  }

  lemma ComputedAndKeptMeans(p: nat, ttt: nat, t: nat, a: Assignment)
    ensures Eval(ComputedAndKept(p, ttt, t), a) <==> a(Sym(p, R3, ttt)) && NoneIn(a, p, R4, ttt, t + 1)
  {
    EvalAndPair(Var(Sym(p, R3, ttt)), Not(AnyOf(p, R4, ttt, t + 1)), a);
    NotAnyOfMeans(p, R4, ttt, t + 1, a);
  }

  lemma ComputedBeforeMeans(p: nat, lo: nat, tt: nat, t: nat, a: Assignment)
    ensures Eval(Or(ComputedBefore(p, lo, tt, t)), a) <==> ComputedEarlier(a, p, lo, tt, t)
  {
    var cs := ComputedBefore(p, lo, tt, t);
    if ComputedEarlier(a, p, lo, tt, t) {
      var ttt: nat :| lo <= ttt < tt && a(Sym(p, R3, ttt)) && NoneIn(a, p, R4, ttt, t + 1);
      ComputedAndKeptMeans(p, ttt, t, a);
      assert Eval(cs[ttt - lo], a);
    }
    if Eval(Or(cs), a) {
      var k :| 0 <= k < |cs| && Eval(cs[k], a);
      ComputedAndKeptMeans(p, lo + k, t, a);
    }
  }

  /** The source's P4 holds exactly when p is computed at tt or loaded at tt after an earlier
      computation it was kept since; stores play no part. */
  lemma ReadyIntermediateAsWrittenMeans(p: nat, lo: nat, tt: nat, t: nat, a: Assignment)
    ensures Eval(ReadyIntermediateAsWritten(p, lo, tt, t), a) <==>
              a(Sym(p, R3, tt)) || (a(Sym(p, R1, tt)) && ComputedEarlier(a, p, lo, tt, t))
  {
    var load := And([Var(Sym(p, R1, tt)), Or(ComputedBefore(p, lo, tt, t))]);
    EvalOrPair(load, Var(Sym(p, R3, tt)), a);
    EvalAndPair(Var(Sym(p, R1, tt)), Or(ComputedBefore(p, lo, tt, t)), a);
    ComputedBeforeMeans(p, lo, tt, t, a);
  }

  /** The corrected P4 is the source's P4 with no store of p from tt to t. */
  lemma ReadyIntermediateMeans(p: nat, lo: nat, tt: nat, t: nat, a: Assignment)
    ensures Eval(ReadyIntermediate(p, lo, tt, t), a) <==>
              Eval(ReadyIntermediateAsWritten(p, lo, tt, t), a) && NoneIn(a, p, R2, tt, t + 1)
  {
    EvalAndPair(ReadyIntermediateAsWritten(p, lo, tt, t), Not(AnyOf(p, R2, tt, t + 1)), a);
    NotAnyOfMeans(p, R2, tt, t + 1, a);
  }

  /** As written, P4 accepts a predecessor that is stored between the date it became
      available and its use: computed at tt and spilled at u in [tt, t]. */
  lemma SpillIgnoredAsWritten(p: nat, lo: nat, tt: nat, t: nat, u: nat)
    requires tt <= u <= t
    ensures var a: Assignment := (s: Sym) => s == Sym(p, R3, tt) || s == Sym(p, R2, u);
      Eval(ReadyIntermediateAsWritten(p, lo, tt, t), a) && a(Sym(p, R2, u)) &&
      !Eval(ReadyIntermediate(p, lo, tt, t), a)
  {
    var a: Assignment := (s: Sym) => s == Sym(p, R3, tt) || s == Sym(p, R2, u);
    ReadyIntermediateAsWrittenMeans(p, lo, tt, t, a);
    ReadyIntermediateMeans(p, lo, tt, t, a);
  }

  lemma ReadyAtMeans(nodes: seq<Node>, v: P4Form, p: nat, tt: nat, t: nat, a: Assignment)
    requires p < |nodes|
    ensures IsInput(nodes[p]) ==>
              (Eval(ReadyAt(nodes, v, p, tt, t), a) <==> a(Sym(p, R1, tt)) && NoneIn(a, p, R4, 0, t))
    ensures !IsInput(nodes[p]) ==>
              (Eval(ReadyAt(nodes, v, p, tt, t), a) <==>
                 (a(Sym(p, R3, tt)) || (a(Sym(p, R1, tt)) && ComputedEarlier(a, p, nodes[p].asap, tt, t))) &&
                 (v.Corrected? ==> NoneIn(a, p, R2, tt, t + 1)))
  {
    var lo := nodes[p].asap;
    if IsInput(nodes[p]) {
      EvalAndPair(Var(Sym(p, R1, tt)), Not(AnyOf(p, R4, 0, t)), a);
      NotAnyOfMeans(p, R4, 0, t, a);
    } else {
      ReadyIntermediateAsWrittenMeans(p, lo, tt, t, a);
      ReadyIntermediateMeans(p, lo, tt, t, a);
    }
  }

  /** The disjunction over [asap(p), t) of P3/P4 is the availability of p. */
  lemma AvailableMeans(nodes: seq<Node>, v: P4Form, p: nat, t: nat, a: Assignment)
    requires p < |nodes|
    ensures Eval(Or(ReadyDates(nodes, v, p, t)), a) <==> AvailableRef(nodes, v, a, p, t)
  {
    if Eval(Or(ReadyDates(nodes, v, p, t)), a) {
      AvailableFromReady(nodes, v, p, t, a);
    }
    if AvailableRef(nodes, v, a, p, t) {
      ReadyFromAvailable(nodes, v, p, t, a);
    }
  }

  lemma AvailableFromReady(nodes: seq<Node>, v: P4Form, p: nat, t: nat, a: Assignment)
    requires p < |nodes| && Eval(Or(ReadyDates(nodes, v, p, t)), a)
    ensures AvailableRef(nodes, v, a, p, t)
  {
    var lo := nodes[p].asap;
    var rs := ReadyDates(nodes, v, p, t);
    var k :| 0 <= k < |rs| && Eval(rs[k], a);
    ReadyDatesAt(nodes, v, p, t, k);
    ReadyAtMeans(nodes, v, p, lo + k, t, a);
  }

  lemma ReadyFromAvailable(nodes: seq<Node>, v: P4Form, p: nat, t: nat, a: Assignment)
    requires p < |nodes| && AvailableRef(nodes, v, a, p, t)
    ensures Eval(Or(ReadyDates(nodes, v, p, t)), a)
  {
    var lo := nodes[p].asap;
    var tt: nat;
    if IsInput(nodes[p]) {
      tt :| lo <= tt < t && a(Sym(p, R1, tt));
    } else {
      tt :| lo <= tt < t &&
        (a(Sym(p, R3, tt)) || (a(Sym(p, R1, tt)) && ComputedEarlier(a, p, lo, tt, t))) &&
        (v.Corrected? ==> NoneIn(a, p, R2, tt, t + 1));
    }
    var k := tt - lo;
    assert lo + k == tt;
    ReadyDatesAt(nodes, v, p, t, k);
    ReadyAtMeans(nodes, v, p, tt, t, a);
    OrWitness(ReadyDates(nodes, v, p, t), k, a);
  }

  /** The two forms part on a spill: an intermediate predecessor computed at tt and stored at
      u in [tt, t] is available at t under the P4 the source builds and not under the
      corrected one. */
  lemma SpillSeparatesForms(nodes: seq<Node>, p: nat, tt: nat, u: nat, t: nat)
    requires p < |nodes| && !IsInput(nodes[p]) && nodes[p].asap <= tt <= u <= t && tt < t
    ensures var a: Assignment := (s: Sym) => s == Sym(p, R3, tt) || s == Sym(p, R2, u);
      Eval(Or(ReadyDates(nodes, AsWritten, p, t)), a) && !Eval(Or(ReadyDates(nodes, Corrected, p, t)), a)
  {
    var a: Assignment := (s: Sym) => s == Sym(p, R3, tt) || s == Sym(p, R2, u);
    AvailableMeans(nodes, AsWritten, p, t, a);
    AvailableMeans(nodes, Corrected, p, t, a);
    assert a(Sym(p, R3, tt));
  }

  lemma PredConstraintMeans(nodes: seq<Node>, v: P4Form, maxTime: nat, p: nat, t: nat, a: Assignment)
    requires p < |nodes|
    ensures Eval(PredConstraint(nodes, v, maxTime, p, t), a) <==>
              AvailableRef(nodes, v, a, p, t) && SomeIn(a, p, R4, t + 1, maxTime)
  {
    EvalAndPair(Or(ReadyDates(nodes, v, p, t)), AnyOf(p, R4, t + 1, maxTime), a);
    AvailableMeans(nodes, v, p, t, a);
    AnyOfMeans(p, R4, t + 1, maxTime, a);
  }

  /** A disjunct holds exactly when the node can be computed at its date. */
  lemma DisjunctMeans(nodes: seq<Node>, v: P4Form, maxTime: nat, n: nat, t: nat, a: Assignment)
    requires LinksInRange(nodes) && n < |nodes|
    ensures Eval(Disjunct(nodes, v, maxTime, n, t), a) <==> ScheduledAtRef(nodes, v, maxTime, a, n, t)
  {
    var pcs := PredConstraints(nodes, v, maxTime, n, t);
    var head := And([Var(Sym(n, R3, t)), And(pcs)]);
    EvalAndPair(head, StoreAfter(nodes, maxTime, n, t), a);
    EvalAndPair(Var(Sym(n, R3, t)), And(pcs), a);
    forall i | 0 <= i < |nodes[n].preds|
      ensures Eval(pcs[i], a) <==>
                AvailableRef(nodes, v, a, nodes[n].preds[i], t) && SomeIn(a, nodes[n].preds[i], R4, t + 1, maxTime)
    {
      PredConstraintMeans(nodes, v, maxTime, nodes[n].preds[i], t, a);
    }
    if IsOutput(nodes[n]) {
      AnyOfMeans(n, R2, t + 1, maxTime, a);
    }
  }

  lemma DisjunctsMean(nodes: seq<Node>, v: P4Form, maxTime: nat, n: nat, a: Assignment)
    requires LinksInRange(nodes) && n < |nodes|
    ensures forall k :: 0 <= k < |Disjuncts(nodes, v, maxTime, n)| ==>
              (Eval(Disjuncts(nodes, v, maxTime, n)[k], a) <==> ScheduledAtRef(nodes, v, maxTime, a, n, nodes[n].asap + k))
    ensures |Disjuncts(nodes, v, maxTime, n)| == Span(nodes[n].asap, nodes[n].alap + 1)
  {
    var ds := Disjuncts(nodes, v, maxTime, n);
    forall k | 0 <= k < |ds|
      ensures Eval(ds[k], a) <==> ScheduledAtRef(nodes, v, maxTime, a, n, nodes[n].asap + k)
    {
      DisjunctMeans(nodes, v, maxTime, n, nodes[n].asap + k, a);
    }
  }

  /** The two constraints of a node hold exactly when one and only one date of its window
      admits its computation. */
  lemma NodeFormulasMean(nodes: seq<Node>, v: P4Form, maxTime: nat, n: nat, a: Assignment)
    requires LinksInRange(nodes) && n < |nodes|
    ensures AllHold(NodeFormulas(nodes, v, maxTime, n), a) <==> ScheduledOnce(nodes, v, maxTime, a, n)
  {
    var ds := Disjuncts(nodes, v, maxTime, n);
    DisjunctsMean(nodes, v, maxTime, n, a);
    var P: nat -> bool := (t: nat) => ScheduledAtRef(nodes, v, maxTime, a, n, t);
    assert forall t: nat :: P(t) == ScheduledAtRef(nodes, v, maxTime, a, n, t);
    ExactlyOneAt(ds, a, P, nodes[n].asap);
    ScheduledOnceOneDate(nodes, v, maxTime, a, n, P);
    var fs := NodeFormulas(nodes, v, maxTime, n);
    assert fs == [Or(ds), AtMost(ds, 1)];
    assert AllHold(fs, a) <==> Eval(fs[0], a) && Eval(fs[1], a);
  }

  /** Scheduled once is "exactly one date of the window [asap, alap]". */
  lemma ScheduledOnceOneDate(nodes: seq<Node>, v: P4Form, maxTime: nat, a: Assignment, n: nat, P: nat -> bool)
    requires LinksInRange(nodes) && n < |nodes|
    requires forall t: nat :: P(t) == ScheduledAtRef(nodes, v, maxTime, a, n, t)
    ensures OneDate(P, nodes[n].asap, Span(nodes[n].asap, nodes[n].alap + 1)) <==> ScheduledOnce(nodes, v, maxTime, a, n)
  {
    var lo, hi := nodes[n].asap, nodes[n].alap;
    if lo <= hi {
      assert lo + Span(lo, hi + 1) == hi + 1;
    } else {
      assert Span(lo, hi + 1) == 0;
    }
  }

  // ---------------------------------------------------------------------------
  // Every variable a formula uses has been registered

  lemma AnyOfAtoms(n: nat, rule: Rule, lo: nat, hi: int, s: Sym)
    ensures Mentions(AnyOf(n, rule, lo, hi), s) ==> s in Dated(n, rule, lo, hi)
  {
    var vs := Vars(Dated(n, rule, lo, hi));
    if Mentions(AnyOf(n, rule, lo, hi), s) {
      var k :| 0 <= k < |vs| && Mentions(vs[k], s);
    }
  }

  lemma ComputedAndKeptAtoms(p: nat, ttt: nat, t: nat, s: Sym)
    ensures Mentions(ComputedAndKept(p, ttt, t), s) ==> s in ComputedAndKeptCalls(p, ttt, t)
  {
    MentionsPair(Var(Sym(p, R3, ttt)), Not(AnyOf(p, R4, ttt, t + 1)), s);
    AnyOfAtoms(p, R4, ttt, t + 1, s);
  }

  lemma ComputedBeforeAtoms(p: nat, lo: nat, tt: nat, t: nat, s: Sym)
    ensures Mentions(Or(ComputedBefore(p, lo, tt, t)), s) ==> s in Flatten(ComputedBeforeCalls(p, lo, tt, t))
  {
    var cs := ComputedBefore(p, lo, tt, t);
    var calls := ComputedBeforeCalls(p, lo, tt, t);
    InFlatten(calls, s);
    if Mentions(Or(cs), s) {
      var k :| 0 <= k < |cs| && Mentions(cs[k], s);
      ComputedAndKeptAtoms(p, lo + k, t, s);
      assert s in calls[k];
    }
  }

  /** The variables of the source's P4 are its load and compute at tt and the
      computes-and-keeps: none of the spill variables registered with it. */
  lemma ReadyIntermediateAsWrittenAtoms(p: nat, lo: nat, tt: nat, t: nat, s: Sym)
    ensures Mentions(ReadyIntermediateAsWritten(p, lo, tt, t), s) ==>
              s in [Sym(p, R1, tt), Sym(p, R3, tt)] + Flatten(ComputedBeforeCalls(p, lo, tt, t))
  {
    var load := And([Var(Sym(p, R1, tt)), Or(ComputedBefore(p, lo, tt, t))]);
    MentionsPair(load, Var(Sym(p, R3, tt)), s);
    MentionsPair(Var(Sym(p, R1, tt)), Or(ComputedBefore(p, lo, tt, t)), s);
    ComputedBeforeAtoms(p, lo, tt, t, s);
  }

  /** The corrected P4 uses only variables registered by the source's calls: the spill
      variables it adds are exactly those the source registers and leaves unused. */
  lemma ReadyIntermediateAtoms(p: nat, lo: nat, tt: nat, t: nat, s: Sym)
    ensures Mentions(ReadyIntermediate(p, lo, tt, t), s) ==> s in ReadyIntermediateCalls(p, lo, tt, t)
  {
    MentionsPair(ReadyIntermediateAsWritten(p, lo, tt, t), Not(AnyOf(p, R2, tt, t + 1)), s);
    ReadyIntermediateAsWrittenAtoms(p, lo, tt, t, s);
    AnyOfAtoms(p, R2, tt, t + 1, s);
  }

  lemma ReadyAtAtoms(nodes: seq<Node>, v: P4Form, p: nat, tt: nat, t: nat, s: Sym)
    requires p < |nodes|
    ensures Mentions(ReadyAt(nodes, v, p, tt, t), s) ==> s in ReadyAtCalls(nodes, p, tt, t)
  {
    if IsInput(nodes[p]) {
      MentionsPair(Var(Sym(p, R1, tt)), Not(AnyOf(p, R4, 0, t)), s);
      AnyOfAtoms(p, R4, 0, t, s);
    } else if v.AsWritten? {
      ReadyIntermediateAsWrittenAtoms(p, nodes[p].asap, tt, t, s);
    } else {
      ReadyIntermediateAtoms(p, nodes[p].asap, tt, t, s);
    }
  }

  lemma PredConstraintAtoms(nodes: seq<Node>, v: P4Form, maxTime: nat, p: nat, t: nat, s: Sym)
    requires p < |nodes|
    ensures Mentions(PredConstraint(nodes, v, maxTime, p, t), s) ==> s in PredConstraintCalls(nodes, maxTime, p, t)
  {
    var rs := ReadyDates(nodes, v, p, t);
    MentionsPair(Or(rs), AnyOf(p, R4, t + 1, maxTime), s);
    AnyOfAtoms(p, R4, t + 1, maxTime, s);
    if Mentions(Or(rs), s) {
      var k :| 0 <= k < |rs| && Mentions(rs[k], s);
      ReadyDatesAtoms(nodes, v, p, t, k, s);
    }
  }

  lemma ReadyDatesAtoms(nodes: seq<Node>, v: P4Form, p: nat, t: nat, k: nat, s: Sym)
    requires p < |nodes|
    requires k < |ReadyDates(nodes, v, p, t)| && Mentions(ReadyDates(nodes, v, p, t)[k], s)
    ensures s in Flatten(ReadyDatesCalls(nodes, p, t))
  {
    var calls := ReadyDatesCalls(nodes, p, t);
    ReadyDatesAt(nodes, v, p, t, k);
    ReadyDatesCallsAt(nodes, p, t, k);
    ReadyAtAtoms(nodes, v, p, nodes[p].asap + k, t, s);
    InFlatten(calls, s);
  }

  lemma PredConstraintsAtoms(nodes: seq<Node>, v: P4Form, maxTime: nat, n: nat, t: nat, s: Sym)
    requires LinksInRange(nodes) && n < |nodes|
    ensures Mentions(And(PredConstraints(nodes, v, maxTime, n, t)), s) ==>
              s in Flatten(PredConstraintsCalls(nodes, maxTime, n, t))
  {
    var pcs := PredConstraints(nodes, v, maxTime, n, t);
    var calls := PredConstraintsCalls(nodes, maxTime, n, t);
    InFlatten(calls, s);
    if Mentions(And(pcs), s) {
      var i :| 0 <= i < |pcs| && Mentions(pcs[i], s);
      PredConstraintAtoms(nodes, v, maxTime, nodes[n].preds[i], t, s);
      assert s in calls[i];
    }
  }

  lemma DisjunctAtoms(nodes: seq<Node>, v: P4Form, maxTime: nat, n: nat, t: nat, s: Sym)
    requires LinksInRange(nodes) && n < |nodes|
    ensures Mentions(Disjunct(nodes, v, maxTime, n, t), s) ==> s in DisjunctCalls(nodes, maxTime, n, t)
  {
    var pcs := PredConstraints(nodes, v, maxTime, n, t);
    var head := And([Var(Sym(n, R3, t)), And(pcs)]);
    MentionsPair(head, StoreAfter(nodes, maxTime, n, t), s);
    MentionsPair(Var(Sym(n, R3, t)), And(pcs), s);
    if IsOutput(nodes[n]) {
      AnyOfAtoms(n, R2, t + 1, maxTime, s);
    }
    PredConstraintsAtoms(nodes, v, maxTime, n, t, s);
  }

  /** Every variable of a node's two constraints is among the symbols the builder registers. */
  lemma NodeFormulasAtoms(nodes: seq<Node>, v: P4Form, maxTime: nat, n: nat)
    requires LinksInRange(nodes) && n < |nodes|
    ensures AtomsAmong(NodeFormulas(nodes, v, maxTime, n), NodeCalls(nodes, maxTime, n))
  {
    var ds := Disjuncts(nodes, v, maxTime, n);
    forall i, s | 0 <= i < 2 && Mentions(NodeFormulas(nodes, v, maxTime, n)[i], s)
      ensures s in NodeCalls(nodes, maxTime, n)
    {
      var k :| 0 <= k < |ds| && Mentions(ds[k], s);
      DisjunctsAtoms(nodes, v, maxTime, n, k, s);
    }
  }

  lemma DisjunctsAtoms(nodes: seq<Node>, v: P4Form, maxTime: nat, n: nat, k: nat, s: Sym)
    requires LinksInRange(nodes) && n < |nodes|
    requires k < |Disjuncts(nodes, v, maxTime, n)| && Mentions(Disjuncts(nodes, v, maxTime, n)[k], s)
    ensures s in NodeCalls(nodes, maxTime, n)
  {
    var lo := nodes[n].asap;
    var calls := DisjunctsCalls(nodes, maxTime, n);
    assert Disjuncts(nodes, v, maxTime, n)[k] == Disjunct(nodes, v, maxTime, n, lo + k);
    DisjunctAtoms(nodes, v, maxTime, n, lo + k, s);
    assert s in calls[k];
    InFlatten(calls, s);
  }

  /** The spill variables of [tt, t] are registered with the source's P4 but occur nowhere
      in it. */
  lemma SpillsRegisteredButUnused(p: nat, lo: nat, tt: nat, t: nat, u: nat)
    requires tt <= u <= t
    ensures Sym(p, R2, u) in ReadyIntermediateCalls(p, lo, tt, t)
    ensures !Mentions(ReadyIntermediateAsWritten(p, lo, tt, t), Sym(p, R2, u))
  {
    var calls := ComputedBeforeCalls(p, lo, tt, t);
    assert Dated(p, R2, tt, t + 1)[u - tt] == Sym(p, R2, u);
    ReadyIntermediateAsWrittenAtoms(p, lo, tt, t, Sym(p, R2, u));
    InFlatten(calls, Sym(p, R2, u));
    forall k | 0 <= k < |calls|
      ensures Sym(p, R2, u) !in calls[k]
    {
      var deletes := Dated(p, R4, lo + k, t + 1);
      assert calls[k] == ComputedAndKeptCalls(p, lo + k, t);
      assert calls[k] == [Sym(p, R3, lo + k)] + deletes;
      assert forall j :: 0 <= j < |deletes| ==> deletes[j].rule == R4;
    }
  }

  // ---------------------------------------------------------------------------
  // buildConstraintsComputable and the loop of dagToConstraints over the nodes

  /** Every formula of fs holds under a. */
  ghost predicate AllHold(fs: seq<Formula>, a: Assignment)
  {
    forall i :: 0 <= i < |fs| ==> Eval(fs[i], a)
  }

  lemma AllHoldAppend(f1: seq<Formula>, f2: seq<Formula>, a: Assignment)
    ensures AllHold(f1 + f2, a) <==> AllHold(f1, a) && AllHold(f2, a)
  {
    if AllHold(f1, a) && AllHold(f2, a) {
      forall i | 0 <= i < |f1 + f2|
        ensures Eval((f1 + f2)[i], a)
      {
        if i >= |f1| {
          assert (f1 + f2)[i] == f2[i - |f1|];
        }
      }
    }
    if AllHold(f1 + f2, a) {
      forall i | 0 <= i < |f1|
        ensures Eval(f1[i], a)
      {
        assert (f1 + f2)[i] == f1[i];
      }
      forall i | 0 <= i < |f2|
        ensures Eval(f2[i], a)
      {
        assert (f1 + f2)[|f1| + i] == f2[i];
      }
    }
  }

  /** Appends node n's constraints and registers every triple they were built from, in the
      order the source calls ruleSymbol. When the window is empty the OR of no disjuncts is
      appended, and the at-most-one over them fails inside the try block and is dropped, so
      only one constraint is appended. */
  function BuildConstraintsComputable(nodes: seq<Node>, v: P4Form, maxTime: nat, n: nat, reg: seq<Sym>): (r: (seq<Formula>, seq<Sym>))
    requires LinksInRange(nodes) && n < |nodes|
    ensures |r.0| == if nodes[n].asap <= nodes[n].alap then 2 else 1
    ensures reg <= r.1 && (NoDuplicates(reg) ==> NoDuplicates(r.1))
    ensures forall s :: s in r.1 <==> s in reg || s in NodeCalls(nodes, maxTime, n)
    ensures AtomsAmong(r.0, r.1)
  {
    var fs := NodeFormulas(nodes, v, maxTime, n);
    NodeFormulasAtoms(nodes, v, maxTime, n);
    (if nodes[n].alap < nodes[n].asap then fs[..1] else fs, AddAll(reg, NodeCalls(nodes, maxTime, n)))
  }

  /** The two constraints hold exactly when node n is scheduled at exactly one date. */
  lemma BuildConstraintsComputableMeans(nodes: seq<Node>, v: P4Form, maxTime: nat, n: nat, reg: seq<Sym>, a: Assignment)
    requires LinksInRange(nodes) && n < |nodes|
    ensures AllHold(BuildConstraintsComputable(nodes, v, maxTime, n, reg).0, a) <==> ScheduledOnce(nodes, v, maxTime, a, n)
  {
    NodeFormulasMean(nodes, v, maxTime, n, a);
    var fs := NodeFormulas(nodes, v, maxTime, n);
    if nodes[n].alap < nodes[n].asap {
      assert Disjuncts(nodes, v, maxTime, n) == [];
      assert !Eval(fs[0], a);
      assert !AllHold(fs[..1], a) by {
        assert fs[..1][0] == fs[0];
      }
    }
  }

  /** Nodes 0 .. k-1 that have predecessors: those dagToConstraints builds constraints for. */
  function ComputedCount(nodes: seq<Node>, k: nat): nat
    requires k <= |nodes|
  {
    if k == 0 then 0 else ComputedCount(nodes, k - 1) + (if IsInput(nodes[k - 1]) then 0 else 1)
  }

  /** Nodes 0 .. k-1 that have predecessors and an empty window [asap, alap]: those that get
      one constraint instead of two. */
  function EmptyWindows(nodes: seq<Node>, k: nat): (c: nat)
    requires k <= |nodes|
    ensures c <= ComputedCount(nodes, k)
  {
    if k == 0 then 0
    else EmptyWindows(nodes, k - 1) + (if !IsInput(nodes[k - 1]) && nodes[k - 1].alap < nodes[k - 1].asap then 1 else 0)
  }

  /** The constraints of every node among the first k that has predecessors, with the
      registry threaded through the calls in node order. */
  function NodesConstraints(nodes: seq<Node>, v: P4Form, maxTime: nat, k: nat, reg: seq<Sym>): (r: (seq<Formula>, seq<Sym>))
    requires LinksInRange(nodes) && k <= |nodes|
    ensures |r.0| + EmptyWindows(nodes, k) == 2 * ComputedCount(nodes, k)
    ensures reg <= r.1 && (NoDuplicates(reg) ==> NoDuplicates(r.1))
    ensures AtomsAmong(r.0, r.1)
  {
    if k == 0 then ([], reg)
    else
      var prev := NodesConstraints(nodes, v, maxTime, k - 1, reg);
      if IsInput(nodes[k - 1]) then prev
      else
        var next := BuildConstraintsComputable(nodes, v, maxTime, k - 1, prev.1);
        assert forall i, s :: 0 <= i < |prev.0| && Mentions(prev.0[i], s) ==> s in next.1;
        (prev.0 + next.0, next.1)
  }

  /** The node constraints hold exactly when every computed node among the first k is
      scheduled at exactly one date of its window. */
  lemma NodesConstraintsStep(nodes: seq<Node>, v: P4Form, maxTime: nat, k: nat, reg: seq<Sym>, a: Assignment)
    requires LinksInRange(nodes) && k < |nodes|
    ensures IsInput(nodes[k]) ==> NodesConstraints(nodes, v, maxTime, k + 1, reg) == NodesConstraints(nodes, v, maxTime, k, reg)
    ensures !IsInput(nodes[k]) ==>
              (AllHold(NodesConstraints(nodes, v, maxTime, k + 1, reg).0, a) <==>
                 AllHold(NodesConstraints(nodes, v, maxTime, k, reg).0, a) && ScheduledOnce(nodes, v, maxTime, a, k))
  {
    var prev := NodesConstraints(nodes, v, maxTime, k, reg);
    if !IsInput(nodes[k]) {
      var next := BuildConstraintsComputable(nodes, v, maxTime, k, prev.1);
      BuildConstraintsComputableMeans(nodes, v, maxTime, k, prev.1, a);
      AllHoldAppend(prev.0, next.0, a);
    }
  }

  /** Every node among the first k that has predecessors is scheduled exactly once. */
  ghost predicate AllScheduled(nodes: seq<Node>, v: P4Form, maxTime: nat, a: Assignment, k: nat)
    requires LinksInRange(nodes) && k <= |nodes|
  {
    forall i {:trigger ScheduledOnce(nodes, v, maxTime, a, i)} :: 0 <= i < k && !IsInput(nodes[i]) ==> ScheduledOnce(nodes, v, maxTime, a, i)
  }

  lemma AllScheduledStep(nodes: seq<Node>, v: P4Form, maxTime: nat, a: Assignment, k: nat)
    requires LinksInRange(nodes) && k < |nodes|
    ensures AllScheduled(nodes, v, maxTime, a, k + 1) <==>
              AllScheduled(nodes, v, maxTime, a, k) && (!IsInput(nodes[k]) ==> ScheduledOnce(nodes, v, maxTime, a, k))
  {
    if AllScheduled(nodes, v, maxTime, a, k) && (!IsInput(nodes[k]) ==> ScheduledOnce(nodes, v, maxTime, a, k)) {
      forall i | 0 <= i < k + 1 && !IsInput(nodes[i])
        ensures ScheduledOnce(nodes, v, maxTime, a, i)
      {
        if i < k {
          assert 0 <= i < k && !IsInput(nodes[i]);
        }
      }
    }
  }

  /** If the constraints of the first k nodes mean "all of them scheduled", so do those of
      the first k + 1. */
  lemma NodesConstraintsMeanStep(nodes: seq<Node>, v: P4Form, maxTime: nat, k: nat, reg: seq<Sym>, a: Assignment)
    requires LinksInRange(nodes) && k < |nodes|
    requires AllHold(NodesConstraints(nodes, v, maxTime, k, reg).0, a) <==> AllScheduled(nodes, v, maxTime, a, k)
    ensures AllHold(NodesConstraints(nodes, v, maxTime, k + 1, reg).0, a) <==> AllScheduled(nodes, v, maxTime, a, k + 1)
  {
    NodesConstraintsStep(nodes, v, maxTime, k, reg, a);
    AllScheduledStep(nodes, v, maxTime, a, k);
  }

  lemma {:induction false} NodesConstraintsMean(nodes: seq<Node>, v: P4Form, maxTime: nat, k: nat, reg: seq<Sym>, a: Assignment)
    requires LinksInRange(nodes) && k <= |nodes|
    ensures AllHold(NodesConstraints(nodes, v, maxTime, k, reg).0, a) <==> AllScheduled(nodes, v, maxTime, a, k)
  {
    if k > 0 {
      var j :| j + 1 == k;
      NodesConstraintsMean(nodes, v, maxTime, j, reg, a);
      NodesConstraintsMeanStep(nodes, v, maxTime, j, reg, a);
    }
  }

  // ---------------------------------------------------------------------------
  // noTwoSimultaneousNodes

  /** The registered symbols dated t, in registry order. */
  function DatedAt(reg: seq<Sym>, t: nat): (r: seq<Sym>)
    ensures forall s :: s in r <==> s in reg && s.date == t
    ensures NoDuplicates(reg) ==> NoDuplicates(r)
  {
    if |reg| == 0 then []
    else DatedAt(reg[..|reg| - 1], t) + (if reg[|reg| - 1].date == t then [reg[|reg| - 1]] else [])
  }

  /** Some registered symbol is dated t. */
  predicate HasDate(reg: seq<Sym>, t: nat)
  {
    exists i :: 0 <= i < |reg| && reg[i].date == t
  }

  lemma DatedAtEmpty(reg: seq<Sym>, t: nat)
    ensures DatedAt(reg, t) == [] <==> !HasDate(reg, t)
  {
    if HasDate(reg, t) {
      var i :| 0 <= i < |reg| && reg[i].date == t;
      assert reg[i] in DatedAt(reg, t);
    }
    if DatedAt(reg, t) != [] {
      assert DatedAt(reg, t)[0] in reg;
    }
  }

  /** The first date in [t, maxTime) with no registered symbol, if there is one. */
  function FirstUndated(reg: seq<Sym>, t: nat, maxTime: nat): (r: Option<nat>)
    ensures r.None? <==> forall d: nat :: t <= d < maxTime ==> HasDate(reg, d)
    ensures r.Some? ==> t <= r.value < maxTime && !HasDate(reg, r.value) &&
                        forall d: nat :: t <= d < r.value ==> HasDate(reg, d)
    decreases maxTime - t
  {
    if t >= maxTime then None
    else
      DatedAtEmpty(reg, t);
      if DatedAt(reg, t) == [] then Some(t) else FirstUndated(reg, t + 1, maxTime)
  }

  /** One at-most-one constraint per date t < maxTime over the registered symbols dated t.
      z3's `atmost` needs at least one argument: the first date with no registered symbol
      makes the call fail, and with it the whole encoding. */
  function NoTwoSimultaneousNodes(reg: seq<Sym>, maxTime: nat): (r: Result<seq<Formula>, nat>)
    ensures r.Failure? <==> exists t: nat :: t < maxTime && !HasDate(reg, t)
    ensures r.Failure? ==> r.error < maxTime && !HasDate(reg, r.error) &&
                           forall t: nat :: t < r.error ==> HasDate(reg, t)
    ensures r.Success? ==> |r.value| == maxTime && AtomsAmong(r.value, reg)
  {
    var first := FirstUndated(reg, 0, maxTime);
    if first.Some? then Failure(first.value)
    else
      var r := seq(maxTime, t requires 0 <= t < maxTime => AtMost(Vars(DatedAt(reg, t)), 1));
      assert forall t, s :: 0 <= t < maxTime && Mentions(r[t], s) ==> s in DatedAt(reg, t) by {
        forall t, s | 0 <= t < maxTime && Mentions(r[t], s)
          ensures s in DatedAt(reg, t)
        {
          AtMostVarsAmong(DatedAt(reg, t), s);
        }
      }
      Success(r)
  }

  /** An at-most-one constraint over variables mentions only their symbols. */
  lemma AtMostVarsAmong(syms: seq<Sym>, s: Sym)
    requires Mentions(AtMost(Vars(syms), 1), s)
    ensures s in syms
  {
    var vs := Vars(syms);
    var k :| 0 <= k < |vs| && Mentions(vs[k], s);
  }

  /** At most one true variable among the registered symbols dated t. */
  ghost predicate AtMostOneAt(reg: seq<Sym>, a: Assignment, t: nat)
  {
    forall x, y :: x in reg && y in reg && x.date == t && y.date == t && a(x) && a(y) ==> x == y
  }

  /** The t-th constraint holds exactly when no two distinct registered symbols dated t are
      both true. */
  lemma NoTwoSimultaneousNodesMeans(reg: seq<Sym>, maxTime: nat, a: Assignment, t: nat)
    requires NoDuplicates(reg) && t < maxTime && NoTwoSimultaneousNodes(reg, maxTime).Success?
    ensures Eval(NoTwoSimultaneousNodes(reg, maxTime).value[t], a) <==> AtMostOneAt(reg, a, t)
  {
    var ds := DatedAt(reg, t);
    var vs := Vars(ds);
    var bs := Truths(vs, a);
    ExclusiveConstraintAt(reg, maxTime, t);
    assert Eval(AtMost(vs, 1), a) == (Count(bs) <= 1);
    CountAtMostOne(bs);
    assert forall i :: 0 <= i < |ds| ==> bs[i] == a(ds[i]);
    if Count(bs) <= 1 {
      PairwiseExclusive(ds, reg, t, a);
    }
    if AtMostOneAt(reg, a, t) {
      ExclusivePairwise(ds, reg, t, a);
    }
  }

  lemma ExclusiveConstraintAt(reg: seq<Sym>, maxTime: nat, t: nat)
    requires t < maxTime && NoTwoSimultaneousNodes(reg, maxTime).Success?
    ensures NoTwoSimultaneousNodes(reg, maxTime).value[t] == AtMost(Vars(DatedAt(reg, t)), 1)
  {
  }

  /** If no two entries of the list of symbols dated t are both true, no two registered
      symbols dated t are. */
  lemma PairwiseExclusive(ds: seq<Sym>, reg: seq<Sym>, t: nat, a: Assignment)
    requires forall s :: s in ds <==> s in reg && s.date == t
    requires forall i, j :: 0 <= i < j < |ds| && a(ds[i]) ==> !a(ds[j])
    ensures AtMostOneAt(reg, a, t)
  {
    forall x, y | x in reg && y in reg && x.date == t && y.date == t && a(x) && a(y)
      ensures x == y
    {
      var i :| 0 <= i < |ds| && ds[i] == x;
      var j :| 0 <= j < |ds| && ds[j] == y;
      assert i < j ==> !a(y);
      assert j < i ==> !a(x);
    }
  }

  /** Conversely, on a duplicate-free list of the symbols dated t. */
  lemma ExclusivePairwise(ds: seq<Sym>, reg: seq<Sym>, t: nat, a: Assignment)
    requires NoDuplicates(ds) && (forall s :: s in ds <==> s in reg && s.date == t)
    requires AtMostOneAt(reg, a, t)
    ensures forall i, j :: 0 <= i < j < |ds| && a(ds[i]) ==> !a(ds[j])
  {
    forall i, j | 0 <= i < j < |ds| && a(ds[i])
      ensures !a(ds[j])
    {
      assert ds[i] != ds[j];
      assert ds[i] in reg && ds[j] in reg;
    }
  }

  // ---------------------------------------------------------------------------
  // createLimitedPebbleConstraint

  /** Registers taken by a true variable: loads and computes take one, stores and deletes
      free one. */
  function Weight(r: Rule): int
  {
    match r
    case R1 => 1
    case R2 => -1
    case R3 => 1
    case R4 => -1
  }

  predicate SortedByDate(s: seq<Sym>)
  {
    forall i, j :: 0 <= i < j < |s| ==> s[i].date <= s[j].date
  }

  function InsertByDate(x: Sym, s: seq<Sym>): (r: seq<Sym>)
    requires SortedByDate(s)
    ensures SortedByDate(r)
    ensures multiset(r) == multiset(s) + multiset{x}
  {
    if |s| == 0 || x.date <= s[0].date then [x] + s
    else
      var rest := InsertByDate(x, s[1..]);
      InsertAfterHead(x, s, rest);
      [s[0]] + rest
  }

  /** Keeping the head of a sorted list in front of x inserted into its tail gives a sorted
      list with the same entries plus x, when x is dated after the head. */
  lemma InsertAfterHead(x: Sym, s: seq<Sym>, rest: seq<Sym>)
    requires SortedByDate(s) && 0 < |s| && s[0].date < x.date
    requires SortedByDate(rest) && multiset(rest) == multiset(s[1..]) + multiset{x}
    ensures SortedByDate([s[0]] + rest)
    ensures multiset([s[0]] + rest) == multiset(s) + multiset{x}
  {
    assert s == [s[0]] + s[1..];
    forall k | 0 <= k < |rest|
      ensures s[0].date <= rest[k].date
    {
      assert rest[k] in multiset(s[1..]) + multiset{x};
      if rest[k] != x {
        var j :| 0 <= j < |s[1..]| && s[1..][j] == rest[k];
        assert s[j + 1] == rest[k];
      }
    }
    var r := [s[0]] + rest;
    forall i, j | 0 <= i < j < |r|
      ensures r[i].date <= r[j].date
    {
      assert r[j] == rest[j - 1];
      if i > 0 {
        assert r[i] == rest[i - 1];
      }
    }
  }

  /** The sort of the registry by date. The source's std::sort is not stable, so the order
      among equal dates is unspecified; no result below depends on it. */
  function SortByDate(s: seq<Sym>): (r: seq<Sym>)
    ensures SortedByDate(r) && multiset(r) == multiset(s)
  {
    if |s| == 0 then []
    else
      assert s == s[..|s| - 1] + [s[|s| - 1]];
      InsertByDate(s[|s| - 1], SortByDate(s[..|s| - 1]))
  }

  /** Length of the leading run of entries dated at most t: where the source's scan stops. */
  function ScanUpTo(s: seq<Sym>, t: nat): (k: nat)
    ensures k <= |s|
    ensures forall i :: 0 <= i < k ==> s[i].date <= t
    ensures k < |s| ==> s[k].date > t
  {
    if |s| == 0 || s[0].date > t then 0 else 1 + ScanUpTo(s[1..], t)
  }

  /** One `ite(symbol, weight, 0)` summand per symbol. */
  function Terms(syms: seq<Sym>): (ts: seq<Term>)
    ensures |ts| == |syms|
  {
    seq(|syms|, i requires 0 <= i < |syms| => Term(syms[i], Weight(syms[i].rule)))
  }

  /** Some registered symbol is dated at most t. */
  predicate DatedBy(reg: seq<Sym>, t: nat)
  {
    exists i :: 0 <= i < |reg| && reg[i].date <= t
  }

  /** The sorted registry's scan up to t is empty exactly when no registered symbol is dated
      at most t. */
  lemma ScanEmptyIffNoneDatedBy(reg: seq<Sym>, t: nat)
    ensures ScanUpTo(SortByDate(reg), t) == 0 <==> !DatedBy(reg, t)
  {
    var sorted := SortByDate(reg);
    if ScanUpTo(sorted, t) > 0 {
      SameElement(sorted, reg, 0);
    }
    if DatedBy(reg, t) {
      var i :| 0 <= i < |reg| && reg[i].date <= t;
      SameElement(reg, sorted, i);
      var j :| 0 <= j < |sorted| && sorted[j] == reg[i];
      assert sorted[0].date <= sorted[j].date;
    }
  }

  /** An entry of a sequence has a position in any permutation of it. */
  lemma SameElement(s: seq<Sym>, s': seq<Sym>, i: nat)
    requires multiset(s) == multiset(s') && i < |s|
    ensures exists j :: 0 <= j < |s'| && s'[j] == s[i]
  {
    assert s[i] in multiset(s);
    assert s[i] in s';
  }

  /** One capacity constraint per date t < maxTime: the weighted sum over the sorted registry's
      leading entries dated at most t stays within nbRedPebbles. z3's `sum` needs at least one
      argument: a date before every registered date makes the call fail, and with it the whole
      encoding. The scans only grow with t, so the first such date is 0. */
  function LimitedPebbleConstraints(reg: seq<Sym>, maxTime: nat, nbRedPebbles: nat): (r: Result<seq<Formula>, nat>)
    ensures r.Failure? <==> exists t: nat :: t < maxTime && !DatedBy(reg, t)
    ensures r.Failure? ==> r.error == 0 && !DatedBy(reg, 0)
    ensures r.Success? ==> |r.value| == maxTime && AtomsAmong(r.value, reg)
  {
    var sorted := SortByDate(reg);
    ScanEmptyIffNoneDatedBy(reg, 0);
    if maxTime > 0 && ScanUpTo(sorted, 0) == 0 then Failure(0)
    else
      assert forall t: nat :: t < maxTime ==> DatedBy(reg, t) by {
        forall t: nat | t < maxTime
          ensures DatedBy(reg, t)
        {
          var i :| 0 <= i < |reg| && reg[i].date <= 0;
          assert reg[i].date <= t;
        }
      }
      var r := seq(maxTime, t requires 0 <= t < maxTime =>
        WeightedSumLe(Terms(sorted[..ScanUpTo(sorted, t)]), nbRedPebbles));
      assert forall t, s :: 0 <= t < maxTime && Mentions(r[t], s) ==> s in reg by {
        forall t, s | 0 <= t < maxTime && Mentions(r[t], s)
          ensures s in reg
        {
          PrefixTermsAmong(sorted, ScanUpTo(sorted, t), nbRedPebbles, s);
          assert s in multiset(sorted);
        }
      }
      Success(r)
  }

  /** A sum over the terms of a prefix mentions only symbols of the list. */
  lemma PrefixTermsAmong(syms: seq<Sym>, n: nat, bound: nat, s: Sym)
    requires n <= |syms| && Mentions(WeightedSumLe(Terms(syms[..n]), bound), s)
    ensures s in syms
  {
    var ts := Terms(syms[..n]);
    var k :| 0 <= k < |ts| && ts[k].s == s;
    assert syms[..n][k] == syms[k];
  }

  /** What a symbol adds to the register count at date t under a. */
  function Contribution(s: Sym, t: nat, a: Assignment): int
  {
    if s.date <= t && a(s) then Weight(s.rule) else 0
  }

  /** The registers in use at date t by the reading of the encoding: the weights of all true
      variables dated at most t, whatever their order. */
  function RunningLoad(syms: seq<Sym>, t: nat, a: Assignment): int
  {
    if |syms| == 0 then 0 else RunningLoad(syms[..|syms| - 1], t, a) + Contribution(syms[|syms| - 1], t, a)
  }

  lemma {:induction false} RunningLoadAppend(s1: seq<Sym>, s2: seq<Sym>, t: nat, a: Assignment)
    ensures RunningLoad(s1 + s2, t, a) == RunningLoad(s1, t, a) + RunningLoad(s2, t, a)
    decreases |s2|
  {
    if |s2| == 0 {
      assert s1 + s2 == s1;
    } else {
      var init := s2[..|s2| - 1];
      assert (s1 + s2)[..|s1 + s2| - 1] == s1 + init;
      RunningLoadAppend(s1, init, t, a);
    }
  }

  /** The load does not depend on the order of the symbols. */
  lemma {:induction false} RunningLoadPermutation(s1: seq<Sym>, s2: seq<Sym>, t: nat, a: Assignment)
    requires multiset(s1) == multiset(s2)
    ensures RunningLoad(s1, t, a) == RunningLoad(s2, t, a)
    decreases |s1|
  {
    if |s1| > 0 {
      var x := s1[|s1| - 1];
      var init := s1[..|s1| - 1];
      assert x in multiset(s1);
      var j :| 0 <= j < |s2| && s2[j] == x;
      var rest := s2[..j] + s2[j + 1..];
      MultisetRemoveLast(s1, s2, j);
      RunningLoadPermutation(init, rest, t, a);
      RunningLoadRemove(s2, j, t, a);
    }
  }

  /** Taking the last entry off s1 and the same entry off a permutation s2 leaves
      permutations. */
  lemma MultisetRemoveLast(s1: seq<Sym>, s2: seq<Sym>, j: nat)
    requires multiset(s1) == multiset(s2) && 0 < |s1| && j < |s2| && s2[j] == s1[|s1| - 1]
    ensures multiset(s1[..|s1| - 1]) == multiset(s2[..j] + s2[j + 1..])
  {
    var x := s1[|s1| - 1];
    assert s1 == s1[..|s1| - 1] + [x];
    assert s2 == s2[..j] + [x] + s2[j + 1..];
    var m1 := multiset(s1[..|s1| - 1]);
    var m2 := multiset(s2[..j] + s2[j + 1..]);
    assert m2 == multiset(s2[..j]) + multiset(s2[j + 1..]);
    assert m1 + multiset{x} == m2 + multiset{x};
    assert m1 == (m1 + multiset{x}) - multiset{x};
    assert m2 == (m2 + multiset{x}) - multiset{x};
  }

  /** The load of a list is the load without entry j plus entry j's contribution. */
  lemma RunningLoadRemove(s: seq<Sym>, j: nat, t: nat, a: Assignment)
    requires j < |s|
    ensures RunningLoad(s, t, a) == RunningLoad(s[..j] + s[j + 1..], t, a) + Contribution(s[j], t, a)
  {
    assert s == s[..j] + [s[j]] + s[j + 1..];
    RunningLoadAppend(s[..j] + [s[j]], s[j + 1..], t, a);
    RunningLoadAppend(s[..j], [s[j]], t, a);
    RunningLoadAppend(s[..j], s[j + 1..], t, a);
    assert RunningLoad([s[j]], t, a) == Contribution(s[j], t, a) by {
      assert [s[j]][..0] == [];
    }
  }

  /** Over symbols all dated at most t, the weighted sum of their terms is their load. */
  lemma {:induction false} TermsSumIsLoad(syms: seq<Sym>, t: nat, a: Assignment)
    requires forall i :: 0 <= i < |syms| ==> syms[i].date <= t
    ensures WeightedSum(Terms(syms), a) == RunningLoad(syms, t, a)
    decreases |syms|
  {
    if |syms| > 0 {
      var init := syms[..|syms| - 1];
      assert Terms(syms)[..|syms| - 1] == Terms(init);
      TermsSumIsLoad(init, t, a);
    }
  }

  /** Symbols all dated after t add nothing. */
  lemma {:induction false} LaterLoadIsZero(syms: seq<Sym>, t: nat, a: Assignment)
    requires forall i :: 0 <= i < |syms| ==> syms[i].date > t
    ensures RunningLoad(syms, t, a) == 0
    decreases |syms|
  {
    if |syms| > 0 {
      LaterLoadIsZero(syms[..|syms| - 1], t, a);
    }
  }

  /** On a date-sorted list, everything after the scan's prefix is dated after t. */
  lemma SortedSuffixLater(sorted: seq<Sym>, t: nat)
    requires SortedByDate(sorted)
    ensures forall i :: 0 <= i < |sorted[ScanUpTo(sorted, t)..]| ==> sorted[ScanUpTo(sorted, t)..][i].date > t
  {
    var k := ScanUpTo(sorted, t);
    forall i | 0 <= i < |sorted[k..]|
      ensures sorted[k..][i].date > t
    {
      assert sorted[k].date <= sorted[k + i].date;
    }
  }

  /** On a date-sorted list, the scan's prefix carries the whole load at t. */
  lemma ScanPrefixLoad(sorted: seq<Sym>, t: nat, a: Assignment)
    requires SortedByDate(sorted)
    ensures WeightedSum(Terms(sorted[..ScanUpTo(sorted, t)]), a) == RunningLoad(sorted, t, a)
  {
    var k := ScanUpTo(sorted, t);
    SortedSuffixLater(sorted, t);
    assert sorted[..k] + sorted[k..] == sorted;
    SplitLoad(sorted[..k], sorted[k..], sorted, t, a);
  }

  lemma SplitLoad(early: seq<Sym>, late: seq<Sym>, all: seq<Sym>, t: nat, a: Assignment)
    requires all == early + late
    requires forall i :: 0 <= i < |early| ==> early[i].date <= t
    requires forall i :: 0 <= i < |late| ==> late[i].date > t
    ensures WeightedSum(Terms(early), a) == RunningLoad(all, t, a)
  {
    LaterLoadIsZero(late, t, a);
    TermsSumIsLoad(early, t, a);
    RunningLoadAppend(early, late, t, a);
  }

  /** The t-th capacity constraint holds exactly when the load of the whole registry at t
      is within nbRedPebbles: sorting makes the scan's prefix the filter on dates. */
  lemma LimitedPebbleConstraintMeans(reg: seq<Sym>, maxTime: nat, nbRedPebbles: nat, a: Assignment, t: nat)
    requires t < maxTime && LimitedPebbleConstraints(reg, maxTime, nbRedPebbles).Success?
    ensures Eval(LimitedPebbleConstraints(reg, maxTime, nbRedPebbles).value[t], a) <==> RunningLoad(reg, t, a) <= nbRedPebbles
  {
    CapacityConstraintAt(reg, maxTime, nbRedPebbles, t);
    SortedCapacityMeans(reg, nbRedPebbles, a, t);
  }

  /** The sum over the sorted registry's prefix dated at most t is the load of the whole
      registry at t. */
  lemma SortedCapacityMeans(reg: seq<Sym>, nbRedPebbles: nat, a: Assignment, t: nat)
    ensures var sorted := SortByDate(reg);
      Eval(WeightedSumLe(Terms(sorted[..ScanUpTo(sorted, t)]), nbRedPebbles), a) <==> RunningLoad(reg, t, a) <= nbRedPebbles
  {
    var sorted := SortByDate(reg);
    var ts := Terms(sorted[..ScanUpTo(sorted, t)]);
    assert Eval(WeightedSumLe(ts, nbRedPebbles), a) <==> WeightedSum(ts, a) <= nbRedPebbles;
    ScanPrefixLoad(sorted, t, a);
    RunningLoadPermutation(sorted, reg, t, a);
  }

  lemma CapacityConstraintAt(reg: seq<Sym>, maxTime: nat, nbRedPebbles: nat, t: nat)
    requires t < maxTime && LimitedPebbleConstraints(reg, maxTime, nbRedPebbles).Success?
    ensures LimitedPebbleConstraints(reg, maxTime, nbRedPebbles).value[t] ==
              WeightedSumLe(Terms(SortByDate(reg)[..ScanUpTo(SortByDate(reg), t)]), nbRedPebbles)
  {
  }

  // ---------------------------------------------------------------------------
  // dagToConstraints

  /** Every computed node is scheduled at exactly one date of its window, no two registered
      variables of one date are both true, and the register load stays within nbRedPebbles at
      every date. */
  ghost predicate Schedulable(nodes: seq<Node>, v: P4Form, maxTime: nat, nbRedPebbles: nat, reg: seq<Sym>, a: Assignment)
    requires LinksInRange(nodes)
  {
    && AllScheduled(nodes, v, maxTime, a, |nodes|)
    && (forall t: nat :: t < maxTime ==> AtMostOneAt(reg, a, t))
    && WithinCapacity(reg, maxTime, nbRedPebbles, a)
  }

  /** The constraints dagToConstraints appends once the DAG carries its bounds: the node
      constraints in node order, then the exclusivity and capacity constraints over the
      registry as it then stands. The exclusivity constraints come first, so a date before
      maxTime at which nothing is registered ends the encoding there; when every date has a
      symbol, the capacity sums are never empty. A computed node with an empty window
      contributes its OR alone. */
  function EncodeDag(nodes: seq<Node>, v: P4Form, maxTime: nat, nbRedPebbles: nat, reg: seq<Sym>): (r: Result<(seq<Formula>, seq<Sym>), nat>)
    requires LinksInRange(nodes)
    ensures r.Failure? <==> exists t: nat :: t < maxTime && !HasDate(NodesConstraints(nodes, v, maxTime, |nodes|, reg).1, t)
    ensures r.Failure? ==> r.error < maxTime && !HasDate(NodesConstraints(nodes, v, maxTime, |nodes|, reg).1, r.error) &&
                           forall t: nat :: t < r.error ==> HasDate(NodesConstraints(nodes, v, maxTime, |nodes|, reg).1, t)
    ensures r.Success? ==>
              && reg <= r.value.1 && (NoDuplicates(reg) ==> NoDuplicates(r.value.1))
              && (forall t: nat :: t < maxTime ==> HasDate(r.value.1, t))
              && |r.value.0| + EmptyWindows(nodes, |nodes|) == 2 * ComputedCount(nodes, |nodes|) + 2 * maxTime
              && AtomsAmong(r.value.0, r.value.1)
  {
    var built := NodesConstraints(nodes, v, maxTime, |nodes|, reg);
    var exclusive := NoTwoSimultaneousNodes(built.1, maxTime);
    if exclusive.Failure? then
      assert exists t: nat :: t < maxTime && !HasDate(NodesConstraints(nodes, v, maxTime, |nodes|, reg).1, t);
      Failure(exclusive.error)
    else
      Success(Assembled(built.0, built.1, maxTime, nbRedPebbles))
  }

  /** The node constraints followed by the exclusivity and capacity constraints over a
      registry that has a symbol at every date. */
  function Assembled(built: seq<Formula>, reg: seq<Sym>, maxTime: nat, nbRedPebbles: nat): (r: (seq<Formula>, seq<Sym>))
    requires NoTwoSimultaneousNodes(reg, maxTime).Success?
    ensures r.1 == reg && |r.0| == |built| + 2 * maxTime
    ensures AtomsAmong(built, reg) ==> AtomsAmong(r.0, reg)
  {
    var exclusive := NoTwoSimultaneousNodes(reg, maxTime).value;
    ExclusiveThenCapacity(reg, maxTime, nbRedPebbles);
    var capacity := LimitedPebbleConstraints(reg, maxTime, nbRedPebbles).value;
    var all := built + exclusive + capacity;
    assert forall i :: 0 <= i < |all| ==>
      all[i] == if i < |built| then built[i]
                else if i < |built| + maxTime then exclusive[i - |built|]
                else capacity[i - |built| - maxTime];
    (all, reg)
  }

  /** Once every date has a symbol, no capacity sum is empty. */
  lemma ExclusiveThenCapacity(reg: seq<Sym>, maxTime: nat, nbRedPebbles: nat)
    requires NoTwoSimultaneousNodes(reg, maxTime).Success?
    ensures LimitedPebbleConstraints(reg, maxTime, nbRedPebbles).Success?
  {
    forall t: nat | t < maxTime
      ensures DatedBy(reg, t)
    {
      assert HasDate(reg, t);
    }
  }

  lemma AllHoldExclusive(reg: seq<Sym>, maxTime: nat, a: Assignment)
    requires NoDuplicates(reg) && NoTwoSimultaneousNodes(reg, maxTime).Success?
    ensures AllHold(NoTwoSimultaneousNodes(reg, maxTime).value, a) <==> forall t: nat :: t < maxTime ==> AtMostOneAt(reg, a, t)
  {
    forall t: nat | t < maxTime
      ensures Eval(NoTwoSimultaneousNodes(reg, maxTime).value[t], a) <==> AtMostOneAt(reg, a, t)
    {
      NoTwoSimultaneousNodesMeans(reg, maxTime, a, t);
    }
  }

  /** The register load stays within nbRedPebbles at every date before maxTime. */
  ghost predicate WithinCapacity(reg: seq<Sym>, maxTime: nat, nbRedPebbles: nat, a: Assignment)
  {
    forall t: nat :: t < maxTime ==> RunningLoad(reg, t, a) <= nbRedPebbles
  }

  lemma AllHoldCapacity(reg: seq<Sym>, maxTime: nat, nbRedPebbles: nat, a: Assignment)
    requires LimitedPebbleConstraints(reg, maxTime, nbRedPebbles).Success?
    ensures AllHold(LimitedPebbleConstraints(reg, maxTime, nbRedPebbles).value, a) <==> WithinCapacity(reg, maxTime, nbRedPebbles, a)
  {
    var cs := LimitedPebbleConstraints(reg, maxTime, nbRedPebbles).value;
    if AllHold(cs, a) {
      forall t: nat | t < maxTime
        ensures RunningLoad(reg, t, a) <= nbRedPebbles
      {
        assert Eval(cs[t], a);
        LimitedPebbleConstraintMeans(reg, maxTime, nbRedPebbles, a, t);
      }
    }
    if WithinCapacity(reg, maxTime, nbRedPebbles, a) {
      forall i | 0 <= i < |cs|
        ensures Eval(cs[i], a)
      {
        LimitedPebbleConstraintMeans(reg, maxTime, nbRedPebbles, a, i);
      }
    }
  }

  /** An assignment satisfies every appended constraint exactly when it is a schedule in
      the sense of Schedulable over the final registry. */
  lemma EncodeDagMeans(nodes: seq<Node>, v: P4Form, maxTime: nat, nbRedPebbles: nat, reg: seq<Sym>, a: Assignment)
    requires LinksInRange(nodes) && NoDuplicates(reg) && EncodeDag(nodes, v, maxTime, nbRedPebbles, reg).Success?
    ensures AllHold(EncodeDag(nodes, v, maxTime, nbRedPebbles, reg).value.0, a) <==>
              Schedulable(nodes, v, maxTime, nbRedPebbles, EncodeDag(nodes, v, maxTime, nbRedPebbles, reg).value.1, a)
  {
    var built := NodesConstraints(nodes, v, maxTime, |nodes|, reg);
    var exclusive := NoTwoSimultaneousNodes(built.1, maxTime).value;
    ExclusiveThenCapacity(built.1, maxTime, nbRedPebbles);
    var capacity := LimitedPebbleConstraints(built.1, maxTime, nbRedPebbles).value;
    assert EncodeDag(nodes, v, maxTime, nbRedPebbles, reg).value == (built.0 + exclusive + capacity, built.1);
    NodesConstraintsMean(nodes, v, maxTime, |nodes|, reg, a);
    AllHoldExclusive(built.1, maxTime, a);
    AllHoldCapacity(built.1, maxTime, nbRedPebbles, a);
    AllHoldAppend(built.0 + exclusive, capacity, a);
    AllHoldAppend(built.0, exclusive, a);
  }

  /** Why dagToConstraints produced no encoding: a deadline too tight for some node, or a date
      before maxTime at which no symbol was registered (z3's `atmost` of nothing fails). */
  datatype EncodeError = Infeasible(cause: MobilityError) | NothingDatedAt(date: nat)

  /** The annotation a DAG and a deadline admit is unique. */
  lemma AnnotatedUnique(d: Dag, maxTime: nat, d1: Dag, d2: Dag)
    requires WellFormed(d) && maxTime <= UINT32_MAX
    requires Annotated(d, maxTime, d1) && Annotated(d, maxTime, d2)
    ensures d1 == d2
  {
    assert d1.allNodes == d2.allNodes by {
      forall j | 0 <= j < |d.allNodes|
        ensures d1.allNodes[j] == d2.allNodes[j]
      {
      }
    }
  }

  /** dagToConstraints: the mobility pre-processing, then the constraints of every computed
      node, then exclusivity and capacity. A deadline too tight for some node is reported
      instead of encoding wrapped-around windows; a date with nothing registered is reported
      where the source's z3 call fails. */
  method DagToConstraints(d: Dag, v: P4Form, nbRedPebbles: nat, maxTime: nat, constraints: seq<Formula>, reg: seq<Sym>)
    returns (r: Result<(Dag, seq<Formula>, seq<Sym>), EncodeError>)
    requires WellFormed(d) && maxTime <= UINT32_MAX && NoDuplicates(reg)
    ensures (r.Failure? && r.error.Infeasible?) <==> exists j :: 0 <= j < |d.allNodes| && Alap(d.allNodes, maxTime, j) < 0
    ensures r.Failure? && r.error.Infeasible? ==>
              r.error.cause.node < |d.allNodes| && Alap(d.allNodes, maxTime, r.error.cause.node) < 0
    ensures r.Failure? && r.error.NothingDatedAt? ==>
              forall d' :: Annotated(d, maxTime, d') ==>
                LinksInRange(d'.allNodes) && EncodeDag(d'.allNodes, v, maxTime, nbRedPebbles, reg) == Failure(r.error.date)
    ensures r.Success? ==>
              && Annotated(d, maxTime, r.value.0)
              && LinksInRange(r.value.0.allNodes)
              && constraints <= r.value.1 && reg <= r.value.2 && NoDuplicates(r.value.2)
              && (forall t: nat :: t < maxTime ==> HasDate(r.value.2, t))
              && |r.value.1| + EmptyWindows(r.value.0.allNodes, |d.allNodes|) ==
                   |constraints| + 2 * ComputedCount(d.allNodes, |d.allNodes|) + 2 * maxTime
              && AtomsAmong(r.value.1[|constraints|..], r.value.2)
              && forall a :: AllHold(r.value.1[|constraints|..], a) <==>
                   Schedulable(r.value.0.allNodes, v, maxTime, nbRedPebbles, r.value.2, a)
  {
    var pre := PreProcessDag(d, maxTime);
    if pre.Failure? {
      return Failure(Infeasible(pre.error));
    }
    var d' := pre.value;
    var nodes := d'.allNodes;
    assert forall j :: 0 <= j < |nodes| ==> nodes[j].preds == d.allNodes[j].preds && nodes[j].succs == d.allNodes[j].succs;
    assert LinksInRange(nodes);
    SameComputedCount(d.allNodes, nodes, |nodes|);
    var encoded := EncodeDag(nodes, v, maxTime, nbRedPebbles, reg);
    if encoded.Failure? {
      forall d'' | Annotated(d, maxTime, d'')
        ensures LinksInRange(d''.allNodes) && EncodeDag(d''.allNodes, v, maxTime, nbRedPebbles, reg) == Failure(encoded.error)
      {
        AnnotatedUnique(d, maxTime, d', d'');
      }
      return Failure(NothingDatedAt(encoded.error));
    }
    var cs := constraints + encoded.value.0;
    assert cs[|constraints|..] == encoded.value.0;
    forall a
      ensures AllHold(encoded.value.0, a) <==> Schedulable(nodes, v, maxTime, nbRedPebbles, encoded.value.1, a)
    {
      EncodeDagMeans(nodes, v, maxTime, nbRedPebbles, reg, a);
    }
    return Success((d', cs, encoded.value.1));
  }

  lemma {:induction false} SameComputedCount(n1: seq<Node>, n2: seq<Node>, k: nat)
    requires k <= |n1| == |n2|
    requires forall j :: 0 <= j < |n1| ==> n1[j].preds == n2[j].preds
    ensures ComputedCount(n1, k) == ComputedCount(n2, k)
  {
    if k > 0 {
      SameComputedCount(n1, n2, k - 1);
    }
  }
}

=== FILE: formulas.dfy ===
/**
 * The Boolean/pseudo-Boolean formulas the encoder hands to the solver,
 * as an abstract syntax tree with an evaluation function. Empty
 * disjunctions are false and empty conjunctions true, as the solver's
 * n-ary `or`/`and` constructors make them.
 */
module Formulas {
  import opened Symbols

  /** A summand `ite(s, weight, 0)` of a pseudo-Boolean sum. */
  datatype Term = Term(s: Sym, weight: int)

  datatype Formula =
    | Const(b: bool)
    | Var(s: Sym)
    | Not(f: Formula)
    | And(fs: seq<Formula>)
    | Or(fs: seq<Formula>)
    | AtMost(fs: seq<Formula>, k: nat)
    | WeightedSumLe(terms: seq<Term>, bound: int)

  /** A truth value for every symbol: the solver's model, seen abstractly. */
  type Assignment = Sym -> bool

  /** Number of `true` entries. */
  function Count(bs: seq<bool>): (n: nat)
    ensures n <= |bs|
  {
    if |bs| == 0 then 0 else Count(bs[..|bs| - 1]) + (if bs[|bs| - 1] then 1 else 0)
  }

  /** Sum of the weights of the terms whose symbol is true. */
  function WeightedSum(ts: seq<Term>, a: Assignment): int
  {
    if |ts| == 0 then 0
    else WeightedSum(ts[..|ts| - 1], a) + (if a(ts[|ts| - 1].s) then ts[|ts| - 1].weight else 0)
  }

  function Eval(f: Formula, a: Assignment): bool
  {
    match f
    case Const(b) => b
    case Var(s) => a(s)
    case Not(g) => !Eval(g, a)
    case And(fs) => forall i :: 0 <= i < |fs| ==> Eval(fs[i], a)
    case Or(fs) => exists i :: 0 <= i < |fs| && Eval(fs[i], a)
    case AtMost(fs, k) => Count(seq(|fs|, i requires 0 <= i < |fs| => Eval(fs[i], a))) <= k
    case WeightedSumLe(ts, bound) => WeightedSum(ts, a) <= bound
  }

  /** The truth values of a list of formulas. */
  function Truths(fs: seq<Formula>, a: Assignment): (bs: seq<bool>)
    ensures |bs| == |fs|
    ensures forall i :: 0 <= i < |fs| ==> bs[i] == Eval(fs[i], a)
  {
    seq(|fs|, i requires 0 <= i < |fs| => Eval(fs[i], a))
  }

  lemma EvalAndPair(x: Formula, y: Formula, a: Assignment)
    ensures Eval(And([x, y]), a) <==> Eval(x, a) && Eval(y, a)
  {
    assert [x, y][0] == x && [x, y][1] == y;
  }

  /** One true disjunct makes the disjunction true. */
  lemma OrWitness(fs: seq<Formula>, k: nat, a: Assignment)
    requires k < |fs| && Eval(fs[k], a)
    ensures Eval(Or(fs), a)
  {
  }

  lemma EvalOrPair(x: Formula, y: Formula, a: Assignment)
    ensures Eval(Or([x, y]), a) <==> Eval(x, a) || Eval(y, a)
  {
    assert [x, y][0] == x && [x, y][1] == y;
  }

  /** `s` occurs somewhere in `f`. */
  predicate Mentions(f: Formula, s: Sym)
  {
    match f
    case Const(_) => false
    case Var(x) => x == s
    case Not(g) => Mentions(g, s)
    case And(fs) => exists i :: 0 <= i < |fs| && Mentions(fs[i], s)
    case Or(fs) => exists i :: 0 <= i < |fs| && Mentions(fs[i], s)
    case AtMost(fs, _) => exists i :: 0 <= i < |fs| && Mentions(fs[i], s)
    case WeightedSumLe(ts, _) => exists i :: 0 <= i < |ts| && ts[i].s == s
  }

  lemma MentionsPair(x: Formula, y: Formula, s: Sym)
    ensures Mentions(And([x, y]), s) <==> Mentions(x, s) || Mentions(y, s)
    ensures Mentions(Or([x, y]), s) <==> Mentions(x, s) || Mentions(y, s)
  {
    assert [x, y][0] == x && [x, y][1] == y;
  }

  /** Every symbol some formula of `fs` mentions is among `syms`. */
  ghost predicate AtomsAmong(fs: seq<Formula>, syms: seq<Sym>)
  {
    forall i, s :: 0 <= i < |fs| && Mentions(fs[i], s) ==> s in syms
  }

  /** A variable for each symbol, in order. */
  function Vars(syms: seq<Sym>): (fs: seq<Formula>)
    ensures |fs| == |syms|
    ensures forall i :: 0 <= i < |syms| ==> fs[i] == Var(syms[i])
  {
    seq(|syms|, i requires 0 <= i < |syms| => Var(syms[i]))
  }

  lemma VarsMentionOnlyTheirSymbols(syms: seq<Sym>)
    ensures AtomsAmong(Vars(syms), syms)
  {
  }

  /** Zero true entries means no entry is true. */
  lemma {:induction false} CountZero(bs: seq<bool>)
    ensures Count(bs) == 0 <==> forall i :: 0 <= i < |bs| ==> !bs[i]
    decreases |bs|
  {
    if |bs| > 0 {
      var init := bs[..|bs| - 1];
      CountZero(init);
      assert forall i :: 0 <= i < |init| ==> init[i] == bs[i];
    }
  }

  /** At most one true entry means no two distinct entries are both true. */
  lemma {:induction false} CountAtMostOne(bs: seq<bool>)
    ensures Count(bs) <= 1 <==> forall i, j :: 0 <= i < j < |bs| && bs[i] ==> !bs[j]
    decreases |bs|
  {
    if |bs| > 0 {
      var init := bs[..|bs| - 1];
      CountAtMostOne(init);
      CountZero(init);
      assert forall i :: 0 <= i < |init| ==> init[i] == bs[i];
    }
  }

  /** A disjunction together with an at-most-one constraint over the same
      list holds exactly when precisely one disjunct holds. */
  lemma ExactlyOne(fs: seq<Formula>, a: Assignment)
    ensures Eval(Or(fs), a) && Eval(AtMost(fs, 1), a) <==>
            exists i :: 0 <= i < |fs| && Eval(fs[i], a) &&
                        forall j :: 0 <= j < |fs| && Eval(fs[j], a) ==> j == i
  {
    var bs := Truths(fs, a);
    assert Eval(AtMost(fs, 1), a) == (Count(bs) <= 1);
    CountAtMostOne(bs);
    if Eval(Or(fs), a) && Eval(AtMost(fs, 1), a) {
      var i :| 0 <= i < |fs| && Eval(fs[i], a);
      forall j | 0 <= j < |fs| && Eval(fs[j], a)
        ensures j == i
      {
        assert bs[i] && bs[j];
      }
    }
    if exists i :: 0 <= i < |fs| && Eval(fs[i], a) &&
                   forall j :: 0 <= j < |fs| && Eval(fs[j], a) ==> j == i {
      var i :| 0 <= i < |fs| && Eval(fs[i], a) &&
               forall j :: 0 <= j < |fs| && Eval(fs[j], a) ==> j == i;
      assert Eval(Or(fs), a);
      forall x, y | 0 <= x < y < |bs| && bs[x]
        ensures !bs[y]
      {
      }
    }
  }

  /** Exactly one of the first n dates from lo satisfies P. */
  ghost predicate OneDate(P: nat -> bool, lo: nat, n: nat)
  {
    exists t: nat :: lo <= t < lo + n && P(t) && forall t': nat :: lo <= t' < lo + n && P(t') ==> t' == t
  }

  /** Exactly one formula of fs holds under a. */
  ghost predicate OneFormula(fs: seq<Formula>, a: Assignment)
  {
    exists i :: 0 <= i < |fs| && Eval(fs[i], a) && forall j :: 0 <= j < |fs| && Eval(fs[j], a) ==> j == i
  }

  lemma OneFormulaOneDate(fs: seq<Formula>, a: Assignment, P: nat -> bool, lo: nat)
    requires forall k :: 0 <= k < |fs| ==> (Eval(fs[k], a) <==> P(lo + k))
    requires OneFormula(fs, a)
    ensures OneDate(P, lo, |fs|)
  {
    var k :| 0 <= k < |fs| && Eval(fs[k], a) && forall j :: 0 <= j < |fs| && Eval(fs[j], a) ==> j == k;
    var t: nat := lo + k;
    assert P(t);
    assert forall t': nat :: lo <= t' < lo + |fs| && P(t') ==> t' == t by {
      forall t': nat | lo <= t' < lo + |fs| && P(t')
        ensures t' == t
      {
        var j := t' - lo;
        assert lo + j == t';
        assert Eval(fs[j], a);
      }
    }
    OneDateWitness(P, lo, |fs|, t);
  }

  lemma OneDateWitness(P: nat -> bool, lo: nat, n: nat, t: nat)
    requires lo <= t < lo + n && P(t) && forall t': nat :: lo <= t' < lo + n && P(t') ==> t' == t
    ensures OneDate(P, lo, n)
  {
  }

  lemma OneDateOneFormula(fs: seq<Formula>, a: Assignment, P: nat -> bool, lo: nat)
    requires forall k :: 0 <= k < |fs| ==> (Eval(fs[k], a) <==> P(lo + k))
    requires OneDate(P, lo, |fs|)
    ensures OneFormula(fs, a)
  {
    var t: nat :| lo <= t < lo + |fs| && P(t) && forall t': nat :: lo <= t' < lo + |fs| && P(t') ==> t' == t;
    var k := t - lo;
    assert lo + k == t;
    assert Eval(fs[k], a);
    forall j | 0 <= j < |fs| && Eval(fs[j], a)
      ensures j == k
    {
      assert P(lo + j);
    }
  }

  /** ExactlyOne transported to a predicate on dates: if the k-th formula holds exactly when
      P holds at lo + k, one formula holds alone exactly when P holds at one date alone. */
  lemma ExactlyOneAt(fs: seq<Formula>, a: Assignment, P: nat -> bool, lo: nat)
    requires forall k :: 0 <= k < |fs| ==> (Eval(fs[k], a) <==> P(lo + k))
    ensures Eval(Or(fs), a) && Eval(AtMost(fs, 1), a) <==> OneDate(P, lo, |fs|)
  {
    ExactlyOne(fs, a);
    assert OneFormula(fs, a) <==> Eval(Or(fs), a) && Eval(AtMost(fs, 1), a);
    if OneFormula(fs, a) {
      OneFormulaOneDate(fs, a, P, lo);
    }
    if OneDate(P, lo, |fs|) {
      OneDateOneFormula(fs, a, P, lo);
    }
  }
}

=== FILE: graph.dfy ===
/**
 * The graph builder: a 1-based dependency table becomes nodes with
 * cross-linked predecessor and successor lists, and the DAG record lists
 * the input nodes (no predecessors) and output nodes (no successors).
 * Node references are 0-based indices into the node sequence.
 */
module Graph {

  const UINT32_MAX: nat := 0xFFFF_FFFF

  /** One row per node; entry v > 0 names predecessor node v (1-based), 0 is an unused slot. */
  type Table = seq<seq<nat>>

  datatype Node = Node(
    preds: seq<nat>,  // predecessor indices, in slot order
    succs: seq<nat>,  // successor indices, in the order the edges were inserted
    num: nat,         // the 1-based node number used in symbol names
    asap: nat,
    alap: nat,
    deleted: bool)

  datatype Dag = Dag(inputNodes: seq<nat>, outputNodes: seq<nat>, allNodes: seq<Node>, nbNodes: nat)

  /** No entry names a node beyond the table; the builder itself does not check this. */
  predicate EntriesInRange(table: Table)
  {
    forall i, j :: 0 <= i < |table| && 0 <= j < |table[i]| ==> table[i][j] <= |table|
  }

  /** Number of occurrences of `x` in `s`. */
  function Occurrences(s: seq<nat>, x: nat): (n: nat)
    ensures n <= |s|
  {
    if |s| == 0 then 0 else Occurrences(s[..|s| - 1], x) + (if s[|s| - 1] == x then 1 else 0)
  }

  /** Number of used (nonzero) slots of a row. */
  function UsedSlots(row: seq<nat>): nat
  {
    if |row| == 0 then 0 else UsedSlots(row[..|row| - 1]) + (if row[|row| - 1] > 0 then 1 else 0)
  }

  /** The predecessor list a row produces: each used slot, converted to 0-based, in slot order. */
  function PredsOf(row: seq<nat>): seq<nat>
  {
    if |row| == 0 then []
    else PredsOf(row[..|row| - 1]) + (if row[|row| - 1] > 0 then [row[|row| - 1] - 1] else [])
  }

  function Repeat(x: nat, n: nat): (r: seq<nat>)
    ensures |r| == n && forall k :: 0 <= k < n ==> r[k] == x
  {
    seq(n, _ => x)
  }

  /** The successor list of node `p` after rows 0 .. upto-1 have been processed: row i
      contributes i once per slot naming p. */
  function SuccsOf(table: Table, p: nat, upto: nat): seq<nat>
    requires upto <= |table|
  {
    if upto == 0 then []
    else SuccsOf(table, p, upto - 1) + Repeat(upto - 1, Occurrences(table[upto - 1], p + 1))
  }

  lemma PrefixStep(row: seq<nat>, j: nat)
    requires j < |row|
    ensures row[..j + 1][..j] == row[..j]
    ensures PredsOf(row[..j + 1]) == PredsOf(row[..j]) + (if row[j] > 0 then [row[j] - 1] else [])
    ensures forall x :: Occurrences(row[..j + 1], x) == Occurrences(row[..j], x) + (if row[j] == x then 1 else 0)
  {
    assert row[..j + 1][..j] == row[..j];
  }

  lemma RepeatSnoc(x: nat, n: nat)
    ensures Repeat(x, n) + [x] == Repeat(x, n + 1)
  {
  }

  /** The linking loops of the builder: for each row in order and each slot in order, a used
      slot v appends v-1 to the row's predecessors and the row to node v-1's successors. */
  method LinkTable(table: Table) returns (preds: seq<seq<nat>>, succs: seq<seq<nat>>)
    requires EntriesInRange(table)
    ensures |preds| == |table| && |succs| == |table|
    ensures forall i :: 0 <= i < |table| ==> preds[i] == PredsOf(table[i])
    ensures forall p :: 0 <= p < |table| ==> succs[p] == SuccsOf(table, p, |table|)
  {
    var n := |table|;
    preds := seq(n, _ => []);
    succs := seq(n, _ => []);
    var i := 0;
    while i < n
      invariant i <= n && |preds| == n && |succs| == n
      invariant forall k :: 0 <= k < i ==> preds[k] == PredsOf(table[k])
      invariant forall k :: i <= k < n ==> preds[k] == []
      invariant forall p :: 0 <= p < n ==> succs[p] == SuccsOf(table, p, i)
    {
      preds, succs := LinkRow(table, i, preds, succs);
      forall p | 0 <= p < n
        ensures succs[p] == SuccsOf(table, p, i + 1)
      {
        SuccsOfStep(table, p, i);
      }
      i := i + 1;
    }
  }

  lemma SuccsOfStep(table: Table, p: nat, i: nat)
    requires i < |table|
    ensures SuccsOf(table, p, i + 1) == SuccsOf(table, p, i) + Repeat(i, Occurrences(table[i], p + 1))
  {
  }

  /** The inner linking loop for row i: its predecessor list is built and row i is appended
      to the successor list of every node it names, once per naming slot. */
  method LinkRow(table: Table, i: nat, preds0: seq<seq<nat>>, succs0: seq<seq<nat>>)
    returns (preds: seq<seq<nat>>, succs: seq<seq<nat>>)
    requires EntriesInRange(table) && i < |table| && |preds0| == |table| && |succs0| == |table|
    requires preds0[i] == []
    ensures |preds| == |table| && |succs| == |table|
    ensures forall k :: 0 <= k < |table| && k != i ==> preds[k] == preds0[k]
    ensures preds[i] == PredsOf(table[i])
    ensures forall p :: 0 <= p < |table| ==> succs[p] == succs0[p] + Repeat(i, Occurrences(table[i], p + 1))
  {
    var n := |table|;
    preds, succs := preds0, succs0;
    var j := 0;
    while j < |table[i]|
      invariant j <= |table[i]| && |preds| == n && |succs| == n
      invariant forall k :: 0 <= k < n && k != i ==> preds[k] == preds0[k]
      invariant preds[i] == PredsOf(table[i][..j])
      invariant forall p :: 0 <= p < n ==> succs[p] == succs0[p] + Repeat(i, Occurrences(table[i][..j], p + 1))
    {
      PrefixStep(table[i], j);
      var dep := table[i][j];
      if dep > 0 {
        dep := dep - 1;
        RepeatSnoc(i, Occurrences(table[i][..j], dep + 1));
        preds := preds[i := preds[i] + [dep]];
        succs := succs[dep := succs[dep] + [i]];
      }
      j := j + 1;
    }
    assert table[i][..|table[i]|] == table[i];
  }

  /** Builds the nodes of the table: node i gets number i+1, the "not yet computed" ASAP and
      ALAP values, no deletion mark, and the links LinkTable makes. */
  method MatrixToNodes(table: Table) returns (nodes: seq<Node>)
    requires EntriesInRange(table)
    ensures |nodes| == |table|
    ensures forall i :: 0 <= i < |nodes| ==>
              nodes[i].num == i + 1 && nodes[i].asap == UINT32_MAX && nodes[i].alap == 0 && !nodes[i].deleted
    ensures forall i :: 0 <= i < |nodes| ==> nodes[i].preds == PredsOf(table[i])
    ensures forall p :: 0 <= p < |nodes| ==> nodes[p].succs == SuccsOf(table, p, |table|)
    ensures forall i :: 0 <= i < |nodes| ==> |nodes[i].preds| == UsedSlots(table[i])
    ensures forall i, k :: 0 <= i < |nodes| && 0 <= k < |nodes[i].preds| ==> nodes[i].preds[k] < |nodes|
    ensures forall i, p :: 0 <= i < |nodes| && 0 <= p < |nodes| ==>
              Occurrences(nodes[i].preds, p) == Occurrences(nodes[p].succs, i)
  {
    var preds, succs := LinkTable(table);
    var n := |table|;
    nodes := seq(n, k requires 0 <= k < n => Node(preds[k], succs[k], k + 1, UINT32_MAX, 0, false));
    forall i | 0 <= i < n
      ensures |nodes[i].preds| == UsedSlots(table[i])
      ensures forall k :: 0 <= k < |nodes[i].preds| ==> nodes[i].preds[k] < n
      ensures forall p :: 0 <= p < n ==> Occurrences(nodes[i].preds, p) == Occurrences(nodes[p].succs, i)
    {
      PredCountIsUsedSlots(table[i]);
      PredsInRange(table[i], n);
      forall p | 0 <= p < n
        ensures Occurrences(nodes[i].preds, p) == Occurrences(nodes[p].succs, i)
      {
        EdgeMultiplicity(table, i, p);
      }
    }
  }

  /** The nodes MatrixToNodes builds are cross-linked: every successor is a row of the table,
      and the multiplicities it ensures agree in both directions. */
  lemma BuilderCrossLinked(table: Table, nodes: seq<Node>)
    requires |nodes| == |table|
    requires forall p :: 0 <= p < |nodes| ==> nodes[p].succs == SuccsOf(table, p, |table|)
    requires forall i, k :: 0 <= i < |nodes| && 0 <= k < |nodes[i].preds| ==> nodes[i].preds[k] < |nodes|
    requires forall i, p :: 0 <= i < |nodes| && 0 <= p < |nodes| ==>
               Occurrences(nodes[i].preds, p) == Occurrences(nodes[p].succs, i)
    ensures CrossLinked(nodes)
  {
    forall p | 0 <= p < |nodes|
      ensures forall k :: 0 <= k < |nodes[p].succs| ==> nodes[p].succs[k] < |nodes|
    {
      SuccsBelow(table, p);
    }
    CrossLinkedFromCounts(nodes);
  }

  /** Every successor of p is a row of the table. */
  lemma SuccsBelow(table: Table, p: nat)
    ensures forall k :: 0 <= k < |SuccsOf(table, p, |table|)| ==> SuccsOf(table, p, |table|)[k] < |table|
  {
    SuccsOrdered(table, p, |table|);
  }

  /** x occurs in s exactly when its count there is positive. */
  lemma {:induction false} OccurrencesPositive(s: seq<nat>, x: nat)
    ensures x in s <==> Occurrences(s, x) > 0
    decreases |s|
  {
    if |s| > 0 {
      OccurrencesPositive(s[..|s| - 1], x);
      assert s == s[..|s| - 1] + [s[|s| - 1]];
    }
  }

  /** Links in range whose multiplicities agree in both directions are cross-linked. */
  lemma CrossLinkedFromCounts(nodes: seq<Node>)
    requires LinksInRange(nodes)
    requires forall i, p :: 0 <= i < |nodes| && 0 <= p < |nodes| ==>
               Occurrences(nodes[i].preds, p) == Occurrences(nodes[p].succs, i)
    ensures CrossLinked(nodes)
  {
    forall i, k | 0 <= i < |nodes| && 0 <= k < |nodes[i].preds|
      ensures i in nodes[nodes[i].preds[k]].succs
    {
      var p := nodes[i].preds[k];
      OccurrencesPositive(nodes[i].preds, p);
      OccurrencesPositive(nodes[p].succs, i);
    }
    forall i, k | 0 <= i < |nodes| && 0 <= k < |nodes[i].succs|
      ensures i in nodes[nodes[i].succs[k]].preds
    {
      var s := nodes[i].succs[k];
      OccurrencesPositive(nodes[i].succs, s);
      OccurrencesPositive(nodes[s].preds, i);
    }
  }

  lemma {:induction false} OccurrencesAppend(a: seq<nat>, b: seq<nat>, x: nat)
    ensures Occurrences(a + b, x) == Occurrences(a, x) + Occurrences(b, x)
    decreases |b|
  {
    if |b| > 0 {
      assert (a + b)[..|a + b| - 1] == a + b[..|b| - 1];
      OccurrencesAppend(a, b[..|b| - 1], x);
    } else {
      assert a + b == a;
    }
  }

  lemma {:induction false} OccurrencesRepeat(y: nat, n: nat, x: nat)
    ensures Occurrences(Repeat(y, n), x) == if x == y then n else 0
    decreases n
  {
    if n > 0 {
      assert Repeat(y, n)[..n - 1] == Repeat(y, n - 1);
      OccurrencesRepeat(y, n - 1, x);
    }
  }

  /** The predecessor count of a node is the number of used slots of its row. */
  lemma {:induction false} PredCountIsUsedSlots(row: seq<nat>)
    ensures |PredsOf(row)| == UsedSlots(row)
    decreases |row|
  {
    if |row| > 0 {
      PredCountIsUsedSlots(row[..|row| - 1]);
    }
  }

  /** Node p is listed among the predecessors exactly as often as slot value p+1 occurs in the row. */
  lemma {:induction false} OccurrencesInPreds(row: seq<nat>, p: nat)
    ensures Occurrences(PredsOf(row), p) == Occurrences(row, p + 1)
    decreases |row|
  {
    if |row| > 0 {
      var init, v := row[..|row| - 1], row[|row| - 1];
      OccurrencesInPreds(init, p);
      OccurrencesAppend(PredsOf(init), if v > 0 then [v - 1] else [], p);
      if v > 0 {
        assert Occurrences([v - 1], p) == Occurrences([], p) + (if v - 1 == p then 1 else 0);
      }
    }
  }

  /** Node i is listed among p's successors once per slot of row i naming p. */
  lemma {:induction false} OccurrencesInSuccs(table: Table, p: nat, upto: nat, i: nat)
    requires upto <= |table|
    ensures Occurrences(SuccsOf(table, p, upto), i) == if i < upto then Occurrences(table[i], p + 1) else 0
    decreases upto
  {
    if upto > 0 {
      OccurrencesInSuccs(table, p, upto - 1, i);
      var c := Occurrences(table[upto - 1], p + 1);
      OccurrencesAppend(SuccsOf(table, p, upto - 1), Repeat(upto - 1, c), i);
      OccurrencesRepeat(upto - 1, c, i);
    }
  }

  /** Cross-consistency with multiplicity: p occurs in the predecessors of i exactly as
      often as i occurs in the successors of p. */
  lemma EdgeMultiplicity(table: Table, i: nat, p: nat)
    requires i < |table|
    ensures Occurrences(PredsOf(table[i]), p) == Occurrences(SuccsOf(table, p, |table|), i)
  {
    OccurrencesInPreds(table[i], p);
    OccurrencesInSuccs(table, p, |table|, i);
  }

  /** Every predecessor index is a valid node index. */
  lemma {:induction false} PredsInRange(row: seq<nat>, n: nat)
    requires forall j :: 0 <= j < |row| ==> row[j] <= n
    ensures forall k :: 0 <= k < |PredsOf(row)| ==> PredsOf(row)[k] < n
    decreases |row|
  {
    if |row| > 0 {
      PredsInRange(row[..|row| - 1], n);
    }
  }

  /** Successors are appended in increasing row order (repeated once per slot). */
  lemma {:induction false} SuccsOrdered(table: Table, p: nat, upto: nat)
    requires upto <= |table|
    ensures forall k :: 0 <= k < |SuccsOf(table, p, upto)| ==> SuccsOf(table, p, upto)[k] < upto
    ensures forall a, b :: 0 <= a <= b < |SuccsOf(table, p, upto)| ==>
              SuccsOf(table, p, upto)[a] <= SuccsOf(table, p, upto)[b]
    decreases upto
  {
    if upto > 0 {
      SuccsOrdered(table, p, upto - 1);
    }
  }

  /** Sum over rows 0 .. upto-1 of the predecessor counts. */
  function TotalPreds(table: Table, upto: nat): nat
    requires upto <= |table|
  {
    if upto == 0 then 0 else TotalPreds(table, upto - 1) + |PredsOf(table[upto - 1])|
  }

  /** Sum over nodes 0 .. n-1 of the successor counts after `upto` rows. */
  function TotalSuccs(table: Table, n: nat, upto: nat): nat
    requires upto <= |table|
  {
    if n == 0 then 0 else TotalSuccs(table, n - 1, upto) + |SuccsOf(table, n - 1, upto)|
  }

  /** Sum over nodes p < n of the occurrences of slot value p+1 in a row. */
  function SlotsNaming(row: seq<nat>, n: nat): nat
  {
    if n == 0 then 0 else SlotsNaming(row, n - 1) + Occurrences(row, n)
  }

  lemma {:induction false} SlotsNamingSnoc(row: seq<nat>, v: nat, n: nat)
    ensures SlotsNaming(row + [v], n) == SlotsNaming(row, n) + (if 0 < v <= n then 1 else 0)
    decreases n
  {
    if n > 0 {
      SlotsNamingSnoc(row, v, n - 1);
      assert (row + [v])[..|row + [v]| - 1] == row;
    }
  }

  lemma {:induction false} SlotsNamingEmpty(n: nat)
    ensures SlotsNaming([], n) == 0
    decreases n
  {
    if n > 0 {
      SlotsNamingEmpty(n - 1);
    }
  }

  lemma {:induction false} SlotsNamingIsPredCount(row: seq<nat>, n: nat)
    requires forall j :: 0 <= j < |row| ==> row[j] <= n
    ensures SlotsNaming(row, n) == |PredsOf(row)|
    decreases |row|
  {
    if |row| > 0 {
      var init, v := row[..|row| - 1], row[|row| - 1];
      SlotsNamingIsPredCount(init, n);
      SlotsNamingSnoc(init, v, n);
      assert init + [v] == row;
    } else {
      SlotsNamingEmpty(n);
    }
  }

  lemma {:induction false} TotalSuccsStep(table: Table, n: nat, upto: nat)
    requires upto < |table|
    ensures TotalSuccs(table, n, upto + 1) == TotalSuccs(table, n, upto) + SlotsNaming(table[upto], n)
    decreases n
  {
    if n > 0 {
      var k :| k + 1 == n;
      TotalSuccsStep(table, k, upto);
      SuccsOfStep(table, k, upto);
      assert TotalSuccs(table, n, upto + 1) == TotalSuccs(table, k, upto + 1) + |SuccsOf(table, k, upto + 1)|;
      assert TotalSuccs(table, n, upto) == TotalSuccs(table, k, upto) + |SuccsOf(table, k, upto)|;
      assert SlotsNaming(table[upto], n) == SlotsNaming(table[upto], k) + Occurrences(table[upto], n);
    }
  }

  /** The builder creates as many successor links as predecessor links. */
  lemma {:induction false} TotalEdges(table: Table, upto: nat)
    requires EntriesInRange(table) && upto <= |table|
    ensures TotalPreds(table, upto) == TotalSuccs(table, |table|, upto)
    decreases upto
  {
    if upto == 0 {
      ZeroSuccs(table, |table|);
    } else {
      TotalEdges(table, upto - 1);
      TotalEdgesStep(table, upto);
    }
  }

  /** Row upto-1 adds as many successor links as predecessor links. */
  lemma TotalEdgesStep(table: Table, upto: nat)
    requires EntriesInRange(table) && 0 < upto <= |table|
    ensures TotalPreds(table, upto) - TotalPreds(table, upto - 1) ==
            TotalSuccs(table, |table|, upto) - TotalSuccs(table, |table|, upto - 1)
  {
    var row := table[upto - 1];
    assert forall j :: 0 <= j < |row| ==> row[j] <= |table|;
    TotalSuccsStep(table, |table|, upto - 1);
    SlotsNamingIsPredCount(row, |table|);
  }

  lemma {:induction false} ZeroSuccs(table: Table, n: nat)
    ensures TotalSuccs(table, n, 0) == 0
    decreases n
  {
    if n > 0 {
      ZeroSuccs(table, n - 1);
    }
  }

  /** A node is an input when it has no predecessor. */
  predicate IsInput(n: Node)
  {
    |n.preds| == 0
  }

  /** A node is an output when it has no successor. */
  predicate IsOutput(n: Node)
  {
    |n.succs| == 0
  }

  /** Every link names an existing node. */
  predicate LinksInRange(nodes: seq<Node>)
  {
    && (forall i, k :: 0 <= i < |nodes| && 0 <= k < |nodes[i].preds| ==> nodes[i].preds[k] < |nodes|)
    && (forall i, k :: 0 <= i < |nodes| && 0 <= k < |nodes[i].succs| ==> nodes[i].succs[k] < |nodes|)
  }

  /** p is a predecessor of i exactly when i is a successor of p. */
  predicate CrossLinked(nodes: seq<Node>)
  {
    && LinksInRange(nodes)
    && (forall i, k :: 0 <= i < |nodes| && 0 <= k < |nodes[i].preds| ==> i in nodes[nodes[i].preds[k]].succs)
    && (forall i, k :: 0 <= i < |nodes| && 0 <= k < |nodes[i].succs| ==> i in nodes[nodes[i].succs[k]].preds)
  }

  predicate StrictlyIncreasing(s: seq<nat>)
  {
    forall a, b :: 0 <= a < b < |s| ==> s[a] < s[b]
  }

  /** Wraps the first `nbNodes` nodes into a DAG and lists its inputs and outputs. */
  method CreateDagStructure(nodes: seq<Node>, nbNodes: nat) returns (d: Dag)
    requires nbNodes <= |nodes|
    ensures d.allNodes == nodes && d.nbNodes == nbNodes
    ensures StrictlyIncreasing(d.inputNodes)
    ensures forall i: nat :: i in d.inputNodes <==> i < nbNodes && IsInput(nodes[i])
    ensures StrictlyIncreasing(d.outputNodes)
    ensures forall i: nat :: i in d.outputNodes <==> i < nbNodes && IsOutput(nodes[i])
  {
    var inputs: seq<nat> := [];
    var i := 0;
    while i < nbNodes
      invariant i <= nbNodes
      invariant StrictlyIncreasing(inputs)
      invariant forall k :: 0 <= k < |inputs| ==> inputs[k] < i
      invariant forall x: nat :: x in inputs <==> x < i && IsInput(nodes[x])
    {
      if IsInput(nodes[i]) {
        inputs := inputs + [i];
      }
      i := i + 1;
    }
    var outputs: seq<nat> := [];
    i := 0;
    while i < nbNodes
      invariant i <= nbNodes
      invariant StrictlyIncreasing(outputs)
      invariant forall k :: 0 <= k < |outputs| ==> outputs[k] < i
      invariant forall x: nat :: x in outputs <==> x < i && IsOutput(nodes[x])
    {
      if IsOutput(nodes[i]) {
        outputs := outputs + [i];
      }
      i := i + 1;
    }
    d := Dag(inputs, outputs, nodes, nbNodes);
  }
}

=== FILE: mobility.dfy ===
/**
 * Mobility analysis: the ASAP and ALAP bounds of every node, the
 * memo-free recursive traversal that stores them on the nodes, and the
 * 32-bit unsigned arithmetic of the ALAP step with its overflow test.
 */
module Mobility {
  import opened Wrappers
  import opened Graph

  const TWO_32: nat := 0x1_0000_0000

  /** A rank that grows along every edge: its existence is acyclicity. */
  ghost predicate Ranked(nodes: seq<Node>, rank: seq<nat>)
  {
    && |rank| == |nodes|
    && (forall i :: 0 <= i < |nodes| ==> rank[i] < |nodes|)
    && (forall i, k :: 0 <= i < |nodes| && 0 <= k < |nodes[i].preds| ==>
          nodes[i].preds[k] < |nodes| && rank[nodes[i].preds[k]] < rank[i])
    && (forall i, k :: 0 <= i < |nodes| && 0 <= k < |nodes[i].succs| ==>
          nodes[i].succs[k] < |nodes| && rank[i] < rank[nodes[i].succs[k]])
  }

  ghost predicate Acyclic(nodes: seq<Node>)
  {
    exists rank :: Ranked(nodes, rank)
  }

  ghost function Rank(nodes: seq<Node>): (rank: seq<nat>)
    requires Acyclic(nodes)
    ensures Ranked(nodes, rank)
  {
    var rank :| Ranked(nodes, rank); rank
  }

  /** Along a successor link the rank grows. */
  lemma SuccLinks(nodes: seq<Node>, i: nat)
    requires Acyclic(nodes) && i < |nodes|
    ensures forall k :: 0 <= k < |nodes[i].succs| ==>
              nodes[i].succs[k] < |nodes| && Rank(nodes)[i] < Rank(nodes)[nodes[i].succs[k]]
  {
    assert Ranked(nodes, Rank(nodes));
  }

  /** Along a predecessor link the rank shrinks. */
  lemma PredLinks(nodes: seq<Node>, i: nat)
    requires Acyclic(nodes) && i < |nodes|
    ensures forall k :: 0 <= k < |nodes[i].preds| ==>
              nodes[i].preds[k] < |nodes| && Rank(nodes)[nodes[i].preds[k]] < Rank(nodes)[i]
  {
    assert Ranked(nodes, Rank(nodes));
  }

  function Min(a: int, b: int): int { if a <= b then a else b }

  function Max(a: int, b: int): int { if a >= b then a else b }

  function MinOf(s: seq<int>): (m: int)
    requires |s| > 0
    ensures m in s && forall k :: 0 <= k < |s| ==> m <= s[k]
  {
    if |s| == 1 then s[0] else Min(MinOf(s[..|s| - 1]), s[|s| - 1])
  }

  function MaxOf(s: seq<int>): (m: int)
    requires |s| > 0
    ensures m in s && forall k :: 0 <= k < |s| ==> s[k] <= m
  {
    if |s| == 1 then s[0] else Max(MaxOf(s[..|s| - 1]), s[|s| - 1])
  }

  /** The ASAP of a node from the ASAPs of its predecessors (one entry per predecessor link). */
  function AsapStep(preds: seq<int>): (r: int)
    ensures (forall k :: 0 <= k < |preds| ==> preds[k] >= 0) ==> r >= |preds|
    ensures forall k :: 0 <= k < |preds| ==> preds[k] < r
  {
    if |preds| == 0 then 0 else Max(MinOf(preds) + |preds|, 1 + MaxOf(preds))
  }

  /** The ALAP of a node from the ALAPs of its successors, in unbounded integers. */
  function AlapStep(maxTime: nat, succs: seq<int>): (r: int)
    ensures (forall k :: 0 <= k < |succs| ==> succs[k] <= maxTime) ==> r <= maxTime
    ensures forall k :: 0 <= k < |succs| ==> r < succs[k]
  {
    if |succs| == 0 then maxTime else Min(MaxOf(succs) - 2 * |succs|, MinOf(succs) - 1)
  }

  /** Earliest date at which a node can be computed. */
  function Asap(nodes: seq<Node>, i: nat): nat
    requires Acyclic(nodes) && i < |nodes|
    decreases Rank(nodes)[i], 1
  {
    var vals := PredAsaps(nodes, i);
    assert forall k :: 0 <= k < |vals| ==> vals[k] >= 0;
    AsapStep(vals)
  }

  /** The ASAPs of the predecessors of node i, one per predecessor link. */
  function PredAsaps(nodes: seq<Node>, i: nat): (vals: seq<nat>)
    requires Acyclic(nodes) && i < |nodes|
    ensures |vals| == |nodes[i].preds|
    decreases Rank(nodes)[i], 0
  {
    var ps := nodes[i].preds;
    PredLinks(nodes, i);
    seq(|ps|, k requires 0 <= k < |ps| => Asap(nodes, ps[k]))
  }

  /** Latest date at which a node can be computed, in unbounded integers (it may be negative). */
  function Alap(nodes: seq<Node>, maxTime: nat, i: nat): int
    requires Acyclic(nodes) && i < |nodes|
    decreases |nodes| - Rank(nodes)[i], 1
  {
    AlapStep(maxTime, SuccAlaps(nodes, maxTime, i))
  }

  /** The ALAPs of the successors of node i, one per successor link. */
  function SuccAlaps(nodes: seq<Node>, maxTime: nat, i: nat): (vals: seq<int>)
    requires Acyclic(nodes) && i < |nodes|
    ensures |vals| == |nodes[i].succs|
    decreases |nodes| - Rank(nodes)[i], 0
  {
    var ss := nodes[i].succs;
    SuccLinks(nodes, i);
    seq(|ss|, k requires 0 <= k < |ss| => Alap(nodes, maxTime, ss[k]))
  }

  /** ASAP is 0 exactly for nodes without predecessors, at least the number of predecessor
      links, and strictly above every predecessor's ASAP. */
  lemma AsapBounds(nodes: seq<Node>, i: nat)
    requires Acyclic(nodes) && i < |nodes|
    ensures Asap(nodes, i) == 0 <==> |nodes[i].preds| == 0
    ensures Asap(nodes, i) >= |nodes[i].preds|
    ensures forall k :: 0 <= k < |nodes[i].preds| ==> Asap(nodes, nodes[i].preds[k]) < Asap(nodes, i)
  {
    var vals := PredAsaps(nodes, i);
    PredLinks(nodes, i);
    assert Asap(nodes, i) == AsapStep(vals);
    forall k | 0 <= k < |vals|
      ensures Asap(nodes, nodes[i].preds[k]) < Asap(nodes, i)
    {
      assert vals[k] == Asap(nodes, nodes[i].preds[k]);
    }
  }

  /** ALAP is maxTime for nodes without successors, never above maxTime, and strictly below
      every successor's ALAP. */
  lemma {:induction false} AlapBounds(nodes: seq<Node>, maxTime: nat, i: nat)
    requires Acyclic(nodes) && i < |nodes|
    ensures |nodes[i].succs| == 0 ==> Alap(nodes, maxTime, i) == maxTime
    ensures Alap(nodes, maxTime, i) <= maxTime
    ensures forall k :: 0 <= k < |nodes[i].succs| ==>
              Alap(nodes, maxTime, i) < Alap(nodes, maxTime, nodes[i].succs[k])
    decreases |nodes| - Rank(nodes)[i]
  {
    var vals := SuccAlaps(nodes, maxTime, i);
    SuccLinks(nodes, i);
    assert Alap(nodes, maxTime, i) == AlapStep(maxTime, vals);
    forall k | 0 <= k < |vals|
      ensures vals[k] <= maxTime && vals[k] == Alap(nodes, maxTime, nodes[i].succs[k])
    {
      AlapBounds(nodes, maxTime, nodes[i].succs[k]);
    }
  }

  // ---------------------------------------------------------------------------
  // 32-bit unsigned ALAP arithmetic

  /** A value reduced modulo 2^32, as the result of a uint32 subtraction is. */
  function Wrap(x: int): (r: nat)
    ensures r < TWO_32
    ensures 0 <= x < TWO_32 ==> r == x
    ensures x < 0 && 0 <= x + TWO_32 ==> r == x + TWO_32
  {
    x % TWO_32
  }

  predicate IsU32Seq(vals: seq<int>)
  {
    forall k :: 0 <= k < |vals| ==> 0 <= vals[k] <= UINT32_MAX
  }

  /** The ALAP step as the source computes it on uint32 values: both subtractions wrap. For
      values in range, the accumulators seeded with UINT32_MAX and 0 give MinOf and MaxOf. */
  function AlapStepU32(maxTime: nat, succs: seq<int>): (r: nat)
    requires IsU32Seq(succs) && maxTime <= UINT32_MAX
    ensures r <= UINT32_MAX
  {
    if |succs| == 0 then maxTime
    else Min(Wrap(MaxOf(succs) - Wrap(2 * |succs|)), Wrap(MinOf(succs) - 1))
  }

  /** The source's only overflow test after an ALAP step: `alap > maxSuccAlap`. */
  predicate SourceWarns(succs: seq<int>)
    requires IsU32Seq(succs)
  {
    |succs| > 0 && AlapStepU32(0, succs) > MaxOf(succs)
  }

  /** The test fires exactly when BOTH subtractions wrap; a wrap of only one of them goes
      unnoticed. */
  lemma SourceWarnsIffBothWrap(succs: seq<int>)
    requires IsU32Seq(succs) && 0 < |succs| < TWO_32 / 2
    ensures SourceWarns(succs) <==> MaxOf(succs) < 2 * |succs| && MinOf(succs) == 0
  {
  }

  /** The test never fires without a real underflow. */
  lemma SourceWarningIsSound(succs: seq<int>)
    requires IsU32Seq(succs) && 0 < |succs| < TWO_32 / 2
    ensures SourceWarns(succs) ==> AlapStep(0, succs) < 0
  {
    SourceWarnsIffBothWrap(succs);
  }

  /** Underflows the test misses: successors with ALAPs 0 and 5 (only `minSuccAlap - 1`
      wraps) and two successors with ALAP 1 (only `maxSuccAlap - 2*nbSuccessors` wraps). */
  lemma UnderflowMissedByWarning()
    ensures exists succs :: IsU32Seq(succs) && AlapStep(0, succs) < 0 && !SourceWarns(succs) &&
                            MinOf(succs) == 0
    ensures exists succs :: IsU32Seq(succs) && AlapStep(0, succs) < 0 && !SourceWarns(succs) &&
                            MinOf(succs) > 0
  {
    var a: seq<int> := [0, 5];
    assert MaxOf(a) == 5 && MinOf(a) == 0;
    assert AlapStep(0, a) == -1 && AlapStepU32(0, a) == 1;
    var b: seq<int> := [1, 1];
    assert MaxOf(b) == 1 && MinOf(b) == 1;
    assert AlapStep(0, b) == -3 && AlapStepU32(0, b) == 0;
  }

  /** The ALAP the source stores, with uint32 wrap-around at every step. */
  function AlapU32(nodes: seq<Node>, maxTime: nat, i: nat): (r: nat)
    requires Acyclic(nodes) && i < |nodes| && maxTime <= UINT32_MAX
    ensures r <= UINT32_MAX
    decreases |nodes| - Rank(nodes)[i], 1
  {
    AlapStepU32(maxTime, SuccAlapsU32(nodes, maxTime, i))
  }

  /** The wrapped ALAPs of the successors of node i, one per successor link. */
  function SuccAlapsU32(nodes: seq<Node>, maxTime: nat, i: nat): (vals: seq<int>)
    requires Acyclic(nodes) && i < |nodes| && maxTime <= UINT32_MAX
    ensures |vals| == |nodes[i].succs| && IsU32Seq(vals)
    decreases |nodes| - Rank(nodes)[i], 0
  {
    var ss := nodes[i].succs;
    SuccLinks(nodes, i);
    seq(|ss|, k requires 0 <= k < |ss| => AlapU32(nodes, maxTime, ss[k]) as int)
  }

  /** A step whose exact result is not negative wraps nowhere. */
  lemma AlapStepU32Agrees(maxTime: nat, vals: seq<int>)
    requires IsU32Seq(vals) && maxTime <= UINT32_MAX
    requires forall k :: 0 <= k < |vals| ==> vals[k] <= maxTime
    requires AlapStep(maxTime, vals) >= 0
    ensures AlapStepU32(maxTime, vals) == AlapStep(maxTime, vals)
  {
    if |vals| > 0 {
      assert MaxOf(vals) in vals;
    }
  }

  /** Where the unbounded ALAP is not negative, the wrapping computation of the source yields
      the same value: no subtraction on the way wrapped. */
  lemma {:induction false} AlapU32Agrees(nodes: seq<Node>, maxTime: nat, i: nat)
    requires Acyclic(nodes) && i < |nodes| && maxTime <= UINT32_MAX
    requires Alap(nodes, maxTime, i) >= 0
    ensures AlapU32(nodes, maxTime, i) == Alap(nodes, maxTime, i)
    decreases |nodes| - Rank(nodes)[i]
  {
    var n := |nodes[i].succs|;
    var exact := SuccAlaps(nodes, maxTime, i);
    var wrapped := SuccAlapsU32(nodes, maxTime, i);
    SuccLinks(nodes, i);
    AlapBounds(nodes, maxTime, i);
    forall k | 0 <= k < n
      ensures wrapped[k] == exact[k] <= maxTime
    {
      AlapBounds(nodes, maxTime, nodes[i].succs[k]);
      AlapU32Agrees(nodes, maxTime, nodes[i].succs[k]);
    }
    assert wrapped == exact;
    AlapStepU32Agrees(maxTime, exact);
  }

  /** Absent underflow, the stored ALAP is at most maxTime and below every successor's. */
  lemma AlapU32Bounds(nodes: seq<Node>, maxTime: nat, i: nat)
    requires Acyclic(nodes) && i < |nodes| && maxTime <= UINT32_MAX
    requires Alap(nodes, maxTime, i) >= 0
    ensures AlapU32(nodes, maxTime, i) <= maxTime
    ensures forall k :: 0 <= k < |nodes[i].succs| ==>
              nodes[i].succs[k] < |nodes| && AlapU32(nodes, maxTime, i) < AlapU32(nodes, maxTime, nodes[i].succs[k])
  {
    assert Ranked(nodes, Rank(nodes));
    AlapBounds(nodes, maxTime, i);
    AlapU32Agrees(nodes, maxTime, i);
    forall k | 0 <= k < |nodes[i].succs|
      ensures AlapU32(nodes, maxTime, i) < AlapU32(nodes, maxTime, nodes[i].succs[k])
    {
      AlapU32Agrees(nodes, maxTime, nodes[i].succs[k]);
    }
  }

  // ---------------------------------------------------------------------------
  // The traversal that stores the bounds on the nodes

  /** ASAP walks predecessor links backward from the outputs; ALAP walks successor links
      forward from the inputs. */
  datatype Direction = Backward | Forward

  function Neighbors(n: Node, dir: Direction): seq<nat>
  {
    if dir == Backward then n.preds else n.succs
  }

  function Opposite(dir: Direction): Direction
  {
    if dir == Backward then Forward else Backward
  }

  /** Decreases along every link followed in direction dir. */
  ghost function Height(nodes: seq<Node>, dir: Direction, i: nat): nat
    requires Acyclic(nodes) && i < |nodes|
  {
    if dir == Backward then Rank(nodes)[i] else |nodes| - Rank(nodes)[i]
  }

  /** Every neighbour of node i is a node of lower height. */
  lemma NeighborLinks(nodes: seq<Node>, dir: Direction, i: nat)
    requires Acyclic(nodes) && i < |nodes|
    ensures forall k :: 0 <= k < |Neighbors(nodes[i], dir)| ==>
              Neighbors(nodes[i], dir)[k] < |nodes| &&
              Height(nodes, dir, Neighbors(nodes[i], dir)[k]) < Height(nodes, dir, i)
  {
    if dir == Backward {
      PredLinks(nodes, i);
    } else {
      SuccLinks(nodes, i);
    }
  }

  /** The value a traversal in direction dir computes for node i. */
  ghost function Bound(nodes: seq<Node>, maxTime: nat, dir: Direction, i: nat): int
    requires Acyclic(nodes) && i < |nodes|
  {
    if dir == Backward then Asap(nodes, i) else Alap(nodes, maxTime, i)
  }

  function Step(maxTime: nat, dir: Direction, vals: seq<int>): int
  {
    if dir == Backward then AsapStep(vals) else AlapStep(maxTime, vals)
  }

  /** The values stored at the given nodes. */
  function Gather(vals: seq<int>, ns: seq<nat>): (r: seq<int>)
    requires forall k :: 0 <= k < |ns| ==> ns[k] < |vals|
    ensures |r| == |ns| && forall k :: 0 <= k < |ns| ==> r[k] == vals[ns[k]]
  {
    seq(|ns|, k requires 0 <= k < |ns| => vals[ns[k]])
  }

  /** Node `to` is reachable from `from` following links in direction dir. */
  ghost predicate Reaches(nodes: seq<Node>, dir: Direction, from: nat, to: nat)
    requires Acyclic(nodes) && from < |nodes|
    decreases Height(nodes, dir, from)
  {
    NeighborLinks(nodes, dir, from);
    from == to ||
    exists k :: 0 <= k < |Neighbors(nodes[from], dir)| && Reaches(nodes, dir, Neighbors(nodes[from], dir)[k], to)
  }

  /** One call of preProcessASAP or preProcessALAP on node i: visit every neighbour in link
      order, then compute the node's own value from the values now stored at its neighbours.
      There is no memo: a node reached twice is recomputed. */
  function Visit(nodes: seq<Node>, maxTime: nat, dir: Direction, vals: seq<int>, i: nat): (r: seq<int>)
    requires Acyclic(nodes) && i < |nodes| && |vals| == |nodes|
    ensures |r| == |nodes|
    decreases Height(nodes, dir, i), |Neighbors(nodes[i], dir)| + 1
  {
    NeighborLinks(nodes, dir, i);
    var after := VisitNeighbors(nodes, maxTime, dir, vals, i, 0);
    after[i := Step(maxTime, dir, Gather(after, Neighbors(nodes[i], dir)))]
  }

  /** Visits the neighbours of node i from the k-th on. */
  function VisitNeighbors(nodes: seq<Node>, maxTime: nat, dir: Direction, vals: seq<int>, i: nat, k: nat): (r: seq<int>)
    requires Acyclic(nodes) && i < |nodes| && |vals| == |nodes| && k <= |Neighbors(nodes[i], dir)|
    ensures |r| == |nodes|
    decreases Height(nodes, dir, i), |Neighbors(nodes[i], dir)| - k
  {
    if k == |Neighbors(nodes[i], dir)| then vals
    else
      NeighborLinks(nodes, dir, i);
      var next := Visit(nodes, maxTime, dir, vals, Neighbors(nodes[i], dir)[k]);
      VisitNeighbors(nodes, maxTime, dir, next, i, k + 1)
  }

  /** The top-level loop of preProcessDAG over the inputs (ALAP) or the outputs (ASAP). */
  function VisitAll(nodes: seq<Node>, maxTime: nat, dir: Direction, vals: seq<int>, starts: seq<nat>): (r: seq<int>)
    requires Acyclic(nodes) && |vals| == |nodes|
    requires forall m :: 0 <= m < |starts| ==> starts[m] < |nodes|
    ensures |r| == |nodes|
    decreases |starts|
  {
    if |starts| == 0 then vals
    else
      var rest := starts[1..];
      assert forall m :: 0 <= m < |rest| ==> rest[m] == starts[m + 1];
      VisitAll(nodes, maxTime, dir, Visit(nodes, maxTime, dir, vals, starts[0]), rest)
  }

  /** Once every neighbour holds its bound, the step yields the node's own bound. */
  lemma StepGivesBound(nodes: seq<Node>, maxTime: nat, dir: Direction, vals: seq<int>, i: nat)
    requires Acyclic(nodes) && i < |nodes| && |vals| == |nodes|
    requires forall k :: 0 <= k < |Neighbors(nodes[i], dir)| ==>
               Neighbors(nodes[i], dir)[k] < |nodes| &&
               vals[Neighbors(nodes[i], dir)[k]] == Bound(nodes, maxTime, dir, Neighbors(nodes[i], dir)[k])
    ensures Step(maxTime, dir, Gather(vals, Neighbors(nodes[i], dir))) == Bound(nodes, maxTime, dir, i)
  {
    var ns := Neighbors(nodes[i], dir);
    if dir == Backward {
      PredLinks(nodes, i);
      assert Gather(vals, ns) == PredAsaps(nodes, i);
    } else {
      SuccLinks(nodes, i);
      assert Gather(vals, ns) == SuccAlaps(nodes, maxTime, i);
    }
  }

  /** Every entry of r is either untouched from vals or holds its node's bound. */
  ghost predicate OnlyBounds(nodes: seq<Node>, maxTime: nat, dir: Direction, vals: seq<int>, r: seq<int>)
    requires Acyclic(nodes) && |vals| == |nodes| && |r| == |nodes|
  {
    forall j :: 0 <= j < |nodes| ==> r[j] == vals[j] || r[j] == Bound(nodes, maxTime, dir, j)
  }

  /** Every node reachable from `from` holds its bound in r. */
  ghost predicate Settled(nodes: seq<Node>, maxTime: nat, dir: Direction, r: seq<int>, from: nat)
    requires Acyclic(nodes) && |r| == |nodes| && from < |nodes|
  {
    forall j :: 0 <= j < |nodes| && Reaches(nodes, dir, from, j) ==> r[j] == Bound(nodes, maxTime, dir, j)
  }

  lemma OnlyBoundsTrans(nodes: seq<Node>, maxTime: nat, dir: Direction, a: seq<int>, b: seq<int>, c: seq<int>)
    requires Acyclic(nodes) && |a| == |nodes| && |b| == |nodes| && |c| == |nodes|
    requires OnlyBounds(nodes, maxTime, dir, a, b) && OnlyBounds(nodes, maxTime, dir, b, c)
    ensures OnlyBounds(nodes, maxTime, dir, a, c)
  {
  }

  lemma SettledKept(nodes: seq<Node>, maxTime: nat, dir: Direction, b: seq<int>, c: seq<int>, from: nat)
    requires Acyclic(nodes) && |b| == |nodes| && |c| == |nodes| && from < |nodes|
    requires OnlyBounds(nodes, maxTime, dir, b, c) && Settled(nodes, maxTime, dir, b, from)
    ensures Settled(nodes, maxTime, dir, c, from)
  {
  }

  /** A visit stores the bound at every node it reaches and at no node writes anything else. */
  lemma {:induction false} VisitCorrect(nodes: seq<Node>, maxTime: nat, dir: Direction, vals: seq<int>, i: nat)
    requires Acyclic(nodes) && i < |nodes| && |vals| == |nodes|
    ensures OnlyBounds(nodes, maxTime, dir, vals, Visit(nodes, maxTime, dir, vals, i))
    ensures Settled(nodes, maxTime, dir, Visit(nodes, maxTime, dir, vals, i), i)
    decreases Height(nodes, dir, i), |Neighbors(nodes[i], dir)| + 1
  {
    assert Ranked(nodes, Rank(nodes));
    var ns := Neighbors(nodes[i], dir);
    var after := VisitNeighbors(nodes, maxTime, dir, vals, i, 0);
    var r := Visit(nodes, maxTime, dir, vals, i);
    VisitNeighborsCorrect(nodes, maxTime, dir, vals, i, 0);
    forall k | 0 <= k < |ns|
      ensures after[ns[k]] == Bound(nodes, maxTime, dir, ns[k])
    {
      assert Reaches(nodes, dir, ns[k], ns[k]);
      assert Settled(nodes, maxTime, dir, after, ns[k]);
    }
    StepGivesBound(nodes, maxTime, dir, after, i);
    assert r == after[i := Bound(nodes, maxTime, dir, i)];
    forall j | 0 <= j < |nodes| && Reaches(nodes, dir, i, j)
      ensures r[j] == Bound(nodes, maxTime, dir, j)
    {
      if j != i {
        var k :| 0 <= k < |ns| && Reaches(nodes, dir, ns[k], j);
        assert Settled(nodes, maxTime, dir, after, ns[k]);
      }
    }
  }

  lemma {:induction false} VisitNeighborsCorrect(nodes: seq<Node>, maxTime: nat, dir: Direction, vals: seq<int>, i: nat, k: nat)
    requires Acyclic(nodes) && i < |nodes| && |vals| == |nodes| && k <= |Neighbors(nodes[i], dir)|
    ensures OnlyBounds(nodes, maxTime, dir, vals, VisitNeighbors(nodes, maxTime, dir, vals, i, k))
    ensures forall m :: k <= m < |Neighbors(nodes[i], dir)| ==>
              Neighbors(nodes[i], dir)[m] < |nodes| &&
              Settled(nodes, maxTime, dir, VisitNeighbors(nodes, maxTime, dir, vals, i, k), Neighbors(nodes[i], dir)[m])
    decreases Height(nodes, dir, i), |Neighbors(nodes[i], dir)| - k
  {
    assert Ranked(nodes, Rank(nodes));
    var ns := Neighbors(nodes[i], dir);
    if k < |ns| {
      var next := Visit(nodes, maxTime, dir, vals, ns[k]);
      var r := VisitNeighbors(nodes, maxTime, dir, next, i, k + 1);
      assert r == VisitNeighbors(nodes, maxTime, dir, vals, i, k);
      VisitCorrect(nodes, maxTime, dir, vals, ns[k]);
      VisitNeighborsCorrect(nodes, maxTime, dir, next, i, k + 1);
      OnlyBoundsTrans(nodes, maxTime, dir, vals, next, r);
      forall m | k <= m < |ns|
        ensures ns[m] < |nodes| && Settled(nodes, maxTime, dir, r, ns[m])
      {
        if m == k {
          SettledKept(nodes, maxTime, dir, next, r, ns[k]);
        }
      }
    }
  }

  lemma VisitAllCorrect(nodes: seq<Node>, maxTime: nat, dir: Direction, vals: seq<int>, starts: seq<nat>)
    requires Acyclic(nodes) && |vals| == |nodes|
    requires forall m :: 0 <= m < |starts| ==> starts[m] < |nodes|
    ensures OnlyBounds(nodes, maxTime, dir, vals, VisitAll(nodes, maxTime, dir, vals, starts))
    ensures forall m :: 0 <= m < |starts| ==> Settled(nodes, maxTime, dir, VisitAll(nodes, maxTime, dir, vals, starts), starts[m])
  {
    VisitAllOnlyBounds(nodes, maxTime, dir, vals, starts);
    VisitAllSettles(nodes, maxTime, dir, vals, starts);
  }

  lemma {:induction false} VisitAllOnlyBounds(nodes: seq<Node>, maxTime: nat, dir: Direction, vals: seq<int>, starts: seq<nat>)
    requires Acyclic(nodes) && |vals| == |nodes|
    requires forall m :: 0 <= m < |starts| ==> starts[m] < |nodes|
    ensures OnlyBounds(nodes, maxTime, dir, vals, VisitAll(nodes, maxTime, dir, vals, starts))
    decreases |starts|
  {
    if |starts| > 0 {
      var next := Visit(nodes, maxTime, dir, vals, starts[0]);
      var rest := starts[1..];
      var r := VisitAll(nodes, maxTime, dir, next, rest);
      assert r == VisitAll(nodes, maxTime, dir, vals, starts);
      VisitCorrect(nodes, maxTime, dir, vals, starts[0]);
      VisitAllOnlyBounds(nodes, maxTime, dir, next, rest);
      OnlyBoundsTrans(nodes, maxTime, dir, vals, next, r);
    }
  }

  lemma VisitAllSettles(nodes: seq<Node>, maxTime: nat, dir: Direction, vals: seq<int>, starts: seq<nat>)
    requires Acyclic(nodes) && |vals| == |nodes|
    requires forall m :: 0 <= m < |starts| ==> starts[m] < |nodes|
    ensures forall m :: 0 <= m < |starts| ==> Settled(nodes, maxTime, dir, VisitAll(nodes, maxTime, dir, vals, starts), starts[m])
  {
    forall m | 0 <= m < |starts|
      ensures Settled(nodes, maxTime, dir, VisitAll(nodes, maxTime, dir, vals, starts), starts[m])
    {
      VisitAllSettlesOne(nodes, maxTime, dir, vals, starts, m);
    }
  }

  /** The visit from the m-th start settles what it reaches, and later visits keep it. */
  lemma {:induction false} VisitAllSettlesOne(nodes: seq<Node>, maxTime: nat, dir: Direction, vals: seq<int>, starts: seq<nat>, m: nat)
    requires Acyclic(nodes) && |vals| == |nodes|
    requires forall m :: 0 <= m < |starts| ==> starts[m] < |nodes|
    requires m < |starts|
    ensures Settled(nodes, maxTime, dir, VisitAll(nodes, maxTime, dir, vals, starts), starts[m])
    decreases m
  {
    VisitAllStep(nodes, maxTime, dir, vals, starts);
    if m == 0 {
      VisitAllSettlesFirst(nodes, maxTime, dir, vals, starts);
    } else {
      var next := Visit(nodes, maxTime, dir, vals, starts[0]);
      var k :| k + 1 == m;
      assert starts[1..][k] == starts[m];
      VisitAllSettlesOne(nodes, maxTime, dir, next, starts[1..], k);
    }
  }

  /** Visiting from the first start, then from the others. */
  lemma VisitAllStep(nodes: seq<Node>, maxTime: nat, dir: Direction, vals: seq<int>, starts: seq<nat>)
    requires Acyclic(nodes) && |vals| == |nodes|
    requires forall m :: 0 <= m < |starts| ==> starts[m] < |nodes|
    requires 0 < |starts|
    ensures forall m :: 0 <= m < |starts[1..]| ==> starts[1..][m] < |nodes|
    ensures VisitAll(nodes, maxTime, dir, vals, starts) ==
              VisitAll(nodes, maxTime, dir, Visit(nodes, maxTime, dir, vals, starts[0]), starts[1..])
  {
    assert forall m :: 0 <= m < |starts[1..]| ==> starts[1..][m] == starts[m + 1];
  }

  lemma VisitAllSettlesFirst(nodes: seq<Node>, maxTime: nat, dir: Direction, vals: seq<int>, starts: seq<nat>)
    requires Acyclic(nodes) && |vals| == |nodes|
    requires forall m :: 0 <= m < |starts| ==> starts[m] < |nodes|
    requires 0 < |starts|
    ensures Settled(nodes, maxTime, dir, VisitAll(nodes, maxTime, dir, vals, starts), starts[0])
  {
    var next := Visit(nodes, maxTime, dir, vals, starts[0]);
    VisitAllStep(nodes, maxTime, dir, vals, starts);
    VisitCorrect(nodes, maxTime, dir, vals, starts[0]);
    VisitAllOnlyBounds(nodes, maxTime, dir, next, starts[1..]);
    SettledKept(nodes, maxTime, dir, next, VisitAll(nodes, maxTime, dir, next, starts[1..]), starts[0]);
  }

  /** Reachability extends by one link. */
  lemma {:induction false} ReachesExtend(nodes: seq<Node>, dir: Direction, a: nat, b: nat, k: nat)
    requires Acyclic(nodes) && a < |nodes| && b < |nodes| && k < |Neighbors(nodes[b], dir)|
    requires Reaches(nodes, dir, a, b)
    ensures Reaches(nodes, dir, a, Neighbors(nodes[b], dir)[k])
    decreases Height(nodes, dir, a)
  {
    assert Ranked(nodes, Rank(nodes));
    var c := Neighbors(nodes[b], dir)[k];
    if a == b {
      assert Reaches(nodes, dir, c, c);
    } else {
      var m :| 0 <= m < |Neighbors(nodes[a], dir)| && Reaches(nodes, dir, Neighbors(nodes[a], dir)[m], b);
      ReachesExtend(nodes, dir, Neighbors(nodes[a], dir)[m], b, k);
    }
  }

  /** In a cross-linked acyclic graph every node is reachable from a node that has no link in
      the opposite direction: from an output walking predecessors, from an input walking
      successors. */
  lemma {:induction false} EveryNodeReached(nodes: seq<Node>, dir: Direction, j: nat)
    requires Acyclic(nodes) && CrossLinked(nodes) && j < |nodes|
    ensures exists o :: 0 <= o < |nodes| && |Neighbors(nodes[o], Opposite(dir))| == 0 && Reaches(nodes, dir, o, j)
    decreases Height(nodes, Opposite(dir), j)
  {
    assert Ranked(nodes, Rank(nodes));
    var back := Neighbors(nodes[j], Opposite(dir));
    if |back| == 0 {
      assert Reaches(nodes, dir, j, j);
    } else {
      var p := back[0];
      assert j in Neighbors(nodes[p], dir);
      var k :| 0 <= k < |Neighbors(nodes[p], dir)| && Neighbors(nodes[p], dir)[k] == j;
      EveryNodeReached(nodes, dir, p);
      var o :| 0 <= o < |nodes| && |Neighbors(nodes[o], Opposite(dir))| == 0 && Reaches(nodes, dir, o, p);
      ReachesExtend(nodes, dir, o, p, k);
    }
  }

  // ---------------------------------------------------------------------------
  // preProcessDAG

  /** The deadline leaves no room for a node: its ALAP is negative. */
  datatype MobilityError = DeadlineInfeasible(node: nat)

  /** The DAG shape preProcessDAG relies on: acyclic, links mirrored both ways, and the input
      and output lists naming exactly the nodes without predecessors and without successors. */
  ghost predicate WellFormed(d: Dag)
  {
    && d.nbNodes == |d.allNodes|
    && Acyclic(d.allNodes)
    && CrossLinked(d.allNodes)
    && (forall i: nat :: i in d.inputNodes <==> i < d.nbNodes && IsInput(d.allNodes[i]))
    && (forall i: nat :: i in d.outputNodes <==> i < d.nbNodes && IsOutput(d.allNodes[i]))
  }

  /** The set-up before the encoding: the table becomes nodes, then a DAG over all of them.
      The result has the shape preProcessDAG relies on whenever its dependencies are acyclic. */
  method BuildDag(table: Table) returns (d: Dag)
    requires EntriesInRange(table)
    ensures d.nbNodes == |d.allNodes| == |table|
    ensures forall i :: 0 <= i < |table| ==> d.allNodes[i].preds == PredsOf(table[i])
    ensures Acyclic(d.allNodes) ==> WellFormed(d)
  {
    var nodes := MatrixToNodes(table);
    BuilderCrossLinked(table, nodes);
    d := CreateDagStructure(nodes, |table|);
  }

  /** Where a traversal in direction dir starts: the inputs for ALAP, the outputs for ASAP. */
  function Starts(d: Dag, dir: Direction): seq<nat>
  {
    if dir == Forward then d.inputNodes else d.outputNodes
  }

  /** Visiting from every start settles every node. */
  lemma VisitAllSettlesAll(d: Dag, maxTime: nat, dir: Direction, init: seq<int>, j: nat)
    requires WellFormed(d) && |init| == |d.allNodes| && j < |d.allNodes|
    requires forall m :: 0 <= m < |Starts(d, dir)| ==> Starts(d, dir)[m] < |d.allNodes|
    ensures VisitAll(d.allNodes, maxTime, dir, init, Starts(d, dir))[j] == Bound(d.allNodes, maxTime, dir, j)
  {
    var nodes := d.allNodes;
    var starts := Starts(d, dir);
    VisitAllCorrect(nodes, maxTime, dir, init, starts);
    EveryNodeReached(nodes, dir, j);
    var o :| 0 <= o < |nodes| && |Neighbors(nodes[o], Opposite(dir))| == 0 && Reaches(nodes, dir, o, j);
    assert o in starts;
    var m :| 0 <= m < |starts| && starts[m] == o;
    assert Settled(nodes, maxTime, dir, VisitAll(nodes, maxTime, dir, init, starts), starts[m]);
  }

  /** The loop of preProcessDAG over the starts of one direction, from the values the node
      builder leaves (ALAP 0, ASAP UINT32_MAX). */
  method VisitFromStarts(d: Dag, maxTime: nat, dir: Direction) returns (vals: seq<int>)
    requires WellFormed(d)
    ensures |vals| == |d.allNodes|
    ensures forall j :: 0 <= j < |d.allNodes| ==> vals[j] == Bound(d.allNodes, maxTime, dir, j)
  {
    var nodes := d.allNodes;
    assert forall m :: 0 <= m < |Starts(d, dir)| ==> Starts(d, dir)[m] in Starts(d, dir);
    var init: seq<int> := seq(|nodes|, _ => if dir == Forward then 0 else UINT32_MAX);
    vals := VisitAll(nodes, maxTime, dir, init, Starts(d, dir));
    forall j | 0 <= j < |nodes|
      ensures vals[j] == Bound(nodes, maxTime, dir, j)
    {
      VisitAllSettlesAll(d, maxTime, dir, init, j);
    }
  }

  /** d' is d with every node's ASAP and ALAP set to its bounds, which are also the values the
      source's uint32 arithmetic stores; nothing else differs. */
  ghost predicate Annotated(d: Dag, maxTime: nat, d': Dag)
    requires WellFormed(d) && maxTime <= UINT32_MAX
  {
    && d'.inputNodes == d.inputNodes && d'.outputNodes == d.outputNodes
    && d'.nbNodes == d.nbNodes && |d'.allNodes| == |d.allNodes|
    && forall j :: 0 <= j < |d.allNodes| ==>
         && d'.allNodes[j].asap == Asap(d.allNodes, j)
         && d'.allNodes[j].alap == Alap(d.allNodes, maxTime, j)
         && d'.allNodes[j].alap == AlapU32(d.allNodes, maxTime, j)
         && d'.allNodes[j] == d.allNodes[j].(asap := d'.allNodes[j].asap, alap := d'.allNodes[j].alap)
  }

  /** Computes ALAP by visiting from every input, then ASAP by visiting from every output, and
      stores both on the nodes. Where the source only prints a warning (and only for some
      underflows), this version reports the first node whose ALAP is negative. */
  method PreProcessDag(d: Dag, maxTime: nat) returns (r: Result<Dag, MobilityError>)
    requires WellFormed(d) && maxTime <= UINT32_MAX
    ensures r.Failure? <==> exists j :: 0 <= j < |d.allNodes| && Alap(d.allNodes, maxTime, j) < 0
    ensures r.Failure? ==> r.error.node < |d.allNodes| && Alap(d.allNodes, maxTime, r.error.node) < 0 &&
                           forall j :: 0 <= j < r.error.node ==> Alap(d.allNodes, maxTime, j) >= 0
    ensures r.Success? ==> Annotated(d, maxTime, r.value)
  {
    var nodes := d.allNodes;
    var alaps := VisitFromStarts(d, maxTime, Forward);
    var asaps := VisitFromStarts(d, maxTime, Backward);
    assert forall j :: 0 <= j < |nodes| ==> alaps[j] == Bound(nodes, maxTime, Forward, j) == Alap(nodes, maxTime, j);
    assert forall j :: 0 <= j < |nodes| ==> asaps[j] == Bound(nodes, maxTime, Backward, j) == Asap(nodes, j);
    var j := 0;
    while j < |nodes| && alaps[j] >= 0
      invariant j <= |nodes|
      invariant forall m :: 0 <= m < j ==> alaps[m] >= 0
    {
      j := j + 1;
    }
    if j < |nodes| {
      assert Alap(nodes, maxTime, j) < 0;
      return Failure(DeadlineInfeasible(j));
    }
    StoreBoundsAnnotated(d, maxTime, asaps, alaps);
    return Success(d.(allNodes := StoreBounds(nodes, asaps, alaps)));
  }

  /** Every node with its ASAP and ALAP fields set from the two computed tables. */
  function StoreBounds(nodes: seq<Node>, asaps: seq<int>, alaps: seq<int>): (r: seq<Node>)
    requires |asaps| == |alaps| == |nodes|
    requires forall j :: 0 <= j < |nodes| ==> asaps[j] >= 0 && alaps[j] >= 0
    ensures |r| == |nodes|
  {
    seq(|nodes|, i requires 0 <= i < |nodes| => nodes[i].(asap := asaps[i] as nat, alap := alaps[i] as nat))
  }

  /** Storing the exact bounds, none of them negative, annotates the DAG. */
  lemma StoreBoundsAnnotated(d: Dag, maxTime: nat, asaps: seq<int>, alaps: seq<int>)
    requires WellFormed(d) && maxTime <= UINT32_MAX
    requires |asaps| == |alaps| == |d.allNodes|
    requires forall j :: 0 <= j < |d.allNodes| ==> 0 <= asaps[j] == Asap(d.allNodes, j)
    requires forall j :: 0 <= j < |d.allNodes| ==> alaps[j] == Alap(d.allNodes, maxTime, j) >= 0
    ensures Annotated(d, maxTime, d.(allNodes := StoreBounds(d.allNodes, asaps, alaps)))
  {
    var nodes := d.allNodes;
    forall i | 0 <= i < |nodes|
      ensures AlapU32(nodes, maxTime, i) == Alap(nodes, maxTime, i)
    {
      AlapU32Agrees(nodes, maxTime, i);
    }
  }
}

=== FILE: registry.dfy ===
/**
 * The symbol registry: the list of (node, rule, date) triples the encoder
 * has declared, with an idempotent add, a lookup by textual name, and the
 * two helpers that declare-and-register a variable.
 */
module Registry {
  import opened Wrappers
  import opened Symbols
  import opened Formulas

  /** No triple is listed twice. */
  predicate NoDuplicates(reg: seq<Sym>)
  {
    forall i, j :: 0 <= i < j < |reg| ==> reg[i] != reg[j]
  }

  /** Position of the first entry equal to `s`, or |reg| when there is none (the linear scan). */
  function IndexOf(reg: seq<Sym>, s: Sym): (k: nat)
    ensures k <= |reg|
    ensures k < |reg| ==> reg[k] == s
    ensures forall j :: 0 <= j < k ==> reg[j] != s
  {
    if |reg| == 0 then 0
    else if reg[0] == s then 0
    else 1 + IndexOf(reg[1..], s)
  }

  /** Appends `s` unless an entry with the same node, rule and date is already present. */
  function AddRegistered(s: Sym, reg: seq<Sym>): (r: seq<Sym>)
    ensures s in reg ==> r == reg
    ensures s !in reg ==> r == reg + [s]
    ensures reg <= r && s in r
    ensures forall x :: x in r <==> x in reg || x == s
    ensures NoDuplicates(reg) ==> NoDuplicates(r)
  {
    if IndexOf(reg, s) == |reg| then reg + [s] else reg
  }

  /** Registering the same triple a second time changes nothing. */
  lemma AddRegisteredIdempotent(s: Sym, reg: seq<Sym>)
    ensures AddRegistered(s, AddRegistered(s, reg)) == AddRegistered(s, reg)
  {
  }

  /** Registers `calls` one after the other, in order (a left fold of AddRegistered). */
  function AddAll(reg: seq<Sym>, calls: seq<Sym>): (r: seq<Sym>)
    ensures reg <= r
    ensures forall s :: s in r <==> s in reg || s in calls
    ensures NoDuplicates(reg) ==> NoDuplicates(r)
    decreases |calls|
  {
    if |calls| == 0 then reg
    else AddRegistered(calls[|calls| - 1], AddAll(reg, calls[..|calls| - 1]))
  }

  /** Registering two batches in turn is registering their concatenation. */
  lemma {:induction false} AddAllAppend(reg: seq<Sym>, c1: seq<Sym>, c2: seq<Sym>)
    ensures AddAll(AddAll(reg, c1), c2) == AddAll(reg, c1 + c2)
    decreases |c2|
  {
    if |c2| > 0 {
      var init, last := c2[..|c2| - 1], c2[|c2| - 1];
      assert (c1 + c2)[..|c1 + c2| - 1] == c1 + init;
      assert (c1 + c2)[|c1 + c2| - 1] == last;
      AddAllAppend(reg, c1, init);
      calc {
        AddAll(AddAll(reg, c1), c2);
        AddRegistered(last, AddAll(AddAll(reg, c1), init));
        AddRegistered(last, AddAll(reg, c1 + init));
        AddAll(reg, c1 + c2);
      }
    } else {
      assert c1 + c2 == c1;
    }
  }

  /** The first entry whose name is `name`; a missing name is the source's
      "Symbol not found" exception. */
  function LookupRegistered(name: string, reg: seq<Sym>): (r: Result<Sym, string>)
    ensures r.Success? ==> r.value in reg && SymbolName(r.value) == name
    ensures r.Failure? <==> forall s :: s in reg ==> SymbolName(s) != name
    ensures r.Failure? ==> r.error == "Symbol not found: " + name
  {
    if |reg| == 0 then Failure("Symbol not found: " + name)
    else if SymbolName(reg[0]) == name then Success(reg[0])
    else LookupRegistered(name, reg[1..])
  }

  /** Declares the variable named after (node, rule, date) and registers the triple. */
  function RuleSymbol(s: Sym, reg: seq<Sym>): (r: (Formula, seq<Sym>))
    ensures r.0 == Var(s) && s in r.1
    ensures r.1 == AddRegistered(s, reg)
  {
    (Var(s), AddRegistered(s, reg))
  }

  /** After RuleSymbol, looking the variable up by its name yields exactly that triple. */
  lemma LookupAfterRuleSymbol(s: Sym, reg: seq<Sym>)
    ensures LookupRegistered(SymbolName(s), RuleSymbol(s, reg).1) == Success(s)
  {
    var r := LookupRegistered(SymbolName(s), RuleSymbol(s, reg).1);
    if r.Success? {
      SymbolNameInjective(r.value, s);
    }
  }

  /** Declares and registers the variables of `rule` for node `node` at dates 0 .. maxTime-1. */
  method FreshBoolSymbols(node: nat, rule: Rule, maxTime: nat, reg: seq<Sym>)
    returns (vars: seq<Formula>, reg': seq<Sym>)
    ensures |vars| == maxTime
    ensures forall t :: 0 <= t < maxTime ==> vars[t] == Var(Sym(node, rule, t))
    ensures forall t :: 0 <= t < maxTime ==> Sym(node, rule, t) in reg'
    ensures reg <= reg'
    ensures forall s :: s in reg' ==> s in reg || (s.node == node && s.rule == rule && s.date < maxTime)
    ensures NoDuplicates(reg) ==> NoDuplicates(reg')
  {
    vars := [];
    reg' := reg;
    var t := 0;
    while t < maxTime
      invariant t <= maxTime && |vars| == t
      invariant forall u :: 0 <= u < t ==> vars[u] == Var(Sym(node, rule, u))
      invariant forall u :: 0 <= u < t ==> Sym(node, rule, u) in reg'
      invariant reg <= reg'
      invariant forall s :: s in reg' ==> s in reg || (s.node == node && s.rule == rule && s.date < t)
      invariant NoDuplicates(reg) ==> NoDuplicates(reg')
    {
      var sym := Sym(node, rule, t);
      reg' := AddRegistered(sym, reg');
      vars := vars + [Var(sym)];
      t := t + 1;
    }
  }
}

=== FILE: simulator.dfy ===
/**
 * The schedule validity simulator: the true symbols of a satisfying assignment
 * are looked up in the registry, then replayed one date at a time against a
 * register file of nbRedPebbles slots, checking the precondition of every
 * Load (R1), Store (R2), Compute (R3) and Delete (R4) and counting I/O.
 */
module Simulator {
  import opened Wrappers
  import opened Symbols
  import opened Registry
  import opened Graph
  import opened Encoder

  // ---------------------------------------------------------------------------
  // Extraction of the schedule from a model

  /** One constant of a satisfying model: its name and its Boolean value. */
  datatype Binding = Binding(name: string, value: bool)

  /** Constant i of the model is true and names no registered symbol. */
  ghost predicate Unknown(model: seq<Binding>, reg: seq<Sym>, i: nat)
    requires i < |model|
  {
    model[i].value && forall s :: s in reg ==> SymbolName(s) != model[i].name
  }

  /** Some true constant of the model is named after s. */
  ghost predicate NamedTrue(model: seq<Binding>, s: Sym)
  {
    exists i :: 0 <= i < |model| && model[i].value && model[i].name == SymbolName(s)
  }

  /** The registered symbols of the true constants, in model order; the first true
      constant whose name is not registered aborts the extraction. */
  function ExtractSchedule(model: seq<Binding>, reg: seq<Sym>): (r: Result<seq<Sym>, string>)
    ensures r.Failure? <==> exists i :: 0 <= i < |model| && Unknown(model, reg, i)
    ensures r.Success? ==> forall s :: s in r.value <==> s in reg && NamedTrue(model, s)
  {
    if |model| == 0 then Success([])
    else
      var rest := ExtractSchedule(model[1..], reg);
      var b := model[0];
      ModelCons(model, reg);
      if !b.value then rest
      else
        match LookupRegistered(b.name, reg)
        case Failure(e) => Failure(e)
        case Success(s) =>
          if rest.Failure? then rest
          else
            NameIdentifies(b.name, s);
            Success([s] + rest.value)
  }

  /** The two properties of a model, split into its first constant and the others. */
  lemma ModelCons(model: seq<Binding>, reg: seq<Sym>)
    requires 0 < |model|
    ensures (exists i :: 0 <= i < |model| && Unknown(model, reg, i)) <==>
              Unknown(model, reg, 0) || exists i :: 0 <= i < |model[1..]| && Unknown(model[1..], reg, i)
    ensures forall s :: NamedTrue(model, s) <==>
              (model[0].value && model[0].name == SymbolName(s)) || NamedTrue(model[1..], s)
  {
    assert forall i :: 1 <= i < |model| ==> model[i] == model[1..][i - 1];
    forall s
      ensures NamedTrue(model, s) <==> (model[0].value && model[0].name == SymbolName(s)) || NamedTrue(model[1..], s)
    {
      if NamedTrue(model[1..], s) {
        var i :| 0 <= i < |model[1..]| && model[1..][i].value && model[1..][i].name == SymbolName(s);
        assert model[i + 1] == model[1..][i];
      }
    }
    if exists i :: 0 <= i < |model[1..]| && Unknown(model[1..], reg, i) {
      var i :| 0 <= i < |model[1..]| && Unknown(model[1..], reg, i);
      assert Unknown(model, reg, i + 1);
    }
    if exists i :: 0 <= i < |model| && Unknown(model, reg, i) {
      var i :| 0 <= i < |model| && Unknown(model, reg, i);
      if i > 0 {
        assert Unknown(model[1..], reg, i - 1);
      }
    }
  }

  /** A symbol name identifies its symbol. */
  lemma NameIdentifies(name: string, s: Sym)
    requires SymbolName(s) == name
    ensures forall x :: SymbolName(x) == name ==> x == s
  {
    forall x | SymbolName(x) == name {
      SymbolNameInjective(x, s);
    }
  }

  /** The model that an assignment induces on a list of constants. */
  function BindingsOf(syms: seq<Sym>, a: Formulas.Assignment): (model: seq<Binding>)
    ensures |model| == |syms|
    ensures forall i :: 0 <= i < |syms| ==> model[i] == Binding(SymbolName(syms[i]), a(syms[i]))
  {
    if |syms| == 0 then []
    else
      var rest := BindingsOf(syms[1..], a);
      assert forall i :: 1 <= i < |syms| ==> rest[i - 1] == Binding(SymbolName(syms[i]), a(syms[i]));
      [Binding(SymbolName(syms[0]), a(syms[0]))] + rest
  }

  /** The symbols an assignment makes true, in list order. */
  function TrueSymbols(syms: seq<Sym>, a: Formulas.Assignment): (r: seq<Sym>)
    ensures forall s :: s in r <==> s in syms && a(s)
  {
    if |syms| == 0 then []
    else (if a(syms[0]) then [syms[0]] else []) + TrueSymbols(syms[1..], a)
  }

  /** When every constant of the model is a registered symbol, extraction succeeds and
      yields exactly the true ones, in model order: a symbol name identifies its symbol. */
  lemma {:induction false} ExtractFromAssignment(syms: seq<Sym>, reg: seq<Sym>, a: Formulas.Assignment)
    requires forall s :: s in syms ==> s in reg
    ensures ExtractSchedule(BindingsOf(syms, a), reg) == Success(TrueSymbols(syms, a))
  {
    if |syms| > 0 {
      var model := BindingsOf(syms, a);
      assert model[1..] == BindingsOf(syms[1..], a);
      ExtractFromAssignment(syms[1..], reg, a);
      var rest := TrueSymbols(syms[1..], a);
      if a(syms[0]) {
        var found := LookupRegistered(SymbolName(syms[0]), reg);
        assert found.Success?;
        SymbolNameInjective(found.value, syms[0]);
        assert TrueSymbols(syms, a) == [syms[0]] + rest;
        assert ExtractSchedule(model, reg) == Success([syms[0]] + rest);
      } else {
        assert TrueSymbols(syms, a) == rest;
        assert ExtractSchedule(model, reg) == Success(rest);
      }
    }
  }

  // ---------------------------------------------------------------------------
  // The register file

  /** The diagnostics of the replay, in the order the source checks them. */
  datatype Violation =
    | FullOnLoad         // no free register for a Load
    | DeletedOnLoad      // the loaded value was deleted
    | AbsentOnStore      // the stored value is in no register
    | DeletedOnStore     // the stored value was deleted
    | DependencyMissing  // a predecessor of a computed node is in no register
    | DependencyDeleted  // a predecessor of a computed node was deleted
    | FullOnCompute      // no free register for a computed value
    | AbsentOnDelete     // the deleted value is in no register
    | DeletedOnDelete    // the deleted value was already deleted

  /** Registers hold a node index or nothing; `deleted` is the set of nodes whose value
      was discarded for good; `loads` and `stores` count the I/O so far. */
  datatype Machine = Machine(regs: seq<Option<nat>>, deleted: set<nat>, loads: nat, stores: nat)

  datatype Outcome = Next(m: Machine) | Violated(v: Violation)

  /** Number of occupied registers. */
  function Occupied(regs: seq<Option<nat>>): (n: nat)
    ensures n <= |regs|
    ensures n == |regs| <==> None !in regs
  {
    |regs| - multiset(regs)[None]
  }

  /** The lowest free register, or |regs| when all are occupied. */
  function FirstFree(regs: seq<Option<nat>>): (j: nat)
    ensures j <= |regs|
    ensures j < |regs| ==> regs[j] == None
    ensures forall i :: 0 <= i < j ==> regs[i] != None
  {
    if |regs| == 0 || regs[0] == None then 0 else 1 + FirstFree(regs[1..])
  }

  /** The lowest register holding node n, or |regs| when none does. */
  function FirstHolding(regs: seq<Option<nat>>, n: nat): (j: nat)
    ensures j <= |regs|
    ensures j < |regs| ==> regs[j] == Some(n)
    ensures forall i :: 0 <= i < j ==> regs[i] != Some(n)
  {
    if |regs| == 0 || regs[0] == Some(n) then 0 else 1 + FirstHolding(regs[1..], n)
  }

  /** A predecessor is usable when some register holds it and it was not deleted. */
  predicate Usable(m: Machine, p: nat)
  {
    Some(p) in m.regs && p !in m.deleted
  }

  /** The k-th predecessor is the first one that is not usable. */
  predicate FirstUnusable(preds: seq<nat>, m: Machine, k: int)
  {
    0 <= k < |preds| && !Usable(m, preds[k]) && forall i :: 0 <= i < k ==> Usable(m, preds[i])
  }

  /** The dependency checks of a Compute, predecessor by predecessor: presence first, then
      deletion. */
  function CheckPreds(preds: seq<nat>, m: Machine): (r: Option<Violation>)
    ensures r.None? <==> forall k :: 0 <= k < |preds| ==> Usable(m, preds[k])
    ensures r == Some(DependencyMissing) <==> exists k :: FirstUnusable(preds, m, k) && Some(preds[k]) !in m.regs
    ensures r == Some(DependencyDeleted) <==> exists k :: FirstUnusable(preds, m, k) && Some(preds[k]) in m.regs
    ensures r.Some? ==> r == Some(DependencyMissing) || r == Some(DependencyDeleted)
  {
    if |preds| == 0 then None
    else if Some(preds[0]) !in m.regs then
      assert FirstUnusable(preds, m, 0);
      Some(DependencyMissing)
    else if preds[0] in m.deleted then
      assert FirstUnusable(preds, m, 0);
      Some(DependencyDeleted)
    else
      var r := CheckPreds(preds[1..], m);
      assert forall k :: FirstUnusable(preds, m, k) <==> k > 0 && FirstUnusable(preds[1..], m, k - 1);
      assert forall k :: 0 < k < |preds| ==> preds[k] == preds[1..][k - 1];
      r
  }

  /** The declarative precondition of each move. */
  predicate Enabled(nodes: seq<Node>, m: Machine, s: Sym)
    requires s.node < |nodes|
  {
    match s.rule
    case R1 => Occupied(m.regs) < |m.regs| && s.node !in m.deleted
    case R2 => Some(s.node) in m.regs && s.node !in m.deleted
    case R3 => (forall p :: p in nodes[s.node].preds ==> Usable(m, p)) && Occupied(m.regs) < |m.regs|
    case R4 => Some(s.node) in m.regs && s.node !in m.deleted
  }

  /** One move. Load and Compute fill the lowest free register, Store and Delete clear the
      lowest register holding the node; Delete also marks the node deleted. */
  function Step(nodes: seq<Node>, m: Machine, s: Sym): (r: Outcome)
    requires s.node < |nodes|
    ensures r.Next? <==> Enabled(nodes, m, s)
  {
    var n := s.node;
    match s.rule
    case R1 =>
      var j := FirstFree(m.regs);
      if j == |m.regs| then Violated(FullOnLoad)
      else if n in m.deleted then Violated(DeletedOnLoad)
      else Next(m.(regs := m.regs[j := Some(n)], loads := m.loads + 1))
    case R2 =>
      var j := FirstHolding(m.regs, n);
      if j == |m.regs| then Violated(AbsentOnStore)
      else if n in m.deleted then Violated(DeletedOnStore)
      else Next(m.(regs := m.regs[j := None], stores := m.stores + 1))
    case R3 =>
      var preds := nodes[n].preds;
      var check := CheckPreds(preds, m);
      assert check.None? <==> forall p :: p in preds ==> Usable(m, p) by {
        assert forall p :: p in preds <==> exists k :: 0 <= k < |preds| && preds[k] == p;
      }
      if check.Some? then Violated(check.value)
      else
        var j := FirstFree(m.regs);
        if j == |m.regs| then Violated(FullOnCompute)
        else Next(m.(regs := m.regs[j := Some(n)]))
    case R4 =>
      var j := FirstHolding(m.regs, n);
      if j == |m.regs| then Violated(AbsentOnDelete)
      else if n in m.deleted then Violated(DeletedOnDelete)
      else Next(m.(regs := m.regs[j := None], deleted := m.deleted + {n}))
  }

  /** Writing v over one register moves one slot from the old contents to v. */
  lemma UpdateMultiset(regs: seq<Option<nat>>, j: nat, v: Option<nat>)
    requires j < |regs|
    ensures multiset(regs[j := v]) == multiset(regs) - multiset{regs[j]} + multiset{v}
  {
    assert regs == regs[..j] + [regs[j]] + regs[j + 1..];
    assert regs[j := v] == regs[..j] + [v] + regs[j + 1..];
  }

  /** Filling a free register with node n occupies one more register. */
  lemma FillEffect(regs: seq<Option<nat>>, j: nat, n: nat)
    requires j < |regs| && regs[j] == None
    ensures multiset(regs[j := Some(n)]) == multiset(regs) - multiset{None} + multiset{Some(n)}
    ensures Occupied(regs[j := Some(n)]) == Occupied(regs) + 1
  {
    UpdateMultiset(regs, j, Some(n));
  }

  /** Clearing a register holding node n frees one register. */
  lemma ClearEffect(regs: seq<Option<nat>>, j: nat, n: nat)
    requires j < |regs| && regs[j] == Some(n)
    ensures multiset(regs[j := None]) == multiset(regs) - multiset{Some(n)} + multiset{None}
    ensures Occupied(regs[j := None]) + 1 == Occupied(regs)
  {
    UpdateMultiset(regs, j, None);
  }

  /** A successful move keeps the register file's size, changes its contents by exactly
      one slot, and changes the occupancy by the rule's weight in the capacity constraint;
      deletion is permanent and only Delete adds to it; only Load and Store cost. */
  lemma StepEffect(nodes: seq<Node>, m: Machine, s: Sym)
    requires s.node < |nodes| && Step(nodes, m, s).Next?
    ensures var m' := Step(nodes, m, s).m;
      && |m'.regs| == |m.regs|
      && Occupied(m'.regs) == Occupied(m.regs) + Weight(s.rule)
      && (s.rule == R1 || s.rule == R3 ==>
            multiset(m'.regs) == multiset(m.regs) - multiset{None} + multiset{Some(s.node)})
      && (s.rule == R2 || s.rule == R4 ==>
            multiset(m'.regs) == multiset(m.regs) - multiset{Some(s.node)} + multiset{None})
      && m.deleted <= m'.deleted
      && m'.deleted == (if s.rule == R4 then m.deleted + {s.node} else m.deleted)
      && m'.loads == m.loads + (if s.rule == R1 then 1 else 0)
      && m'.stores == m.stores + (if s.rule == R2 then 1 else 0)
  {
    var n := s.node;
    if s.rule == R1 || s.rule == R3 {
      StepFills(nodes, m, s);
      FillEffect(m.regs, FirstFree(m.regs), n);
    } else {
      StepClears(nodes, m, s);
      ClearEffect(m.regs, FirstHolding(m.regs, n), n);
    }
  }

  /** A successful Load or Compute puts the node in the first free register. */
  lemma StepFills(nodes: seq<Node>, m: Machine, s: Sym)
    requires s.node < |nodes| && Step(nodes, m, s).Next? && (s.rule == R1 || s.rule == R3)
    ensures FirstFree(m.regs) < |m.regs| && m.regs[FirstFree(m.regs)] == None
    ensures Step(nodes, m, s).m ==
              m.(regs := m.regs[FirstFree(m.regs) := Some(s.node)], loads := m.loads + (if s.rule == R1 then 1 else 0))
  {
  }

  /** A successful Store or Delete empties the first register holding the node. */
  lemma StepClears(nodes: seq<Node>, m: Machine, s: Sym)
    requires s.node < |nodes| && Step(nodes, m, s).Next? && (s.rule == R2 || s.rule == R4)
    ensures FirstHolding(m.regs, s.node) < |m.regs| && m.regs[FirstHolding(m.regs, s.node)] == Some(s.node)
    ensures Step(nodes, m, s).m ==
              m.(regs := m.regs[FirstHolding(m.regs, s.node) := None],
                 stores := m.stores + (if s.rule == R2 then 1 else 0),
                 deleted := if s.rule == R4 then m.deleted + {s.node} else m.deleted)
  {
  }

  /** A failed move reports the first failing check in the source's order: for Load and
      Compute a full register file before deletion, for Store and Delete absence before
      deletion, and for Compute the dependencies before the free register. */
  lemma StepDiagnosis(nodes: seq<Node>, m: Machine, s: Sym, v: Violation)
    requires s.node < |nodes| && Step(nodes, m, s) == Violated(v)
    ensures s.rule == R1 ==>
              (v == FullOnLoad <==> Occupied(m.regs) == |m.regs|) && (v == FullOnLoad || v == DeletedOnLoad)
    ensures s.rule == R2 ==>
              (v == AbsentOnStore <==> Some(s.node) !in m.regs) && (v == AbsentOnStore || v == DeletedOnStore)
    ensures s.rule == R3 ==>
              && (v == DependencyMissing <==> exists k :: FirstUnusable(nodes[s.node].preds, m, k) && Some(nodes[s.node].preds[k]) !in m.regs)
              && (v == DependencyDeleted <==> exists k :: FirstUnusable(nodes[s.node].preds, m, k) && Some(nodes[s.node].preds[k]) in m.regs)
              && (v == FullOnCompute <==> (forall k :: 0 <= k < |nodes[s.node].preds| ==> Usable(m, nodes[s.node].preds[k])))
    ensures s.rule == R4 ==>
              (v == AbsentOnDelete <==> Some(s.node) !in m.regs) && (v == AbsentOnDelete || v == DeletedOnDelete)
  {
    if s.rule == R2 || s.rule == R4 {
      var j := FirstHolding(m.regs, s.node);
      assert j == |m.regs| <==> Some(s.node) !in m.regs by {
        if j < |m.regs| {
          assert m.regs[j] == Some(s.node);
        }
      }
    }
  }

  // ---------------------------------------------------------------------------
  // The replay

  /** The verdict of a replay: valid with its I/O cost, invalid at a date, or stopped at
      the first date without a move, which prints no verdict at all. */
  datatype Verdict = Valid(cost: nat) | Invalid(reason: Violation, time: nat) | Stopped(time: nat)

  /** What a date without a move does: the source's loop ends there; skipping it is the
      alternative under which the replay always reaches a verdict. */
  datatype IdlePolicy = StopWhenIdle | SkipIdle

  /** The move of date t: the first symbol of the schedule dated t. */
  function FirstAt(sched: seq<Sym>, t: nat): (r: Option<Sym>)
    ensures r.None? <==> forall k :: 0 <= k < |sched| ==> sched[k].date != t
    ensures r.Some? ==> exists k :: 0 <= k < |sched| && sched[k] == r.value && r.value.date == t &&
                          forall i :: 0 <= i < k ==> sched[i].date != t
  {
    if |sched| == 0 then None
    else if sched[0].date == t then Some(sched[0])
    else
      var r := FirstAt(sched[1..], t);
      assert forall k :: 0 < k < |sched| ==> sched[k] == sched[1..][k - 1];
      r
  }

  /** Every symbol of the schedule names a node of the DAG. */
  predicate KnownNodes(nodes: seq<Node>, sched: seq<Sym>)
  {
    forall k :: 0 <= k < |sched| ==> sched[k].node < |nodes|
  }

  lemma FirstAtKnown(nodes: seq<Node>, sched: seq<Sym>, t: nat)
    requires KnownNodes(nodes, sched) && FirstAt(sched, t).Some?
    ensures FirstAt(sched, t).value.node < |nodes|
  {
  }

  /** Dates t .. budget-1 replayed from machine m. */
  function Run(nodes: seq<Node>, sched: seq<Sym>, budget: nat, idle: IdlePolicy, t: nat, m: Machine): (r: Verdict)
    requires KnownNodes(nodes, sched)
    ensures r.Invalid? ==> t <= r.time < budget && FirstAt(sched, r.time).Some?
    ensures r.Stopped? ==> idle == StopWhenIdle && t <= r.time < budget && FirstAt(sched, r.time).None?
    ensures r.Stopped? ==> forall u :: t <= u < r.time ==> FirstAt(sched, u).Some?
    decreases budget - t
  {
    if t >= budget then Valid(m.loads + m.stores)
    else
      match FirstAt(sched, t)
      case None => if idle == StopWhenIdle then Stopped(t) else Run(nodes, sched, budget, idle, t + 1, m)
      case Some(s) =>
        FirstAtKnown(nodes, sched, t);
        match Step(nodes, m, s)
        case Violated(v) => Invalid(v, t)
        case Next(m') => Run(nodes, sched, budget, idle, t + 1, m')
  }

  /** The register file at the start: nbRedPebbles empty slots, no I/O yet, and the
      nodes whose flag is already set count as deleted. */
  function Initial(nodes: seq<Node>, nbRedPebbles: nat): (m: Machine)
    ensures |m.regs| == nbRedPebbles && Occupied(m.regs) == 0
    ensures forall n: nat :: n in m.deleted <==> n < |nodes| && nodes[n].deleted
    ensures m.loads == 0 && m.stores == 0
  {
    EmptyRegistersFree(nbRedPebbles);
    Machine(EmptyRegisters(nbRedPebbles), set n | 0 <= n < |nodes| && nodes[n].deleted, 0, 0)
  }

  function EmptyRegisters(k: nat): (regs: seq<Option<nat>>)
    ensures |regs| == k
  {
    seq(k, _ => None)
  }

  lemma {:induction false} EmptyRegistersFree(k: nat)
    ensures multiset(EmptyRegisters(k))[None] == k
  {
    if k > 0 {
      assert EmptyRegisters(k) == EmptyRegisters(k - 1) + [None];
      EmptyRegistersFree(k - 1);
    }
  }

  /** The replay of main.cpp: dates 0 .. budget-1, counters starting at zero. */
  function Replay(nodes: seq<Node>, sched: seq<Sym>, nbRedPebbles: nat, budget: nat): (r: Verdict)
    requires KnownNodes(nodes, sched)
    ensures r.Invalid? ==> r.time < budget && FirstAt(sched, r.time).Some?
    ensures r.Stopped? ==>
              r.time < budget && FirstAt(sched, r.time).None? && (forall t :: 0 <= t < r.time ==> FirstAt(sched, t).Some?)
  {
    Run(nodes, sched, budget, StopWhenIdle, 0, Initial(nodes, nbRedPebbles))
  }

  /** The replay with idle dates skipped instead of ending the run. */
  function ReplaySkippingIdle(nodes: seq<Node>, sched: seq<Sym>, nbRedPebbles: nat, budget: nat): (r: Verdict)
    requires KnownNodes(nodes, sched)
    ensures !r.Stopped?
    ensures r.Invalid? ==> r.time < budget && FirstAt(sched, r.time).Some?
  {
    Run(nodes, sched, budget, SkipIdle, 0, Initial(nodes, nbRedPebbles))
  }

  // ---------------------------------------------------------------------------
  // Properties of the replay

  /** Load and Store moves among the moves of dates lo .. hi-1. */
  function IoMoves(sched: seq<Sym>, lo: nat, hi: nat): nat
    decreases hi - lo
  {
    if lo >= hi then 0
    else
      (match FirstAt(sched, lo)
       case Some(s) => if s.rule == R1 || s.rule == R2 then 1 else 0
       case None => 0)
      + IoMoves(sched, lo + 1, hi)
  }

  /** Net register demand of the moves of dates lo .. hi-1: the weights of the capacity
      constraint, +1 for Load and Compute, -1 for Store and Delete. */
  function NetLoad(sched: seq<Sym>, lo: nat, hi: nat): int
    decreases hi - lo
  {
    if lo >= hi then 0
    else
      (match FirstAt(sched, lo)
       case Some(s) => Weight(s.rule)
       case None => 0)
      + NetLoad(sched, lo + 1, hi)
  }

  /** The reported cost is the I/O counted so far plus one per Load and Store move. */
  lemma {:induction false} RunCost(nodes: seq<Node>, sched: seq<Sym>, budget: nat, idle: IdlePolicy, t: nat, m: Machine, c: nat)
    requires KnownNodes(nodes, sched) && Run(nodes, sched, budget, idle, t, m) == Valid(c)
    ensures c == m.loads + m.stores + IoMoves(sched, t, budget)
    decreases budget - t
  {
    if t < budget {
      match FirstAt(sched, t)
      case None =>
        RunCost(nodes, sched, budget, idle, t + 1, m, c);
      case Some(s) =>
        FirstAtKnown(nodes, sched, t);
        StepEffect(nodes, m, s);
        RunCost(nodes, sched, budget, idle, t + 1, Step(nodes, m, s).m, c);
    }
  }

  /** The machine after the move of date t, if that move succeeds. */
  function After(nodes: seq<Node>, sched: seq<Sym>, t: nat, m: Machine): Machine
    requires KnownNodes(nodes, sched)
  {
    match FirstAt(sched, t)
    case None => m
    case Some(s) =>
      FirstAtKnown(nodes, sched, t);
      match Step(nodes, m, s)
      case Next(m') => m'
      case Violated(_) => m
  }

  /** Along a run that reaches the end, the register demand never exceeds the free
      registers: the replay's counterpart of the capacity constraint. */
  lemma {:induction false} RunCapacity(nodes: seq<Node>, sched: seq<Sym>, budget: nat, idle: IdlePolicy, t: nat, m: Machine, c: nat)
    requires KnownNodes(nodes, sched) && Run(nodes, sched, budget, idle, t, m) == Valid(c)
    ensures forall u :: t < u <= budget ==> Occupied(m.regs) + NetLoad(sched, t, u) <= |m.regs|
    decreases budget - t
  {
    if t < budget {
      var m' := After(nodes, sched, t, m);
      if FirstAt(sched, t).Some? {
        FirstAtKnown(nodes, sched, t);
        StepEffect(nodes, m, FirstAt(sched, t).value);
      }
      assert Occupied(m'.regs) == Occupied(m.regs) + NetLoad(sched, t, t + 1);
      assert |m'.regs| == |m.regs|;
      assert Run(nodes, sched, budget, idle, t + 1, m') == Valid(c);
      RunCapacity(nodes, sched, budget, idle, t + 1, m', c);
      forall u | t < u <= budget
        ensures Occupied(m.regs) + NetLoad(sched, t, u) <= |m.regs|
      {
        if u > t + 1 {
          assert NetLoad(sched, t, u) == NetLoad(sched, t, t + 1) + NetLoad(sched, t + 1, u);
        }
      }
    }
  }

  /** A run in the source's mode reaches the end only if every date has a move. */
  lemma {:induction false} RunValidMovesEveryDate(nodes: seq<Node>, sched: seq<Sym>, budget: nat, t: nat, m: Machine, c: nat)
    requires KnownNodes(nodes, sched) && Run(nodes, sched, budget, StopWhenIdle, t, m) == Valid(c)
    ensures forall u :: t <= u < budget ==> FirstAt(sched, u).Some?
    decreases budget - t
  {
    if t < budget {
      var s := FirstAt(sched, t).value;
      FirstAtKnown(nodes, sched, t);
      RunValidMovesEveryDate(nodes, sched, budget, t + 1, Step(nodes, m, s).m, c);
    }
  }

  /** A replay that is reported valid cost exactly its Load and Store moves and never
      needed more than nbRedPebbles registers at any date. */
  lemma ReplayValid(nodes: seq<Node>, sched: seq<Sym>, nbRedPebbles: nat, budget: nat, c: nat)
    requires KnownNodes(nodes, sched) && Replay(nodes, sched, nbRedPebbles, budget) == Valid(c)
    ensures c == IoMoves(sched, 0, budget)
    ensures forall t :: 0 <= t < budget ==> FirstAt(sched, t).Some?
    ensures forall t :: 0 < t <= budget ==> NetLoad(sched, 0, t) <= nbRedPebbles
  {
    var m := Initial(nodes, nbRedPebbles);
    RunCost(nodes, sched, budget, StopWhenIdle, 0, m, c);
    RunCapacity(nodes, sched, budget, StopWhenIdle, 0, m, c);
    RunValidMovesEveryDate(nodes, sched, budget, 0, m, c);
  }

  // ---------------------------------------------------------------------------
  // Idle dates

  /** A chain 0 -> 1 with the windows a deadline of 5 gives it: node 0 may be loaded at
      dates 0 .. 3, node 1 computed at dates 1 .. 5. */
  function IdleNodes(): (nodes: seq<Node>)
    ensures |nodes| == 2
  {
    [Node([], [1], 1, 0, 3, false), Node([0], [], 2, 1, 5, false)]
  }

  /** Load node 0, compute node 1, delete node 0, store node 1: done by date 3, with date 4
      left without a move. */
  function IdleSchedule(): (sched: seq<Sym>)
    ensures KnownNodes(IdleNodes(), sched)
  {
    [Sym(0, R1, 0), Sym(1, R3, 1), Sym(0, R4, 2), Sym(1, R2, 3)]
  }

  /** The four moves of the example on two registers. */
  lemma IdleSteps()
    ensures Step(IdleNodes(), Machine([None, None], {}, 0, 0), Sym(0, R1, 0))
            == Next(Machine([Some(0), None], {}, 1, 0))
    ensures Step(IdleNodes(), Machine([Some(0), None], {}, 1, 0), Sym(1, R3, 1))
            == Next(Machine([Some(0), Some(1)], {}, 1, 0))
    ensures Step(IdleNodes(), Machine([Some(0), Some(1)], {}, 1, 0), Sym(0, R4, 2))
            == Next(Machine([None, Some(1)], {0}, 1, 0))
    ensures Step(IdleNodes(), Machine([None, Some(1)], {0}, 1, 0), Sym(1, R2, 3))
            == Next(Machine([None, None], {0}, 1, 1))
  {
    var m1 := Machine([Some(0), None], {}, 1, 0);
    var m2 := Machine([Some(0), Some(1)], {}, 1, 0);
    var m3 := Machine([None, Some(1)], {0}, 1, 0);
    assert [None, None][0 := Some(0)] == m1.regs;
    assert m1.regs[1..] == [None];
    assert FirstFree(m1.regs) == 1;
    assert Usable(m1, 0);
    assert CheckPreds([0], m1) == None;
    assert m1.regs[1 := Some(1)] == m2.regs;
    assert FirstHolding(m2.regs, 0) == 0;
    assert m2.regs[0 := None] == m3.regs;
    assert m3.regs[1..] == [Some(1)];
    assert FirstHolding(m3.regs, 1) == 1;
    assert m3.regs[1 := None] == [None, None];
  }

  /** The move of each date of the example. */
  lemma IdleDates()
    ensures FirstAt(IdleSchedule(), 0) == Some(Sym(0, R1, 0))
    ensures FirstAt(IdleSchedule(), 1) == Some(Sym(1, R3, 1))
    ensures FirstAt(IdleSchedule(), 2) == Some(Sym(0, R4, 2))
    ensures FirstAt(IdleSchedule(), 3) == Some(Sym(1, R2, 3))
  {
    var sched := IdleSchedule();
    assert sched[1..] == [Sym(1, R3, 1), Sym(0, R4, 2), Sym(1, R2, 3)];
    assert sched[1..][1..] == [Sym(0, R4, 2), Sym(1, R2, 3)];
    assert sched[1..][1..][1..] == [Sym(1, R2, 3)];
  }

  /** No move of the example is dated 4. */
  lemma IdleDate4()
    ensures FirstAt(IdleSchedule(), 4) == None
  {
    var sched := IdleSchedule();
    assert sched[1..] == [Sym(1, R3, 1), Sym(0, R4, 2), Sym(1, R2, 3)];
    assert sched[1..][1..] == [Sym(0, R4, 2), Sym(1, R2, 3)];
    assert sched[1..][1..][1..] == [Sym(1, R2, 3)];
    assert sched[1..][1..][1..][1..] == [];
  }

  /** The machines the example passes through, from the start to after date d. */
  function IdleMachine(d: nat): Machine
    requires d <= 4
  {
    [Machine([None, None], {}, 0, 0), Machine([Some(0), None], {}, 1, 0), Machine([Some(0), Some(1)], {}, 1, 0),
     Machine([None, Some(1)], {0}, 1, 0), Machine([None, None], {0}, 1, 1)][d]
  }

  /** Under either idle policy, the four moves hand the run from date 0 to date 4. */
  lemma IdleRunReachesDate4(idle: IdlePolicy)
    ensures Run(IdleNodes(), IdleSchedule(), 5, idle, 0, IdleMachine(0)) ==
            Run(IdleNodes(), IdleSchedule(), 5, idle, 4, IdleMachine(4))
  {
    var nodes, sched := IdleNodes(), IdleSchedule();
    IdleSteps();
    IdleDates();
    assert Run(nodes, sched, 5, idle, 3, IdleMachine(3)) == Run(nodes, sched, 5, idle, 4, IdleMachine(4));
    assert Run(nodes, sched, 5, idle, 2, IdleMachine(2)) == Run(nodes, sched, 5, idle, 3, IdleMachine(3));
    assert Run(nodes, sched, 5, idle, 1, IdleMachine(1)) == Run(nodes, sched, 5, idle, 2, IdleMachine(2));
    assert Run(nodes, sched, 5, idle, 0, IdleMachine(0)) == Run(nodes, sched, 5, idle, 1, IdleMachine(1));
  }

  /** As written, a date without a move ends the replay without a verdict, even when the
      schedule did nothing wrong and finished early: on the example with two registers and a
      budget of 5, the source stops at date 4, while skipping the idle date reports it valid
      with one Load and one Store. */
  lemma IdleDateStopsReplay()
    ensures Replay(IdleNodes(), IdleSchedule(), 2, 5) == Stopped(4)
    ensures ReplaySkippingIdle(IdleNodes(), IdleSchedule(), 2, 5) == Valid(2)
  {
    var nodes, sched := IdleNodes(), IdleSchedule();
    var m0 := Initial(nodes, 2);
    assert m0.deleted == {};
    assert m0 == IdleMachine(0);
    IdleDate4();
    IdleRunReachesDate4(StopWhenIdle);
    IdleRunReachesDate4(SkipIdle);
    assert Run(nodes, sched, 5, SkipIdle, 4, IdleMachine(4)) == Run(nodes, sched, 5, SkipIdle, 5, IdleMachine(4));
  }

  /** The move of date t exists and fails on m. */
  predicate FailsAt(nodes: seq<Node>, sched: seq<Sym>, t: nat, m: Machine)
    requires KnownNodes(nodes, sched)
  {
    match FirstAt(sched, t)
    case None => false
    case Some(s) =>
      FirstAtKnown(nodes, sched, t);
      Step(nodes, m, s).Violated?
  }

  /** Skipping idle dates, a date before both budgets either fails under both or hands the
      run on to the next date under both. */
  lemma RunSkipStep(nodes: seq<Node>, sched: seq<Sym>, budget: nat, budget': nat, t: nat, m: Machine)
    requires KnownNodes(nodes, sched) && t < budget && t < budget'
    ensures FailsAt(nodes, sched, t, m) ==>
              Run(nodes, sched, budget, SkipIdle, t, m) == Run(nodes, sched, budget', SkipIdle, t, m)
    ensures !FailsAt(nodes, sched, t, m) ==>
              && Run(nodes, sched, budget, SkipIdle, t, m) == Run(nodes, sched, budget, SkipIdle, t + 1, After(nodes, sched, t, m))
              && Run(nodes, sched, budget', SkipIdle, t, m) == Run(nodes, sched, budget', SkipIdle, t + 1, After(nodes, sched, t, m))
  {
    if FirstAt(sched, t).Some? {
      FirstAtKnown(nodes, sched, t);
    }
  }

  /** Skipping idle dates, a trailing date without a move does not change the verdict: a
      schedule that finishes early is judged like one given exactly its own length. */
  lemma {:induction false} TrailingIdleIrrelevant(nodes: seq<Node>, sched: seq<Sym>, budget: nat, t: nat, m: Machine)
    requires KnownNodes(nodes, sched) && t <= budget && FirstAt(sched, budget).None?
    ensures Run(nodes, sched, budget + 1, SkipIdle, t, m) == Run(nodes, sched, budget, SkipIdle, t, m)
    decreases budget - t
  {
    if t < budget {
      RunSkipStep(nodes, sched, budget, budget + 1, t, m);
      if !FailsAt(nodes, sched, t, m) {
        TrailingIdleIrrelevant(nodes, sched, budget, t + 1, After(nodes, sched, t, m));
      }
    }
  }

  // ---------------------------------------------------------------------------
  // A spill the source's P4 lets through

  /** A chain 0 -> 1 -> 2: node 1 is computed at date 1, stored at date 2 and used by node 2
      at date 3. */
  function SpillNodes(): (nodes: seq<Node>)
    ensures |nodes| == 3
  {
    [Node([], [1], 1, 0, 1, false), Node([0], [2], 2, 1, 2, false), Node([1], [], 3, 2, 4, false)]
  }

  function SpillSchedule(): (sched: seq<Sym>)
    ensures KnownNodes(SpillNodes(), sched)
  {
    [Sym(0, R1, 0), Sym(1, R3, 1), Sym(1, R2, 2), Sym(2, R3, 3)]
  }

  /** Under the assignment that makes exactly the schedule's symbols true, the source's P4
      for node 1 at date 3 holds while the corrected P4 does not. */
  lemma SpillPassesSourceP4()
    ensures var a: Formulas.Assignment := (s: Sym) => s in SpillSchedule();
      && Formulas.Eval(ReadyIntermediateAsWritten(1, 1, 1, 3), a)
      && !Formulas.Eval(ReadyIntermediate(1, 1, 1, 3), a)
  {
    var a: Formulas.Assignment := (s: Sym) => s in SpillSchedule();
    ReadyIntermediateAsWrittenMeans(1, 1, 1, 3, a);
    ReadyIntermediateMeans(1, 1, 1, 3, a);
    assert a(Sym(1, R3, 1));
    assert a(Sym(1, R2, 2));
  }

  /** The first two dates of the example: load node 0, compute node 1. */
  lemma SpillFirstSteps()
    ensures Step(SpillNodes(), Machine([None, None, None], {}, 0, 0), Sym(0, R1, 0))
            == Next(Machine([Some(0), None, None], {}, 1, 0))
    ensures Step(SpillNodes(), Machine([Some(0), None, None], {}, 1, 0), Sym(1, R3, 1))
            == Next(Machine([Some(0), Some(1), None], {}, 1, 0))
  {
    var m1 := Machine([Some(0), None, None], {}, 1, 0);
    assert [None, None, None][0 := Some(0)] == m1.regs;
    assert m1.regs[1..] == [None, None];
    assert FirstFree(m1.regs) == 1;
    assert Usable(m1, 0);
    assert CheckPreds([0], m1) == None;
    assert m1.regs[1 := Some(1)] == [Some(0), Some(1), None];
  }

  /** The last two dates: store node 1, then the compute of node 2 finds it gone. */
  lemma SpillLastSteps()
    ensures Step(SpillNodes(), Machine([Some(0), Some(1), None], {}, 1, 0), Sym(1, R2, 2))
            == Next(Machine([Some(0), None, None], {}, 1, 1))
    ensures Step(SpillNodes(), Machine([Some(0), None, None], {}, 1, 1), Sym(2, R3, 3))
            == Violated(DependencyMissing)
  {
    var m2 := Machine([Some(0), Some(1), None], {}, 1, 0);
    var m3 := Machine([Some(0), None, None], {}, 1, 1);
    assert m2.regs[1..] == [Some(1), None];
    assert FirstHolding(m2.regs, 1) == 1;
    assert m2.regs[1 := None] == m3.regs;
    assert Some(1) !in m3.regs;
    assert CheckPreds([1], m3) == Some(DependencyMissing);
  }

  /** The move of each date of the example. */
  lemma SpillDates()
    ensures FirstAt(SpillSchedule(), 0) == Some(Sym(0, R1, 0))
    ensures FirstAt(SpillSchedule(), 1) == Some(Sym(1, R3, 1))
    ensures FirstAt(SpillSchedule(), 2) == Some(Sym(1, R2, 2))
    ensures FirstAt(SpillSchedule(), 3) == Some(Sym(2, R3, 3))
  {
    var sched := SpillSchedule();
    assert sched[1..] == [Sym(1, R3, 1), Sym(1, R2, 2), Sym(2, R3, 3)];
    assert sched[1..][1..] == [Sym(1, R2, 2), Sym(2, R3, 3)];
    assert sched[1..][1..][1..] == [Sym(2, R3, 3)];
  }

  /** The replay rejects the example schedule at date 3: node 1 is in no register when
      node 2 is computed, although the source's P4 accepted it. */
  lemma SpilledDependencyRejected()
    ensures Replay(SpillNodes(), SpillSchedule(), 3, 4) == Invalid(DependencyMissing, 3)
  {
    var nodes, sched := SpillNodes(), SpillSchedule();
    var m0 := Initial(nodes, 3);
    assert m0.deleted == {};
    assert m0 == Machine([None, None, None], {}, 0, 0);
    var m1 := Machine([Some(0), None, None], {}, 1, 0);
    var m2 := Machine([Some(0), Some(1), None], {}, 1, 0);
    var m3 := Machine([Some(0), None, None], {}, 1, 1);
    SpillFirstSteps();
    SpillLastSteps();
    SpillDates();
    assert Run(nodes, sched, 4, StopWhenIdle, 3, m3) == Invalid(DependencyMissing, 3);
    assert Run(nodes, sched, 4, StopWhenIdle, 2, m2) == Run(nodes, sched, 4, StopWhenIdle, 3, m3);
    assert Run(nodes, sched, 4, StopWhenIdle, 1, m1) == Run(nodes, sched, 4, StopWhenIdle, 2, m2);
    assert Run(nodes, sched, 4, StopWhenIdle, 0, m0) == Run(nodes, sched, 4, StopWhenIdle, 1, m1);
  }
}

=== FILE: symbols.dfy ===
/**
 * Symbols of the pebbling encoding: the four rules of the red/blue pebble
 * game and the (node, rule, date) triples that name a Boolean decision
 * variable. The textual name of a symbol is "R<k>(<num>,<date>)" where
 * <num> is the 1-based node number.
 */
module Symbols {

  /** The four pebbling moves: R1 load, R2 store, R3 compute, R4 delete. */
  datatype Rule = R1 | R2 | R3 | R4

  /** A decision variable: node `node` (0-based index) applies `rule` at time `date`. */
  datatype Sym = Sym(node: nat, rule: Rule, date: nat)

  /** The two-character name of a rule: "R" and its digit, 1 to 4. */
  function RuleToString(r: Rule): (s: string)
    ensures |s| == 2 && s[0] == 'R' && '1' <= s[1] <= '4'
  {
    match r
    case R1 => "R1"
    case R2 => "R2"
    case R3 => "R3"
    case R4 => "R4"
  }

  predicate IsDigit(c: char)
  {
    '0' <= c <= '9'
  }

  predicate AllDigits(s: string)
  {
    forall k :: 0 <= k < |s| ==> IsDigit(s[k])
  }

  function DigitChar(d: nat): (c: char)
    requires d < 10
    ensures IsDigit(c) && c as int - '0' as int == d
  {
    ('0' as int + d) as char
  }

  /** Decimal rendering without leading zeros, as std::to_string does for an unsigned value. */
  function NatToString(n: nat): (s: string)
    ensures |s| >= 1 && AllDigits(s)
    decreases n
  {
    if n < 10 then [DigitChar(n)] else NatToString(n / 10) + [DigitChar(n % 10)]
  }

  /** Reads a string of decimal digits back into its value. */
  function ParseNat(s: string): nat
    requires AllDigits(s)
  {
    if |s| == 0 then 0
    else ParseNat(s[..|s| - 1]) * 10 + (s[|s| - 1] as int - '0' as int)
  }

  /** ParseNat inverts NatToString, so the decimal rendering loses nothing. */
  lemma {:induction false} ParseNatToString(n: nat)
    ensures ParseNat(NatToString(n)) == n
    decreases n
  {
    if n >= 10 {
      var s := NatToString(n);
      assert s[..|s| - 1] == NatToString(n / 10);
      ParseNatToString(n / 10);
    }
  }

  lemma NatToStringInjective(a: nat, b: nat)
    ensures NatToString(a) == NatToString(b) <==> a == b
  {
    if NatToString(a) == NatToString(b) {
      ParseNatToString(a);
      ParseNatToString(b);
    }
  }

  /** The name "R<k>(<num>,<date>)" of a symbol, whose two numbers read back as the 1-based
      node number and the date. */
  function SymbolName(s: Sym): (name: string)
    ensures |name| >= 7 && name[..3] == RuleToString(s.rule) + "(" && name[|name| - 1] == ')'
    ensures exists num, date :: AllDigits(num) && AllDigits(date) &&
              name == RuleToString(s.rule) + "(" + num + "," + date + ")" &&
              ParseNat(num) == s.node + 1 && ParseNat(date) == s.date
  {
    ParseNatToString(s.node + 1);
    ParseNatToString(s.date);
    RuleToString(s.rule) + "(" + NatToString(s.node + 1) + "," + NatToString(s.date) + ")"
  }

  /** Length of the longest all-digit prefix of `s`. */
  function DigitPrefixLength(s: string): (n: nat)
    ensures n <= |s|
  {
    if |s| == 0 || !IsDigit(s[0]) then 0 else 1 + DigitPrefixLength(s[1..])
  }

  lemma {:induction false} DigitPrefixOfSeparated(d: string, sep: char, r: string)
    requires AllDigits(d) && !IsDigit(sep)
    ensures DigitPrefixLength(d + [sep] + r) == |d|
    decreases |d|
  {
    if |d| > 0 {
      assert (d + [sep] + r)[1..] == d[1..] + [sep] + r;
      DigitPrefixOfSeparated(d[1..], sep, r);
    }
  }

  /** Splitting `d + [sep] + rest` at the first non-digit recovers `d` and `rest`. */
  lemma DigitsBeforeSeparator(d1: string, r1: string, d2: string, r2: string, sep: char)
    requires AllDigits(d1) && AllDigits(d2) && !IsDigit(sep)
    requires d1 + [sep] + r1 == d2 + [sep] + r2
    ensures d1 == d2 && r1 == r2
  {
    var x := d1 + [sep] + r1;
    DigitPrefixOfSeparated(d1, sep, r1);
    DigitPrefixOfSeparated(d2, sep, r2);
    assert d1 == x[..|d1|] == d2;
    assert r1 == x[|d1| + 1..] == r2;
  }

  /** A name is the rule's two characters, "(", then the number, ",", the date and ")". */
  lemma NameParts(r: Rule, num: string, date: string)
    ensures var name := RuleToString(r) + "(" + num + "," + date + ")";
      |name| > 3 && name[1] == RuleToString(r)[1] && name[3..] == num + [','] + (date + [')'])
  {
    var name := RuleToString(r) + "(" + num + "," + date + ")";
    assert name == (RuleToString(r) + "(") + (num + [','] + (date + [')']));
  }

  /** The second character of a rule's name tells the rule. */
  lemma RuleDigitInjective(r1: Rule, r2: Rule)
    requires RuleToString(r1)[1] == RuleToString(r2)[1]
    ensures r1 == r2
  {
  }

  /** Distinct triples get distinct names, so a name identifies its symbol. */
  lemma SymbolNameInjective(a: Sym, b: Sym)
    ensures SymbolName(a) == SymbolName(b) <==> a == b
  {
    if SymbolName(a) == SymbolName(b) {
      var na, da :| AllDigits(na) && AllDigits(da) &&
        SymbolName(a) == RuleToString(a.rule) + "(" + na + "," + da + ")" &&
        ParseNat(na) == a.node + 1 && ParseNat(da) == a.date;
      var nb, db :| AllDigits(nb) && AllDigits(db) &&
        SymbolName(b) == RuleToString(b.rule) + "(" + nb + "," + db + ")" &&
        ParseNat(nb) == b.node + 1 && ParseNat(db) == b.date;
      NameParts(a.rule, na, da);
      NameParts(b.rule, nb, db);
      RuleDigitInjective(a.rule, b.rule);
      DigitsBeforeSeparator(na, da + [')'], nb, db + [')'], ',');
      assert da == (da + [')'])[..|da|] == db;
    }
  }
}

=== FILE: wrappers.dfy ===
/** Failure-carrying result types shared by the whole model. */
module Wrappers {

  /** An optional value: used where the source returns a null pointer or an end iterator. */
  datatype Option<+T> = None | Some(value: T)

  /** The outcome of an operation that the source can abort (an exception or an early break). */
  datatype Result<+T, +E> = Success(value: T) | Failure(error: E)
}
